=== FILE: README.md ===
# magic-mirror: the PHP include refactorer and the URL/file-name clean-up, in Dafny

magic-mirror saves a website to disk. It then rewrites the saved site. This
project models the string and bookkeeping logic of those rewrites and proves
properties of it.

**The PHP refactorer (`PHPRefactor`)** works in four steps:
- It extracts candidate blocks from every `.php` page: scripts, navigation
  containers, header and footer, groups of adjacent head `<link>` and
  `<meta>` tags, runs of `<link>` tags, and `<?php ... ?>` sections.
- It clusters blocks that are similar across pages.
- It writes one include file per cluster.
- It replaces each occurrence with `<?php include '...'; ?>`. It tries a
  chain of matching tiers for each occurrence: exact text, a whitespace-tolerant
  tag pattern, a structural fingerprint, script attributes, a fuzzy window
  search, menu items, and finally the whole navigation file.

**The downloader's helpers:**
- `is_probably_url`.
- The attribute rewrite of `normalize_html`. Relative values become
  site-rooted, the site's own absolute URLs lose their host, `.asp.html` and
  `.php.html` become `.html`, and runs of slashes collapse.
- The file-name passes. `@query` tails are stripped and references fixed;
  `.asp.html`/`.php.html` pages are renamed to `.html`; `.html` pages and the
  links naming them are renamed to `.php`.

Modules:

| file | module | what it holds |
|---|---|---|
| `text.dfy` | `Text` | Python string operations: `find`, `in`, `replace`, `split`, `join`, `count`, `\s+` normalisation, `rstrip`, `basename` |
| `blocks.dfy` | `Blocks` | blocks and `_extract_potential_blocks`, with the two regular expressions over raw text modelled exactly |
| `clusters.dfy` | `Clusters` | `identify_common_blocks` |
| `includes.dfy` | `Includes` | `create_includes` |
| `patterns.dfy` | `Patterns` | the `\s*`-joined tag pattern of the link and meta tiers, with the regex engine's backtracking |
| `rewrite.dfy` | `Rewrite` | `apply_includes`: the tiers, their order and the replay over clusters and occurrences |
| `refactor.dfy` | `Refactor` | `run` |
| `urls.dfy` | `Urls` | `is_probably_url` and the `normalize_html` attribute rewrite |
| `filenames.dfy` | `FileNames` | the query-string clean-up, the `.asp.html` rename and `php_rename` |

These outside pieces become parameters of the functions that use them:
- the HTML parser, as datatypes holding what it returns for a page;
- `difflib.SequenceMatcher(...).ratio()`, as `sim`;
- `hashlib.md5(...).hexdigest()`, as `md5`;
- `urllib.parse.urlparse`, as a scheme test and a file-name extractor.

The similarity thresholds are exact reals: 0.9 by default, 0.8 for the
fingerprint tier and 70% for the menu tier. The file-system walks become
sequences of pages or sets of directory entries.

Some behaviours of the code are easy to miss when reading it:
- **Three identical blocks give a cluster of two.** The second block claims
  the shared hash, so the third is skipped both as a member and as a seed
  (`Clusters.ThreeIdenticalBlocksClusterOfTwo`).
- **The exact tier replaces every occurrence** in the page, since it uses
  `str.replace` (`Rewrite.ExactTierIff`).
- **Two members of a cluster may come from the same file.** Only the seed's
  own file is excluded (`Clusters.TwoMembersFromOnePage`).
- **The head scan keeps a `<link>` for its `rel` only when `rel` equals the
  string `stylesheet`.** The parser gives `rel` as a token list, so that
  comparison never holds. The model's head scan uses the test as written
  (`Blocks.FilterCssOrIcon`). The corrected filter is
  `Blocks.FilterCssOrIconFixed`; see Findings.

`Urls.UpRebase` counts every `../` in a value, not just the leading ones, as
the code does. `Urls.UpRebaseLeading` states the result for values whose
`../` are all leading.

## Model

| member | source | states |
|---|---|---|
| Blocks.SizedBlocks | php_refactor.py:67-100 | The k-th block is made from the k-th element serialisation at least `min_block_size` long, in page order, tagged with its type and page and hashed over its content. The positions are those `Text.Selected` picks, so a repeated serialisation gives repeated blocks and there are as many blocks as long enough items. |
| Blocks.SizedBlocksComplete | php_refactor.py:67-100 | Every element serialisation at least `min_block_size` long yields its block, so together with `SizedBlocks` a block is kept exactly when it is long enough. |
| Blocks.FirstClose | php_refactor.py:201 | Gives the first position at which the lazy group of `<\?php\s+(.+?)\s+\?>` may stop, or none. |
| Blocks.PhpMatchAtIff | php_refactor.py:201 | The pattern matches at a position exactly when the text there is `<?php`, whitespace, a non-empty group, whitespace and `?>`. The match found has that shape. Its group starts where the greedy leading `\s+` ends when the lazy group can close after that; otherwise the run gives back two characters and `?>` follows it. |
| Blocks.PhpMatchAtComplete | php_refactor.py:201 | Whenever the text at a position spells the pattern, a match is found there. |
| Blocks.PhpInnersSkip | php_refactor.py:201 | Positions where the pattern does not match add nothing to the `findall` result. |
| Blocks.PhpInnersLeftmost | php_refactor.py:201 | `re.findall` returns the group of the leftmost match first, then continues after the end of that match. |
| Blocks.PhpInnersNone | php_refactor.py:201 | With no match at or after a position, nothing more is returned. |
| Blocks.PhpBlocks | php_refactor.py:202-208 | The k-th block is `<?php ` + g + ` ?>`, hashed over g, for the k-th group g at least `min_block_size` long, in the order findall returns them, so a group found twice gives two blocks. Every long enough group gives its block and no other block is made. |
| Blocks.LinkTagAtIff | php_refactor.py:354 | The tag scan at `i` ends at `e` exactly when `s[i..e]` is `<link`, one or more characters other than `>`, and `>`. |
| Blocks.LinkTagsLeftmost | php_refactor.py:354 | `re.findall(r'<link[^>]+>', ...)` returns the leftmost tag first, then continues after it. |
| Blocks.LinkTagsNone | php_refactor.py:354 | With no tag at or after a position, nothing more is returned. |
| Blocks.LinkUnits | php_refactor.py:186-187 | The greedy repetition of `<link[^>]+>\s*` matches a unit exactly when a tag starts at the position. It runs through all whitespace after its last tag, and stops where no further tag starts. |
| Blocks.LinkUnitsIff | php_refactor.py:187 | The repetition takes `n` units ending at `e` exactly when `LinkChain` holds: `n` tags, each starting where the whitespace after the previous one ends, with `e` the end of the last run of whitespace and no tag starting at `e`. That fixes both the count and the end. |
| Blocks.GroupAtIff | php_refactor.py:187-188 | A link group starts at a position exactly when some chain of three or more units starts there. |
| Blocks.LinkGroupsLeftmost | php_refactor.py:186-196 | `re.finditer` first yields a match at the leftmost position where three or more units match. That match spans the whole greedy repetition, and the search continues after it. |
| Blocks.LinkGroupsNone | php_refactor.py:186-196 | With no position at or after a point where three units match, nothing more is yielded. |
| Blocks.NextNonBlank | php_refactor.py:673-676 | Finds the next sibling that is not a whitespace-only string, and finds one exactly when such a sibling exists. |
| Blocks.AdjacentSiblingsIff | php_refactor.py:662-679 | Two elements are adjacent exactly when the second follows the first with only whitespace strings between them. |
| Blocks.RunsCover | php_refactor.py:117-144 | The grouping loop's runs, concatenated, are exactly the tags in order. |
| Blocks.RunsAdjacent | php_refactor.py:122-132 | Every run is non-empty and links only adjacent neighbours. |
| Blocks.RunsMaximal | php_refactor.py:122-144 | A run stops only where the next tag is not adjacent to the run's last tag. |
| Blocks.FilterCssOrIcon | php_refactor.py:109-114 | Keeps exactly the head links that pass the test as written: `rel` equal to the string `stylesheet`, `type` equal to `image/x-icon`, or an href mentioning `.css` or `favicon`. |
| Blocks.FilterCssOrIconFixed | php_refactor.py:109-114 | The same filter with `rel` read as the parser's token list keeps exactly the links that pass the corrected test. |
| Blocks.FontsLinkDropped | php_refactor.py:109-114 | A lone web-font stylesheet link is dropped by the filter as written and kept by the corrected one. |
| Blocks.StylesheetLinkKept | php_refactor.py:109-114 | With `rel` read as a token list, a link whose `rel` names the stylesheet token is kept whatever its href says, in its place among the kept links. |
| Blocks.GroupBlocks | php_refactor.py:135-144 | The k-th block is that of the k-th run of two or more tags whose joined markup is at least `min_block_size` long, in run order, so two runs with equal markup give two blocks. Its content is that markup, hashed. A block is made exactly for such runs. |
| Blocks.HeadGroupBlocks | php_refactor.py:117-170 | With fewer than two tags no block is made. Otherwise the blocks are those of the long enough runs of two or more adjacent siblings, one per run and in run order. |
| Blocks.CssPatternBlocks | php_refactor.py:176-184 | The k-th block is the css_links block of the k-th match of the fixed CSS-link pattern, one per match and with no size filter. |
| Blocks.HeadBlocks | php_refactor.py:103-170 | Without a head there are no head blocks. Otherwise the css_links groups of the links the as-written filter keeps come first, one per long enough run and in run order, followed by the meta_tags groups of the meta tags in the same way. |
| Blocks.StructuralBlocksShape | php_refactor.py:64-196 | Parsed blocks belong to the page, are never php_code, and are hashed over their content. Only the fixed CSS-pattern matches escape the size filter. |
| Blocks.ExtractBlocksShape | php_refactor.py:49-210 | Every extracted block belongs to its page. A php block is built from a long enough group and hashed over the group; every other block is hashed over its content. |
| Blocks.RelComparisonMissesStylesheet | php_refactor.py:111 | A stylesheet link whose href says neither `.css` nor `favicon` is rejected by the test as written and accepted by the corrected one. |
| Clusters.Scan | php_refactor.py:233-242 | Every member the scan takes is a block after the seed, at or after the position the scan starts from. |
| Clusters.ScanClaims | php_refactor.py:233-242 | The scan claims exactly its members' hashes on top of those claimed before. |
| Clusters.ScanOrdered | php_refactor.py:233-242 | Members are listed in extraction order, after the seed, and never two with the same hash. |
| Clusters.ScanMembers | php_refactor.py:233-242 | Every member comes from another file than the seed, is at least `threshold` similar to it, and had an unclaimed hash. |
| Clusters.ScanSelects | php_refactor.py:233-242 | A later block is taken exactly when, on reaching it, its hash is unclaimed and not yet taken, its file differs from the seed's, and its similarity is high enough. |
| Clusters.IdentifyCommonBlocksSpec | php_refactor.py:226-249 | Every kept cluster has at least `min_occurrences` members, starts with its seed and lists the rest in order, and takes none from the seed's file. It takes only similar members, never two members with the same hash, and is named `<type>_<k>`. Seeds come in order and no hash is in two clusters. |
| Clusters.ClusterIdCounter | php_refactor.py:246 | A block id `<type>_<k>` determines its counter. |
| Clusters.ClustersDistinct | php_refactor.py:226-249 | Kept clusters have pairwise distinct ids and share no block. |
| Clusters.OccurrencesBounded | php_refactor.py:226-249 | The clusters hold at most as many occurrences as there are extracted blocks. |
| Clusters.ThreeIdenticalBlocksClusterOfTwo | php_refactor.py:228-248 | Three identical blocks from three files give one cluster of two. |
| Clusters.IdentifyCommonBlocksSeeds | php_refactor.py:226-249 | The kept clusters are exactly those of the seeds. A seed is a block whose hash is unclaimed when the loop reaches it and whose scan finds enough members. Each cluster is its seed followed by that scan's members, and every seed has its cluster. |
| Clusters.BuildFromSeeds | php_refactor.py:228-249 | From any position, the loop appends exactly the clusters of the later seeds, in order. |
| Clusters.ClaimedAtStep | php_refactor.py:233-248 | A loop step only adds hashes to the claimed set. A scan leaves its members claimed whether its cluster is kept or dropped. |
| Clusters.ClaimedAtGrows | php_refactor.py:228-248 | The claimed set never shrinks as the loop advances. |
| Clusters.EarlierScansClaimed | php_refactor.py:228-248 | A hash taken by any earlier scan, kept or dropped, is claimed at every later position. |
| Clusters.KeptMembersUnclaimed | php_refactor.py:228-248 | No block of a kept cluster has a hash that was claimed when the loop reached its seed. |
| Clusters.TwoMembersFromOnePage | php_refactor.py:233-241 | Example: two members from the same page, both similar to a seed from another page, form a cluster of three with it. |
| Clusters.DiscardedMembersStayClaimed | php_refactor.py:228-248 | Example with four blocks on four pages. The second block is similar to the other three. The first is similar only to the second, and the third and fourth are not similar to each other. The dropped cluster of the first two claims the second block's hash, so no cluster is kept, although the second block alone would have seeded a cluster of three. |
| Includes.Prefix8 | php_refactor.py:276 | Keeps the first eight characters of the digest, or all of them when it is shorter. |
| Includes.IncludePath | php_refactor.py:276-277 | An include file lives in `includes/` and is named `<type>_<md5[:8]>.php`. |
| Includes.CreateIncludesPaths | php_refactor.py:270-284 | The returned map has exactly the cluster ids as keys and maps each to the file of its seed's type and content. |
| Includes.CreateIncludesKeys | php_refactor.py:270-281 | Afterwards the files are the earlier ones plus one per cluster. |
| Includes.CreateIncludesUntouched | php_refactor.py:270-281 | A file no cluster writes keeps its text. |
| Includes.CreateIncludesContent | php_refactor.py:270-281 | A cluster's file holds its seed's content unless a later cluster writes the same file. |
| Includes.CreateIncludesEmpty | php_refactor.py:260-262 | With no clusters nothing is written and the map is empty. |
| Includes.SameNameOverwrites | php_refactor.py:276-281 | Two seeds with the same type and md5 prefix write one file, and the later content wins. |
| Patterns.MatchLits | php_refactor.py:357-358 | A match of the `\s*`-joined pattern at a position ends inside the text. |
| Patterns.MatchLitsSound | php_refactor.py:357-358 | Every match found spells the tags in order with whitespace runs between them. |
| Patterns.MatchLitsComplete | php_refactor.py:357-358 | Every whitespace-joined spelling of the tags at a position is found by the backtracking search. |
| Patterns.FirstMatch | php_refactor.py:358-362 | Gives the leftmost start where the pattern matches, with that match's end; none means no start matches. |
| Patterns.PatternReplaceSpec | php_refactor.py:358-363 | On success the text is `pre + stmt + post` around the leftmost span spelling the tags; on failure no span spells them. |
| Rewrite.Stmt | php_refactor.py:313-314 | The include statement starts with `<?php include '` and ends with a newline. |
| Rewrite.ExactTierIff | php_refactor.py:333-341 | The exact tier succeeds exactly when the block occurs and the replace-all changes the text, then every occurrence is replaced. |
| Rewrite.BestUpTo | php_refactor.py:397-412 | The best candidate is the first with the greatest score, and only a score above 0 counts. |
| Rewrite.FingerprintTierSpec | php_refactor.py:374-426 | The fingerprint tier replaces every occurrence of the first most similar candidate, only when its similarity is at least 0.8 and its markup occurs. Conversely, when that candidate is similar enough and occurs, the tier succeeds with it. |
| Rewrite.FirstIndex | php_refactor.py:449-468 | A loop that breaks at its first success returns the first passing index. |
| Rewrite.ScriptTierSpec | php_refactor.py:438-468 | The script tier replaces the first page script whose attributes match and whose markup occurs, and fails only when there is none. |
| Rewrite.FirstLen | php_refactor.py:543-547 | A length it returns lies in the searched range and its window normalises to the normalised block. |
| Rewrite.FirstLenSpec | php_refactor.py:543-547 | The length returned is the first that fits: no shorter one in the range fits, and when none is returned no length in the range fits. |
| Rewrite.FirstWindow | php_refactor.py:541-559 | A window it returns starts in the search range, is `len(block)` to `len(block)+99` long and normalises to the normalised block. |
| Rewrite.FirstWindowSpec | php_refactor.py:541-559 | The nested loops return the first fitting window in start-then-length order: nothing earlier fits, and when nothing is returned no window in the range fits. |
| Rewrite.FuzzyScan | php_refactor.py:529-563 | A found window re-normalises to the normalised block and is `len(block)` to `len(block)+99` long. |
| Rewrite.FuzzyScanFound | php_refactor.py:529-563 | A window is found only near a visited occurrence of the normalised block, in its search range. |
| Rewrite.FuzzyScanMissed | php_refactor.py:529-563 | When nothing is found, no searched window of any visited occurrence fits. |
| Rewrite.CountInBounds | php_refactor.py:599 | The count reaches all items exactly when all are among the links, and is 0 exactly when none is. |
| Rewrite.MenuTierSpec | php_refactor.py:576-616 | The menu tier needs at least three items and replaces every occurrence of the first container matching at least 70% of them. With three items and some matching container it always succeeds. |
| Rewrite.TierGating | php_refactor.py:347-622 | Says which tiers each block type can reach; the whole-file tiers are only for navigation blocks in files named navigation. |
| Rewrite.ExactTierFirst | php_refactor.py:333-347 | An occurrence that is present verbatim, and is not the statement itself, is resolved by the exact tier; any other tier runs only otherwise. |
| Rewrite.EmptyBlockExact | php_refactor.py:333-341 | An empty block always takes the exact tier. |
| Rewrite.SmallNavFileResolved | php_refactor.py:622-636 | A navigation block in a navigation-named page shorter than 5000 characters is always replaced. |
| Rewrite.PatternTierSpan | php_refactor.py:352-493 | The link and meta tiers replace the leftmost whitespace-joined spelling of the block's tags and nothing else. |
| Rewrite.FuzzyFromTier | php_refactor.py:499-563 | A fuzzy outcome comes only from the fuzzy tier. |
| Rewrite.FuzzyTierSpan | php_refactor.py:527-563 | The fuzzy tier replaces one window that re-normalises to the block and is `len(block)` to `len(block)+99` long, near an occurrence; the text outside is kept. |
| Rewrite.ApplyOccurrence | php_refactor.py:323-643 | A resolved occurrence writes the winning tier's text into its page, so the next occurrence sees it, and counts one replacement. An unresolved one changes nothing and counts none. The set of pages is kept and other pages are unchanged. |
| Rewrite.ReplayOccurrencesFrame | php_refactor.py:323-643 | A cluster's occurrences add at most one replacement each and leave every other page unchanged. |
| Rewrite.ReplayFrame | php_refactor.py:311-646 | The replay keeps the pages, makes at most one replacement per occurrence, and leaves pages without occurrences as they were. |
| Refactor.CollectIsConcat | php_refactor.py:220-224 | The collected blocks are each page's extracted blocks, concatenated in page order. |
| Refactor.CollectBlocksSnoc | php_refactor.py:220-224 | Adding a page at the end appends that page's extracted blocks, in extraction order, after all earlier ones. |
| Refactor.CollectBlocks | php_refactor.py:220-224 | Every collected block belongs to one of the pages; their order is the one `Refactor.CollectIsConcat` states. |
| Refactor.PageMap | php_refactor.py:38-45 | Maps every page's path, and only those, to its text. |
| Refactor.RunSpec | php_refactor.py:648-659 | `run` reports one file per page and one count per kept cluster, and keeps the set of pages. It writes every include file the clusters name, makes at most one replacement per extracted block, and leaves pages without occurrences unchanged. |
| Urls.IsProbablyUrl | helpers.py:16-17 | An empty value or one with a space is never a URL. |
| Urls.IsProbablyUrlIff | helpers.py:7-28 | A value is a URL exactly when it is non-empty, has no space, and has a scheme, a slash or an `.html` ending in any case. |
| Urls.AspPhpHtmlEndsHtml | helpers.py:26 | Whatever the `.(asp\|php).html$` search accepts, the `.html$` search also accepts. |
| Urls.Under | helpers.py:217-231 | A value placed under the page's directory is rooted and keeps the value at its end. |
| Urls.RebaseRelative | helpers.py:217-233 | A `./` value or a plain relative value goes under the page's directory and sets `modified`. |
| Urls.UpRebaseLeading | helpers.py:199-215 | A value of n leading `../` goes under the directory minus its last n parts; with fewer parts it is kept. |
| Urls.CountUps | helpers.py:203-204 | `count('../')` of n leading `../` plus a path without any is n. |
| Urls.RebaseDomain | helpers.py:236-241 | The site's own absolute URL loses scheme and host, becomes rooted and sets `modified`. |
| Urls.ExtApart | helpers.py:244-245 | Two `.asp.html`/`.php.html` matches never overlap. |
| Urls.FixExtensionsIff | helpers.py:244-248 | The extension substitution changes a value exactly when the pattern matches somewhere. |
| Urls.FixExtensionsEnding | helpers.py:244-245 | A trailing `.asp.html`/`.php.html`, before an optional `?`, `#` or final newline, becomes `.html`. |
| Urls.CollapseSlashes | helpers.py:258-259 | The result has no two slashes in a row and starts with a slash exactly when the input does. |
| Urls.CollapseKeepsText | helpers.py:250-259 | Collapsing only removes slashes; every other character is kept, in order. |
| Urls.CollapseIdempotent | helpers.py:250-259 | Collapsing twice is collapsing once. |
| Urls.CleanSlashesSpec | helpers.py:250-259 | The first `://` is kept; after it, or anywhere when there is none, no `//` remains. |
| Urls.RewriteAttrAsWritten | helpers.py:188-248 | `modified` is set only by the rebase step or an extension change. |
| Urls.RewriteAttr | helpers.py:188-262 | Corrected flag: a value that changes always sets `modified`. |
| Urls.RewriteAttrAgree | helpers.py:188-262 | Both give the same value; they differ only when the slash clean-up alone changed it. |
| Urls.NormalizePageAsWritten | helpers.py:188-264 | A page is saved exactly when some attribute's as-written rewrite sets `modified`. |
| Urls.NormalizePage | helpers.py:188-264 | With the corrected flag, a page is saved exactly when some attribute's rewrite sets `modified`. |
| Urls.NormalizePageSaves | helpers.py:233-264 | With the corrected flag, every page whose values change is saved, and so is every page the program saves. |
| Urls.PageNotSaved | helpers.py:250-264 | A page whose only value is `/a//b.html` would become `/a/b.html` but is not saved. |
| FileNames.CleanName | helpers.py:109 | The clean name is a prefix of the name and contains no `@`. |
| FileNames.CleanNameCases | helpers.py:106-109 | A name without `@` is its own clean name; one with `@` gets shorter. |
| FileNames.CleanQueryNamesSpec | helpers.py:104-116 | Afterwards no listed `@` name is left and every non-empty clean name exists. Existing names without `@` stay, and nothing else appears. |
| FileNames.CleanQueryMapping | helpers.py:104-116 | The mapping lists every listed `@` name, in walk order, with its clean name. |
| FileNames.FixReferencesAbsent | helpers.py:120-131 | A text naming none of the old names is unchanged. |
| FileNames.FixReferencesSnoc | helpers.py:127-129 | The pairs apply in mapping order. The last pair splits the text the earlier pairs produced at each occurrence of its old name and joins the pieces back with the new name. |
| FileNames.FixReferencesOne | helpers.py:128-129 | With one pair, the text splits at each occurrence of the old name into pieces free of it. Joined back with the old name they give the text; joined with the new name they give the result. A text containing the old name therefore changes. |
| FileNames.HtmlRename | helpers.py:151-155 | Only names ending in `.asp.html` or `.php.html` are renamed; they lose four characters and end in `.html`. |
| FileNames.HtmlRenameIsSub | helpers.py:151-155 | The rename equals the anchored case-insensitive substitution on the names the guard admits. |
| FileNames.HtmlFiles | helpers.py:295-299 | Collects exactly the listed names ending in `.html`. |
| FileNames.PhpName | helpers.py:318-319 | The new name ends in `.php` and no longer ends in `.html`. |
| FileNames.PhpNameRoundTrip | helpers.py:350-356 | The `.html` name comes back from the `.php` name. |
| FileNames.PhpNameInjective | helpers.py:351-356 | Two pages never get the same `.php` name. |
| FileNames.RewriteRef | helpers.py:314-322 | A value is rewritten exactly when its file name is one of the pages. It becomes the value split at that name and joined back with the `.php` name. |
| FileNames.RewriteRefChanges | helpers.py:318-320 | When the page name occurs in the value, the value changes, to the value with every occurrence renamed. |
| FileNames.RefValue | helpers.py:318-320 | A value whose file name is one of the pages is split at that name and joined back with the `.php` name; any other value is kept. |
| FileNames.RewriteRefs | helpers.py:309-343 | A file is saved exactly when some value names a page. Each value naming a page has that name replaced by the `.php` name, and other values are kept. |
| FileNames.RenameToPhpSucceeds | helpers.py:351-356 | The last walk gets through exactly when each listed `.html` file is still present when its turn comes. |
| FileNames.RenameToPhpSpec | helpers.py:351-356 | Afterwards no listed `.html` file is left and each has its `.php` name. Every other entry, sub-directories included, is kept, and nothing else appears. |

## Left out

- The file system, the directory walks, printing, debug output and timing are
  not modelled. Pages and directory listings are inputs; files written are
  map updates.
- The HTML parser is not modelled. Its results for a page are inputs: the
  serialised elements, head tags with their following siblings, fingerprint
  and script candidates, menu items and navigation containers. So is the fixed
  CSS-link pattern of php_refactor.py:177, given as its matches.
- `difflib`, `md5` and `urlparse` are function parameters and not modelled.
- Floating point is not modelled. Thresholds and ratios are exact reals.
- Blocks.ExtractBlocks: a page the parser raises on gives no parsed blocks.
  The refactorer keeps those found before the exception.
- Rewrite.FingerprintTierSpec: the candidates come from the parser input.
  The refactorer's `find_all(soup.name)` looks for the tag name the parser
  reports for a whole fragment, which finds no element. The model states the
  tier for any candidate list, which includes that empty one.
- Rewrite.FuzzyTier: the empty block never reaches this tier, because the
  exact tier always takes it (`Rewrite.EmptyBlockExact`). The refactorer's loop
  would not advance on it.
- Includes.IncludePath: paths are relative to the site directory, which is
  what `os.path.relpath` yields for the include statement. The absolute paths
  of the written files are not modelled.
- Urls.RewriteAttr: the void-element clean-up and the serialisation of the
  saved page (helpers.py:265-276) are not modelled.
- Urls.NormalizePage: the rewrite runs over every page each time a file is
  renamed, because it sits inside the rename loop (helpers.py:150-159). The
  model gives the rewrite of one page once.
- FileNames.RenameToPhp: a `.php` name that is an existing sub-directory
  makes `os.rename` raise; the model replaces the entry instead, as for a
  file.
- FileNames.CleanQueryNames: one directory. The program keys one mapping by
  bare name across all directories, so a name met twice appears once there
  and twice in the model's list.
- Case-insensitive matching covers ASCII letters and the long s (U+017F),
  which the regular-expression engine matches with `s`. The other letters of
  the patterns have no further case variants.
- `pretty_print`, `check_attrs`, the downloader itself and `main.py` are not
  part of this model.

## Findings

| source | as written | input that shows it | evidently intended | confidence | as-written member | corrected member |
|---|---|---|---|---|---|---|
| php_refactor.py:111 | `link['rel'] == 'stylesheet'` compares the parser's token list for `rel` with a string, which is never equal | `<link rel="stylesheet" href="https://fonts.googleapis.com/css?family=Roboto">` in the head is not grouped | every stylesheet link is grouped | not executed | Blocks.FontsLinkDropped | Blocks.StylesheetLinkKept |
| helpers.py:250-264 | the slash clean-up changes the value but does not set `modified`, so the page is not saved | a page whose only rewritable value is `href="/a//b.html"` | the page is saved with `/a/b.html` | not executed | Urls.PageNotSaved | Urls.NormalizePageSaves |

=== FILE: blocks.dfy ===
/**
  Candidate blocks and their extraction from one page: the size filter, the
  `<?php ... ?>` scan, the `<link>` scans over the serialised page, and the
  grouping of head `<link>`/`<meta>` tags into runs of adjacent siblings.
  The markup parser's view of a page (its script, navigation, header,
  footer and head elements, and its serialisation) is an input.
 */
module Blocks {
  import opened Text

  datatype BlockKind =
    | Script | Navigation | Header | Footer | CssLinks | MetaTags | LinkGroup | PhpCode

  /** The type tag the refactorer writes into block ids and include names. */
  function KindName(k: BlockKind): (r: string)
    ensures |r| > 0
  {
    match k
    case Script => "script"
    case Navigation => "navigation"
    case Header => "header"
    case Footer => "footer"
    case CssLinks => "css_links"
    case MetaTags => "meta_tags"
    case LinkGroup => "link_group"
    case PhpCode => "php_code"
  }

  /** A candidate block; `hash` is the md5 hex digest the refactorer stores and
      `file` the path of the page it came from. */
  datatype Block = Block(kind: BlockKind, content: string, hash: string, file: string)

  // ---------------------------------------------------------------------
  // Size filter

  /** The size filter's test. */
  function LongEnough(minSize: int): string -> bool
  {
    x => |x| >= minSize
  }

  /** `r` holds one block of `kind` for each position of `ix`, in order, made
      from the item at that position. */
  predicate BlocksAt(r: seq<Block>, kind: BlockKind, items: seq<string>, ix: seq<nat>,
                     md5: string -> string, file: string) {
    && |r| == |ix|
    && forall k :: 0 <= k < |r| ==>
      ix[k] < |items| && r[k] == Block(kind, items[ix[k]], md5(items[ix[k]]), file)
  }

  lemma BlocksAtSnoc(r: seq<Block>, kind: BlockKind, items: seq<string>, ix: seq<nat>,
                     md5: string -> string, file: string, x: string, keep: bool)
    requires BlocksAt(r, kind, items, ix, md5, file)
    ensures BlocksAt(r + (if keep then [Block(kind, x, md5(x), file)] else []), kind, items + [x],
                     ix + (if keep then [|items|] else []), md5, file)
  {
    var items' := items + [x];
    assert forall j :: 0 <= j < |items| ==> items'[j] == items[j];
  }

  lemma SizedBlocksStep(rest: seq<Block>, kind: BlockKind, items: seq<string>, minSize: int,
                        md5: string -> string, file: string)
    requires |items| > 0
    requires BlocksAt(rest, kind, items[..|items| - 1], Selected(items[..|items| - 1], LongEnough(minSize)), md5, file)
    ensures var x := items[|items| - 1];
      BlocksAt(rest + (if |x| >= minSize then [Block(kind, x, md5(x), file)] else []), kind, items,
               Selected(items, LongEnough(minSize)), md5, file)
  {
    var init, x := items[..|items| - 1], items[|items| - 1];
    assert items == init + [x];
    var keep := LongEnough(minSize);
    assert keep(x) == (|x| >= minSize);
    assert Selected(items, keep) == Selected(init, keep) + (if keep(x) then [|init|] else []);
    BlocksAtSnoc(rest, kind, init, Selected(init, keep), md5, file, x, |x| >= minSize);
  }

  /** Blocks of one kind for those items at least `minSize` long, in order:
      the k-th block is made from the k-th long enough item, so repeated
      items give repeated blocks. */
  function SizedBlocks(kind: BlockKind, items: seq<string>, minSize: int,
                       md5: string -> string, file: string): (r: seq<Block>)
    ensures forall b :: b in r ==>
      && b.kind == kind && b.file == file && b.content in items
      && |b.content| >= minSize && b.hash == md5(b.content)
    ensures |r| <= |items|
    ensures BlocksAt(r, kind, items, Selected(items, LongEnough(minSize)), md5, file)
    decreases |items|
  {
    if |items| == 0 then []
    else
      var init := items[..|items| - 1];
      var x := items[|items| - 1];
      var rest := SizedBlocks(kind, init, minSize, md5, file);
      assert forall y :: y in init ==> y in items;
      SizedBlocksStep(rest, kind, items, minSize, md5, file);
      rest + (if |x| >= minSize then [Block(kind, x, md5(x), file)] else [])
  }

  /** Every item at least `minSize` long yields a block. */
  lemma SizedBlocksComplete(kind: BlockKind, items: seq<string>, minSize: int,
                            md5: string -> string, file: string)
    ensures forall x :: x in items && |x| >= minSize ==>
      Block(kind, x, md5(x), file) in SizedBlocks(kind, items, minSize, md5, file)
  {
    var r := SizedBlocks(kind, items, minSize, md5, file);
    var ix := Selected(items, LongEnough(minSize));
    forall x | x in items && |x| >= minSize
      ensures Block(kind, x, md5(x), file) in r
    {
      var j :| 0 <= j < |items| && items[j] == x;
      assert LongEnough(minSize)(items[j]);
      assert j in ix;
      var k :| 0 <= k < |ix| && ix[k] == j;
      assert r[k] == Block(kind, x, md5(x), file);
    }
  }

  // ---------------------------------------------------------------------
  // `<\?php\s+(.+?)\s+\?>` with re.DOTALL

  /** The lazy group may stop at `p`: a whitespace run starts there and is
      followed by `?>`. */
  predicate CloseAt(s: string, p: nat) {
    p < |s| && IsWs(s[p]) && StartsAt(s, WsRunEnd(s, p), "?>")
  }

  /** The first position at or after `p` where the lazy group may stop. */
  function FirstClose(s: string, p: nat): (r: Option<nat>)
    ensures r.Some? ==> p <= r.value && CloseAt(s, r.value)
    ensures r.Some? ==> forall k :: p <= k < r.value ==> !CloseAt(s, k)
    ensures r.None? ==> forall k :: p <= k ==> !CloseAt(s, k)
    decreases |s| - p
  {
    if p >= |s| then None
    else if CloseAt(s, p) then Some(p)
    else FirstClose(s, p + 1)
  }

  /** Positions of one match: the group is `s[innerStart..innerEnd]`, the
      whole match ends at `end`. */
  datatype PhpMatch = PhpMatch(innerStart: nat, innerEnd: nat, end: nat)

  /** The regex match starting exactly at `i`, with Python's backtracking
      order: the first `\s+` takes the whole run and the group grows from one
      character; only when that fails does the first `\s+` give characters
      back, which succeeds only when `?>` directly follows a run of three or
      more whitespace characters. */
  function PhpMatchAt(s: string, i: nat): (r: Option<PhpMatch>)
    ensures r.Some? ==> PhpMatchShape(s, i, r.value)
    ensures r.Some? ==> forall k :: r.value.innerStart < k < r.value.innerEnd ==> !CloseAt(s, k)
    ensures r.Some? ==> PhpGroupStart(s, i, r.value)
  {
    if !StartsAt(s, i, "<?php") then None
    else
      var q := WsRunEnd(s, i + 5);
      if q == i + 5 then None
      else match FirstClose(s, q + 1)
        case Some(p) =>
          var e := WsRunEnd(s, p);
          PhpCloseMatch(s, i, q, p);
          Some(PhpMatch(q, p, e + 2))
        case None =>
          if q - (i + 5) >= 3 && StartsAt(s, q, "?>") then
            PhpBacktrackMatch(s, i, q);
            Some(PhpMatch(q - 2, q - 1, q + 2))
          else None
  }

  /** The match whose group runs from the end of the leading whitespace to
      the first close after it. */
  lemma PhpCloseMatch(s: string, i: nat, q: nat, p: nat)
    requires StartsAt(s, i, "<?php") && q == WsRunEnd(s, i + 5) && q > i + 5
    requires FirstClose(s, q + 1) == Some(p)
    ensures p <= |s|
    ensures PhpMatchShape(s, i, PhpMatch(q, p, WsRunEnd(s, p) + 2))
    ensures forall k :: q < k < p ==> !CloseAt(s, k)
    ensures PhpGroupStart(s, i, PhpMatch(q, p, WsRunEnd(s, p) + 2))
  {
  }

  /** The match whose leading whitespace gives back its last two characters
      when `?>` directly follows it. */
  lemma PhpBacktrackMatch(s: string, i: nat, q: nat)
    requires StartsAt(s, i, "<?php") && q == WsRunEnd(s, i + 5) && q - (i + 5) >= 3
    requires FirstClose(s, q + 1).None? && StartsAt(s, q, "?>")
    ensures PhpMatchShape(s, i, PhpMatch(q - 2, q - 1, q + 2))
    ensures PhpGroupStart(s, i, PhpMatch(q - 2, q - 1, q + 2))
  {
  }

  /** Where the group of a match at `i` starts: the greedy leading `\s+`
      takes the whole whitespace run after `<?php` when the lazy group can
      stop somewhere after its first character; otherwise the run gives back
      its last two characters, one to the group and one to the closing
      `\s+`, and the match ends with the `?>` right after the run. */
  predicate PhpGroupStart(s: string, i: nat, m: PhpMatch) {
    && i + 5 <= |s|
    && var q := WsRunEnd(s, i + 5);
      if FirstClose(s, q + 1).Some? then m.innerStart == q
      else m.innerStart + 2 == q && m.end == q + 2
  }

  /** `m` spells a match of `<\?php\s+(.+?)\s+\?>` starting at `i`: the
      keyword, a whitespace run, a non-empty group, a whitespace run and
      `?>`. */
  predicate PhpMatchShape(s: string, i: nat, m: PhpMatch) {
    && StartsAt(s, i, "<?php")
    && i + 5 < m.innerStart < m.innerEnd && m.innerEnd + 2 < m.end <= |s|
    && (forall k :: i + 5 <= k < m.innerStart ==> IsWs(s[k]))
    && (forall k :: m.innerEnd <= k < m.end - 2 ==> IsWs(s[k]))
    && StartsAt(s, m.end - 2, "?>")
  }

  /** The php pattern matches at `i` exactly when some spelling of it starts
      there; the match found has that shape and its group starts where the
      greedy leading whitespace leaves it. */
  lemma PhpMatchAtIff(s: string, i: nat)
    ensures PhpMatchAt(s, i).Some? <==> exists m :: PhpMatchShape(s, i, m)
    ensures PhpMatchAt(s, i).Some? ==> PhpMatchShape(s, i, PhpMatchAt(s, i).value)
    ensures PhpMatchAt(s, i).Some? ==> PhpGroupStart(s, i, PhpMatchAt(s, i).value)
  {
    if exists m :: PhpMatchShape(s, i, m) {
      var m :| PhpMatchShape(s, i, m);
      PhpMatchAtComplete(s, i, m);
    }
  }

  /** Any spelling of the pattern at `i` is found. */
  lemma PhpMatchAtComplete(s: string, i: nat, m: PhpMatch)
    requires PhpMatchShape(s, i, m)
    ensures PhpMatchAt(s, i).Some?
  {
    var q := WsRunEnd(s, i + 5);
    var a, b, e := m.innerStart, m.innerEnd, m.end - 2;
    assert s[e] == '?' by { assert s[e..e + 2][0] == s[e]; }
    assert !IsWs(s[e]);
    WsRunEndAt(s, b, e);
    assert CloseAt(s, b);
    WsRunCovers(s, i + 5, a);
    if q < b {
      assert FirstClose(s, q + 1).Some?;
    } else {
      assert forall k :: i + 5 <= k < e ==> IsWs(s[k]);
      WsRunEndAt(s, i + 5, e);
      assert q - (i + 5) >= 3 && StartsAt(s, q, "?>");
    }
  }

  /** `re.findall` of the php pattern from `from`: the groups of the
      non-overlapping matches, left to right. */
  function PhpInners(s: string, from: nat): (r: seq<string>)
    ensures forall k :: 0 <= k < |r| ==> |r[k]| > 0
    decreases |s| - from
  {
    if from >= |s| then []
    else match PhpMatchAt(s, from)
      case Some(m) => [s[m.innerStart..m.innerEnd]] + PhpInners(s, m.end)
      case None => PhpInners(s, from + 1)
  }

  /** Positions where the pattern does not match are passed over. */
  lemma {:induction false} PhpInnersSkip(s: string, from: nat, p: nat)
    requires from <= p
    requires forall k :: from <= k < p ==> PhpMatchAt(s, k).None?
    ensures PhpInners(s, from) == PhpInners(s, p)
    decreases p - from
  {
    if from < p && from < |s| {
      assert PhpMatchAt(s, from).None?;
      PhpInnersSkip(s, from + 1, p);
    }
  }

  /** The first group is that of the leftmost match, and the search goes on
      where that match ends. */
  lemma PhpInnersLeftmost(s: string, from: nat, p: nat)
    requires from <= p && PhpMatchAt(s, p).Some?
    requires forall k :: from <= k < p ==> PhpMatchAt(s, k).None?
    ensures var m := PhpMatchAt(s, p).value;
      PhpInners(s, from) == [s[m.innerStart..m.innerEnd]] + PhpInners(s, m.end)
  {
    PhpInnersSkip(s, from, p);
  }

  /** No match at or after `from`: no group. */
  lemma PhpInnersNone(s: string, from: nat)
    requires forall k :: from <= k ==> PhpMatchAt(s, k).None?
    ensures PhpInners(s, from) == []
  {
    var p := if from < |s| then |s| else from;
    PhpInnersSkip(s, from, p);
  }

  /** The block the refactorer emits for one php group. */
  function PhpBlock(inner: string, md5: string -> string, file: string): Block
  {
    Block(PhpCode, "<?php " + inner + " ?>", md5(inner), file)
  }

  /** `r` holds the php block of the group at each position of `ix`, in
      order. */
  predicate PhpBlocksAt(r: seq<Block>, inners: seq<string>, ix: seq<nat>, md5: string -> string, file: string) {
    && |r| == |ix|
    && forall k :: 0 <= k < |r| ==> ix[k] < |inners| && r[k] == PhpBlock(inners[ix[k]], md5, file)
  }

  lemma PhpBlocksAtSnoc(r: seq<Block>, inners: seq<string>, ix: seq<nat>, md5: string -> string,
                        file: string, x: string, keep: bool)
    requires PhpBlocksAt(r, inners, ix, md5, file)
    ensures PhpBlocksAt(r + (if keep then [PhpBlock(x, md5, file)] else []), inners + [x],
                        ix + (if keep then [|inners|] else []), md5, file)
  {
    var inners' := inners + [x];
    assert forall j :: 0 <= j < |inners| ==> inners'[j] == inners[j];
  }

  lemma PhpBlocksStep(rest: seq<Block>, inners: seq<string>, minSize: int, md5: string -> string, file: string)
    requires |inners| > 0
    requires PhpBlocksAt(rest, inners[..|inners| - 1], Selected(inners[..|inners| - 1], LongEnough(minSize)), md5, file)
    ensures var x := inners[|inners| - 1];
      PhpBlocksAt(rest + (if |x| >= minSize then [PhpBlock(x, md5, file)] else []), inners,
                  Selected(inners, LongEnough(minSize)), md5, file)
  {
    var init, x := inners[..|inners| - 1], inners[|inners| - 1];
    assert inners == init + [x];
    var keep := LongEnough(minSize);
    assert keep(x) == (|x| >= minSize);
    assert Selected(inners, keep) == Selected(init, keep) + (if keep(x) then [|init|] else []);
    PhpBlocksAtSnoc(rest, init, Selected(init, keep), md5, file, x, |x| >= minSize);
  }

  /** The blocks at the long enough groups are exactly the php blocks of
      those groups. */
  lemma PhpBlocksAtMembers(r: seq<Block>, inners: seq<string>, minSize: int, md5: string -> string, file: string)
    requires PhpBlocksAt(r, inners, Selected(inners, LongEnough(minSize)), md5, file)
    ensures forall b :: b in r ==>
      exists x :: x in inners && |x| >= minSize && b == PhpBlock(x, md5, file)
    ensures forall x :: x in inners && |x| >= minSize ==> PhpBlock(x, md5, file) in r
  {
    var ix := Selected(inners, LongEnough(minSize));
    forall b | b in r ensures exists x :: x in inners && |x| >= minSize && b == PhpBlock(x, md5, file) {
      var k :| 0 <= k < |r| && r[k] == b;
      var x := inners[ix[k]];
      assert LongEnough(minSize)(x);
    }
    forall x | x in inners && |x| >= minSize ensures PhpBlock(x, md5, file) in r {
      var j :| 0 <= j < |inners| && inners[j] == x;
      assert LongEnough(minSize)(inners[j]);
      assert j in ix;
      var k :| 0 <= k < |ix| && ix[k] == j;
      assert r[k] == PhpBlock(x, md5, file);
    }
  }

  /** One php_code block per group at least `minSize` long, in the order
      findall returns the groups; a group found twice gives two blocks. */
  function PhpBlocks(inners: seq<string>, minSize: int, md5: string -> string, file: string): (r: seq<Block>)
    ensures forall b :: b in r ==>
      exists x :: x in inners && |x| >= minSize && b == PhpBlock(x, md5, file)
    ensures forall x :: x in inners && |x| >= minSize ==> PhpBlock(x, md5, file) in r
    ensures PhpBlocksAt(r, inners, Selected(inners, LongEnough(minSize)), md5, file)
    decreases |inners|
  {
    if |inners| == 0 then []
    else
      var init := inners[..|inners| - 1];
      var x := inners[|inners| - 1];
      var rest := PhpBlocks(init, minSize, md5, file);
      PhpBlocksStep(rest, inners, minSize, md5, file);
      var r := rest + (if |x| >= minSize then [PhpBlock(x, md5, file)] else []);
      PhpBlocksAtMembers(r, inners, minSize, md5, file);
      r
  }

  // ---------------------------------------------------------------------
  // `<link[^>]+>` and `(<link[^>]+>\s*){3,}`

  /** End of the `<link[^>]+>` match starting at `i`, if there is one. */
  function LinkTagAt(s: string, i: nat): (r: Option<nat>)
    ensures r.Some? ==>
      && StartsAt(s, i, "<link") && i + 7 <= r.value <= |s| && s[r.value - 1] == '>'
      && forall k :: i + 5 <= k < r.value - 1 ==> s[k] != '>'
  {
    if !StartsAt(s, i, "<link") then None
    else match FindFrom(s, ">", i + 5)
      case None => None
      case Some(k) =>
        assert forall j :: i + 5 <= j < k ==> s[j] != '>' by {
          FindFromFirst(s, ">", i + 5);
          forall j | i + 5 <= j < k ensures s[j] != '>' {
            assert !StartsAt(s, j, ">");
          }
        }
        assert s[k..k + 1] == ">";
        if k > i + 5 then Some(k + 1) else None
  }

  /** `s[i..e]` spells `<link[^>]+>`: the keyword, at least one character
      other than `>`, and the first `>` after them. */
  predicate LinkTagMatch(s: string, i: nat, e: nat) {
    && StartsAt(s, i, "<link") && i + 7 <= e <= |s| && s[e - 1] == '>'
    && forall k :: i + 5 <= k < e - 1 ==> s[k] != '>'
  }

  /** The tag scan finds exactly the spelling of the pattern at `i`. */
  lemma LinkTagAtIff(s: string, i: nat, e: nat)
    ensures LinkTagAt(s, i) == Some(e) <==> LinkTagMatch(s, i, e)
  {
    if LinkTagMatch(s, i, e) {
      assert StartsAt(s, e - 1, ">") by { assert s[e - 1..e][0] == s[e - 1]; }
      forall k | i + 5 <= k < e - 1 ensures !StartsAt(s, k, ">") {
        if k + 1 <= |s| {
          assert s[k..k + 1][0] == s[k];
        }
      }
      FindFromAt(s, ">", i + 5, e - 1);
    }
  }

  /** `re.findall(r'<link[^>]+>', s)` from `from`. */
  function LinkTags(s: string, from: nat): (r: seq<string>)
    ensures forall k :: 0 <= k < |r| ==>
      && StartsWith(r[k], "<link") && |r[k]| >= 7 && r[k][|r[k]| - 1] == '>'
    decreases |s| - from
  {
    if from >= |s| then []
    else match LinkTagAt(s, from)
      case Some(e) =>
        assert s[from..e][..5] == s[from..from + 5];
        [s[from..e]] + LinkTags(s, e)
      case None => LinkTags(s, from + 1)
  }

  lemma {:induction false} LinkTagsSkip(s: string, from: nat, p: nat)
    requires from <= p
    requires forall k :: from <= k < p ==> LinkTagAt(s, k).None?
    ensures LinkTags(s, from) == LinkTags(s, p)
    decreases p - from
  {
    if from < p && from < |s| {
      assert LinkTagAt(s, from).None?;
      LinkTagsSkip(s, from + 1, p);
    }
  }

  /** The first tag found is the leftmost match, and the search goes on
      after it. */
  lemma LinkTagsLeftmost(s: string, from: nat, p: nat)
    requires from <= p && LinkTagAt(s, p).Some?
    requires forall k :: from <= k < p ==> LinkTagAt(s, k).None?
    ensures var e := LinkTagAt(s, p).value;
      LinkTags(s, from) == [s[p..e]] + LinkTags(s, e)
  {
    LinkTagsSkip(s, from, p);
  }

  /** No tag at or after `from`: nothing is found. */
  lemma LinkTagsNone(s: string, from: nat)
    requires forall k :: from <= k ==> LinkTagAt(s, k).None?
    ensures LinkTags(s, from) == []
  {
    var p := if from < |s| then |s| else from;
    LinkTagsSkip(s, from, p);
  }

  /** Greedy repetition of `<link[^>]+>\s*` from `i`: how many units match
      and where the last one's whitespace ends. The repetition stops only
      where no further tag starts, after all the whitespace. */
  function LinkUnits(s: string, i: nat): (r: (nat, nat))
    requires i <= |s|
    ensures i <= r.1 <= |s|
    ensures (r.0 == 0) == LinkTagAt(s, i).None?
    ensures r.0 == 0 ==> r.1 == i
    ensures r.0 > 0 ==> StartsAt(s, i, "<link") && r.1 > i
    ensures r.0 > 0 ==> r.1 == |s| || !IsWs(s[r.1])
    ensures LinkTagAt(s, r.1).None?
    decreases |s| - i
  {
    match LinkTagAt(s, i)
    case None => (0, i)
    case Some(e) =>
      var rest := LinkUnits(s, WsRunEnd(s, e));
      (rest.0 + 1, rest.1)
  }

  /** `s[i..e]` is exactly `n` units of `<link[^>]+>\s*` taken greedily:
      each unit is a tag spelled as `LinkTagMatch` followed by its whole
      whitespace run, the next unit starts where that run ends, and no tag
      starts where the last run ends. */
  predicate LinkChain(s: string, i: nat, n: nat, e: nat)
    decreases n
  {
    if n == 0 then e == i && forall t: nat :: t <= |s| ==> !LinkTagMatch(s, i, t)
    else exists t: nat :: t <= |s| && LinkTagMatch(s, i, t) && LinkChain(s, WsRunEnd(s, t), n - 1, e)
  }

  /** The greedy repetition counts exactly the chained units and ends where
      the chain ends. */
  lemma LinkUnitsIff(s: string, i: nat, n: nat, e: nat)
    requires i <= |s|
    ensures LinkUnits(s, i) == (n, e) <==> LinkChain(s, i, n, e)
  {
    LinkUnitsChain(s, i);
    if LinkChain(s, i, n, e) {
      ChainLinkUnits(s, i, n, e);
    }
  }

  lemma {:induction false} LinkUnitsChain(s: string, i: nat)
    requires i <= |s|
    ensures LinkChain(s, i, LinkUnits(s, i).0, LinkUnits(s, i).1)
    decreases |s| - i
  {
    if LinkTagAt(s, i).None? {
      NoTagChain(s, i);
    } else {
      var q := WsRunEnd(s, LinkTagAt(s, i).value);
      LinkUnitsChain(s, q);
      LinkUnitsChainStep(s, i, q);
    }
  }

  /** The chain from the units after the first tag extends by that tag. */
  lemma LinkUnitsChainStep(s: string, i: nat, q: nat)
    requires i <= |s| && LinkTagAt(s, i).Some? && q == WsRunEnd(s, LinkTagAt(s, i).value)
    requires LinkChain(s, q, LinkUnits(s, q).0, LinkUnits(s, q).1)
    ensures LinkChain(s, i, LinkUnits(s, i).0, LinkUnits(s, i).1)
  {
    var t := LinkTagAt(s, i).value;
    var u := LinkUnits(s, q);
    LinkTagAtIff(s, i, t);
    ChainCons(s, i, t, u.0, u.1);
    LinkUnitsCons(s, i, q);
  }

  lemma NoTagChain(s: string, i: nat)
    requires LinkTagAt(s, i).None?
    ensures LinkChain(s, i, 0, i)
  {
    forall t: nat | t <= |s| ensures !LinkTagMatch(s, i, t) {
      LinkTagAtIff(s, i, t);
    }
  }

  lemma ChainCons(s: string, i: nat, t: nat, n: nat, e: nat)
    requires t <= |s| && LinkTagMatch(s, i, t) && LinkChain(s, WsRunEnd(s, t), n, e)
    ensures LinkChain(s, i, n + 1, e)
  {
  }

  lemma {:induction false} ChainLinkUnits(s: string, i: nat, n: nat, e: nat)
    requires i <= |s| && LinkChain(s, i, n, e)
    ensures LinkUnits(s, i) == (n, e)
    decreases n
  {
    if n == 0 {
      ChainNoTag(s, i, e);
    } else {
      var q := ChainUncons(s, i, n, e);
      ChainLinkUnits(s, q, n - 1, e);
      ChainLinkUnitsStep(s, i, q, n, e);
    }
  }

  /** The units from `i` are one more than those after the first tag. */
  lemma ChainLinkUnitsStep(s: string, i: nat, q: nat, n: nat, e: nat)
    requires i <= |s| && LinkTagAt(s, i).Some? && q == WsRunEnd(s, LinkTagAt(s, i).value)
    requires n > 0 && LinkUnits(s, q) == (n - 1, e)
    ensures LinkUnits(s, i) == (n, e)
  {
    LinkUnitsCons(s, i, q);
  }

  /** One `<link…>` unit at `i` followed by the units from `q`. */
  lemma LinkUnitsCons(s: string, i: nat, q: nat)
    requires i <= |s| && LinkTagAt(s, i).Some? && q == WsRunEnd(s, LinkTagAt(s, i).value)
    ensures LinkUnits(s, i) == (LinkUnits(s, q).0 + 1, LinkUnits(s, q).1)
  {
  }

  lemma ChainNoTag(s: string, i: nat, e: nat)
    requires LinkChain(s, i, 0, e)
    ensures e == i && LinkTagAt(s, i).None?
  {
    forall t: nat ensures LinkTagAt(s, i) != Some(t) {
      LinkTagAtIff(s, i, t);
    }
  }

  lemma ChainUncons(s: string, i: nat, n: nat, e: nat) returns (q: nat)
    requires n > 0 && LinkChain(s, i, n, e)
    ensures LinkTagAt(s, i).Some? && q == WsRunEnd(s, LinkTagAt(s, i).value)
    ensures q <= |s| && LinkChain(s, q, n - 1, e)
  {
    var t: nat :| t <= |s| && LinkTagMatch(s, i, t) && LinkChain(s, WsRunEnd(s, t), n - 1, e);
    LinkTagAtIff(s, i, t);
    q := WsRunEnd(s, t);
  }

  /** `(<link[^>]+>\s*){3,}` matches at `k` exactly when a chain of three or
      more units starts there. */
  lemma GroupAtIff(s: string, k: nat)
    requires k < |s|
    ensures GroupAt(s, k) <==> exists n: nat, e: nat :: n >= 3 && LinkChain(s, k, n, e)
  {
    var u := LinkUnits(s, k);
    LinkUnitsIff(s, k, u.0, u.1);
    if exists n: nat, e: nat :: n >= 3 && LinkChain(s, k, n, e) {
      var n: nat, e: nat :| n >= 3 && LinkChain(s, k, n, e);
      LinkUnitsIff(s, k, n, e);
    }
  }

  /** `(<link[^>]+>\s*){3,}` matches at `k`. */
  predicate GroupAt(s: string, k: nat) {
    k < |s| && LinkUnits(s, k).0 >= 3
  }

  /** `re.finditer(r'(<link[^>]+>\s*){3,}', s)` from `from`: the matched
      texts, left to right. */
  function LinkGroups(s: string, from: nat): (r: seq<string>)
    ensures forall k :: 0 <= k < |r| ==> StartsWith(r[k], "<link")
    decreases |s| - from
  {
    if from >= |s| then []
    else
      var u := LinkUnits(s, from);
      if u.0 >= 3 then
        assert s[from..u.1][..5] == s[from..from + 5];
        [s[from..u.1]] + LinkGroups(s, u.1)
      else LinkGroups(s, from + 1)
  }

  lemma {:induction false} LinkGroupsSkip(s: string, from: nat, p: nat)
    requires from <= p
    requires forall k :: from <= k < p ==> !GroupAt(s, k)
    ensures LinkGroups(s, from) == LinkGroups(s, p)
    decreases p - from
  {
    if from < p && from < |s| {
      assert !GroupAt(s, from);
      LinkGroupsSkip(s, from + 1, p);
    }
  }

  /** The first group found is the leftmost place where three or more
      units match, taken as far as the repetition goes; the search goes on
      after it. */
  lemma LinkGroupsLeftmost(s: string, from: nat, p: nat)
    requires from <= p && GroupAt(s, p)
    requires forall k :: from <= k < p ==> !GroupAt(s, k)
    ensures var e := LinkUnits(s, p).1;
      LinkGroups(s, from) == [s[p..e]] + LinkGroups(s, e)
  {
    LinkGroupsSkip(s, from, p);
  }

  /** No place at or after `from` where the pattern matches: no group. */
  lemma LinkGroupsNone(s: string, from: nat)
    requires forall k :: from <= k ==> !GroupAt(s, k)
    ensures LinkGroups(s, from) == []
  {
    var p := if from < |s| then |s| else from;
    LinkGroupsSkip(s, from, p);
  }

  // ---------------------------------------------------------------------
  // Head tags and sibling adjacency

  /** An attribute value: the parser keeps multi-valued attributes such as
      `rel` and `class` as lists of tokens. */
  datatype AttrValue = Single(text: string) | Multi(tokens: seq<string>)

  /** A parsed element, `markup` being its serialisation. Equality is
      structural, as the parser's element comparison is. */
  datatype Element = Element(name: string, attrs: map<string, AttrValue>, markup: string)

  datatype Node = TextNode(text: string) | ElementNode(elem: Element)

  /** An element together with the siblings that follow it in its parent. */
  datatype Located = Located(elem: Element, following: seq<Node>)

  /** The first following sibling that is not a non-empty, whitespace-only
      string. */
  function NextNonBlank(nodes: seq<Node>): (r: Option<Node>)
    ensures r.Some? <==> exists k :: 0 <= k < |nodes| && !SkippedNode(nodes[k])
  {
    if |nodes| == 0 then None
    else if SkippedNode(nodes[0]) then
      var r := NextNonBlank(nodes[1..]);
      assert forall k :: 1 <= k < |nodes| ==> nodes[k] == nodes[1..][k - 1];
      r
    else Some(nodes[0])
  }

  predicate SkippedNode(n: Node) {
    n.TextNode? && |n.text| > 0 && IsBlank(n.text)
  }

  /** `are_adjacent_siblings(a, b)`. */
  predicate AdjacentSiblings(a: Located, b: Located) {
    NextNonBlank(a.following) == Some(ElementNode(b.elem))
  }

  /** Adjacency means: some following sibling is `b`'s element and every
      sibling before it is a skipped whitespace string. */
  lemma {:induction false} AdjacentSiblingsIff(a: Located, b: Located)
    ensures AdjacentSiblings(a, b) <==>
      exists k :: (0 <= k < |a.following| && a.following[k] == ElementNode(b.elem)
        && forall j :: 0 <= j < k ==> SkippedNode(a.following[j]))
  {
    NextNonBlankIndex(a.following, ElementNode(b.elem));
  }

  lemma {:induction false} NextNonBlankIndex(nodes: seq<Node>, n: Node)
    requires !SkippedNode(n)
    ensures NextNonBlank(nodes) == Some(n) <==>
      exists k :: (0 <= k < |nodes| && nodes[k] == n
        && forall j :: 0 <= j < k ==> SkippedNode(nodes[j]))
    decreases |nodes|
  {
    if |nodes| > 0 && SkippedNode(nodes[0]) {
      NextNonBlankIndex(nodes[1..], n);
      if exists k :: (0 <= k < |nodes| && nodes[k] == n
        && forall j :: 0 <= j < k ==> SkippedNode(nodes[j]))
      {
        var k :| 0 <= k < |nodes| && nodes[k] == n
          && forall j :: 0 <= j < k ==> SkippedNode(nodes[j]);
        assert k > 0;
        assert nodes[1..][k - 1] == n;
        assert forall j :: 0 <= j < k - 1 ==> SkippedNode(nodes[1..][j]) by {
          forall j | 0 <= j < k - 1 ensures SkippedNode(nodes[1..][j]) {
            assert nodes[1..][j] == nodes[j + 1];
          }
        }
      }
      if NextNonBlank(nodes) == Some(n) {
        var k :| 0 <= k < |nodes[1..]| && nodes[1..][k] == n
          && forall j :: 0 <= j < k ==> SkippedNode(nodes[1..][j]);
        assert nodes[k + 1] == n;
        assert forall j :: 0 <= j < k + 1 ==> SkippedNode(nodes[j]) by {
          forall j | 0 <= j < k + 1 ensures SkippedNode(nodes[j]) {
            if j > 0 { assert nodes[j] == nodes[1..][j - 1]; }
          }
        }
      }
    } else if |nodes| > 0 {
      if exists k :: (0 <= k < |nodes| && nodes[k] == n
        && forall j :: 0 <= j < k ==> SkippedNode(nodes[j]))
      {
        var k :| 0 <= k < |nodes| && nodes[k] == n
          && forall j :: 0 <= j < k ==> SkippedNode(nodes[j]);
        assert k == 0;
      }
    }
  }

  // ---------------------------------------------------------------------
  // Grouping into runs (the two while loops of the head scan)

  /** The inner loop: extend the run while each tag is adjacent to the one
      before it. */
  function RunEnd<T>(ts: seq<T>, j: nat, adj: (T, T) -> bool): (e: nat)
    requires 0 < j <= |ts|
    ensures j <= e <= |ts|
    ensures forall k :: j <= k < e ==> AdjAt(ts, k, adj)
    ensures e == |ts| || !adj(ts[e - 1], ts[e])
    decreases |ts| - j
  {
    if j < |ts| && adj(ts[j - 1], ts[j]) then RunEnd(ts, j + 1, adj) else j
  }

  /** The tag at k is adjacent to the one before it. */
  predicate AdjAt<T>(ts: seq<T>, k: nat, adj: (T, T) -> bool) {
    0 < k < |ts| && adj(ts[k - 1], ts[k])
  }

  /** The outer loop: consecutive runs from `i`. */
  function Runs<T>(ts: seq<T>, i: nat, adj: (T, T) -> bool): seq<seq<T>>
    requires i <= |ts|
    decreases |ts| - i
  {
    if i == |ts| then []
    else
      var j := RunEnd(ts, i + 1, adj);
      [ts[i..j]] + Runs(ts, j, adj)
  }

  function Flatten<T>(xss: seq<seq<T>>): seq<T>
  {
    if |xss| == 0 then [] else xss[0] + Flatten(xss[1..])
  }

  function Last<T>(xs: seq<T>): T
    requires |xs| > 0
  {
    xs[|xs| - 1]
  }

  /** The runs cover the tags exactly once and in order. */
  lemma {:induction false} RunsCover<T>(ts: seq<T>, i: nat, adj: (T, T) -> bool)
    requires i <= |ts|
    ensures Flatten(Runs(ts, i, adj)) == ts[i..]
    decreases |ts| - i
  {
    if i < |ts| {
      var j := RunEnd(ts, i + 1, adj);
      RunsCover(ts, j, adj);
      FlattenCons(ts[i..j], Runs(ts, j, adj));
      assert ts[i..] == ts[i..j] + ts[j..];
    }
  }

  lemma FlattenCons<T>(x: seq<T>, xss: seq<seq<T>>)
    ensures Flatten([x] + xss) == x + Flatten(xss)
  {
    assert ([x] + xss)[1..] == xss;
  }

  /** Every run is non-empty and links only adjacent neighbours. */
  lemma {:induction false} RunsAdjacent<T>(ts: seq<T>, i: nat, adj: (T, T) -> bool)
    requires i <= |ts|
    ensures forall r :: r in Runs(ts, i, adj) ==> |r| > 0
    ensures forall r :: r in Runs(ts, i, adj) ==>
      forall k :: 0 < k < |r| ==> adj(r[k - 1], r[k])
    decreases |ts| - i
  {
    if i < |ts| {
      var j := RunEnd(ts, i + 1, adj);
      RunsAdjacent(ts, j, adj);
      var run := ts[i..j];
      forall k | 0 < k < |run| ensures adj(run[k - 1], run[k]) {
        assert AdjAt(ts, i + k, adj);
        assert run[k] == ts[i + k] && run[k - 1] == ts[i + k - 1];
      }
      assert forall r :: r in Runs(ts, i, adj) ==> r == run || r in Runs(ts, j, adj);
    }
  }

  /** `y` starts where `x`'s run had to stop. */
  predicate RunBreak<T>(x: seq<T>, y: seq<T>, adj: (T, T) -> bool) {
    |x| > 0 && |y| > 0 && !adj(Last(x), y[0])
  }

  /** Runs are maximal: the last tag of a run is never adjacent to the first
      tag of the next one. */
  lemma {:induction false} RunsMaximal<T>(ts: seq<T>, i: nat, adj: (T, T) -> bool)
    requires i <= |ts|
    ensures forall k :: 0 <= k < |Runs(ts, i, adj)| - 1 ==>
      RunBreak(Runs(ts, i, adj)[k], Runs(ts, i, adj)[k + 1], adj)
    decreases |ts| - i
  {
    if i < |ts| {
      var j := RunEnd(ts, i + 1, adj);
      RunsMaximal(ts, j, adj);
      var runs := Runs(ts, i, adj);
      var rest := Runs(ts, j, adj);
      assert runs == [ts[i..j]] + rest;
      if |rest| > 0 {
        var j2 := RunEnd(ts, j + 1, adj);
        assert rest[0] == ts[j..j2];
        assert runs[0] == ts[i..j] && runs[1] == rest[0];
        assert Last(runs[0]) == ts[j - 1];
        assert runs[1][0] == ts[j];
        assert !adj(ts[j - 1], ts[j]);
      }
      forall k | 1 <= k < |runs| - 1
        ensures RunBreak(runs[k], runs[k + 1], adj)
      {
        assert 0 <= k - 1 < |rest| - 1;
        assert RunBreak(rest[k - 1], rest[k], adj);
        assert runs[k] == rest[k - 1] && runs[k + 1] == rest[k];
      }
    }
  }

  /** The head scan's test for a stylesheet or icon `<link>`, as written. */
  predicate IsCssOrIconAsWritten(attrs: map<string, AttrValue>) {
    || ("rel" in attrs && attrs["rel"] == Single("stylesheet"))
    || ("type" in attrs && attrs["type"] == Single("image/x-icon"))
    || ("href" in attrs && HrefMentionsCss(attrs["href"]))
  }

  /** The same test reading `rel` as the token list the parser produces. */
  predicate IsCssOrIcon(attrs: map<string, AttrValue>) {
    || ("rel" in attrs && RelIsStylesheet(attrs["rel"]))
    || ("type" in attrs && attrs["type"] == Single("image/x-icon"))
    || ("href" in attrs && HrefMentionsCss(attrs["href"]))
  }

  predicate RelIsStylesheet(v: AttrValue) {
    match v
    case Single(t) => t == "stylesheet"
    case Multi(ts) => "stylesheet" in ts
  }

  /** `'.css' in href or 'favicon' in href`: substring test on a string,
      membership test on a list. */
  predicate HrefMentionsCss(v: AttrValue) {
    match v
    case Single(t) => Contains(t, ".css") || Contains(t, "favicon")
    case Multi(ts) => ".css" in ts || "favicon" in ts
  }

  /** The href of a web-font stylesheet: it names no `.css` file. */
  function FontsHref(): string
  {
    "https://fonts.googleapis.com/css?family=Roboto"
  }

  /** A stylesheet link as the parser delivers it, with `rel` a token list. */
  function FontsLink(): map<string, AttrValue>
  {
    map["rel" := Multi(["stylesheet"]), "href" := Single(FontsHref())]
  }

  lemma FontsHrefPieces()
    ensures FontsHref() == "https://fonts" + "." + "googleapis" + "." + "com/css?family=Roboto"
  {
  }

  lemma FontsHrefHasNoCss()
    ensures !Contains(FontsHref(), ".css")
  {
    var a, b, c := "https://fonts", "googleapis", "com/css?family=Roboto";
    assert forall k :: 0 <= k < |a| ==> a[k] != '.';
    assert forall k :: 0 <= k < |b| ==> b[k] != '.';
    assert forall k :: 0 <= k < |c| ==> c[k] != '.';
    var h := FontsHref();
    FontsHrefPieces();
    forall i | 0 <= i ensures !StartsAt(h, i, ".css") {
      if i + 4 <= |h| {
        var w := h[i..i + 4];
        assert w[0] == h[i] && w[1] == h[i + 1] && w[2] == h[i + 2];
        if i < 13 {
          assert h[i] == a[i];
        } else if 13 < i < 24 {
          assert h[i] == b[i - 14];
        } else if i > 24 {
          assert h[i] == c[i - 25];
        } else if i == 13 {
          assert h[i + 1] == b[0];
        } else {
          assert h[i + 2] == c[1];
        }
      }
    }
  }

  lemma FontsHrefHasNoFavicon()
    ensures !Contains(FontsHref(), "favicon")
  {
    var a, b, c := "https://fonts", "googleapis", "com/css?family=Roboto";
    assert forall k :: 0 <= k < |a| ==> a[k] != 'v';
    assert forall k :: 0 <= k < |b| ==> b[k] != 'v';
    assert forall k :: 0 <= k < |c| ==> c[k] != 'v';
    var h := FontsHref();
    FontsHrefPieces();
    forall i | 0 <= i ensures !StartsAt(h, i, "favicon") {
      if i + 7 <= |h| {
        var j := i + 2;
        assert h[i..i + 7][2] == h[j];
        if j < 13 {
          assert h[j] == a[j];
        } else if 13 <= j < 14 {
          assert h[j] == '.';
        } else if 14 <= j < 24 {
          assert h[j] == b[j - 14];
        } else if j == 24 {
          assert h[j] == '.';
        } else {
          assert h[j] == c[j - 25];
        }
      }
    }
  }

  /** The test as written misses a stylesheet link whose href does not say
      `.css`, because a token list never equals the string "stylesheet";
      the corrected test accepts it. */
  lemma RelComparisonMissesStylesheet()
    ensures !IsCssOrIconAsWritten(FontsLink())
    ensures IsCssOrIcon(FontsLink())
  {
    var attrs := FontsLink();
    assert attrs.Keys == {"rel", "href"};
    assert "type" !in attrs;
    assert attrs["rel"] == Multi(["stylesheet"]);
    assert RelIsStylesheet(attrs["rel"]);
    FontsHrefHasNoCss();
    FontsHrefHasNoFavicon();
    assert attrs["href"] == Single(FontsHref());
    assert !HrefMentionsCss(attrs["href"]);
  }

  /** The links of `links` that `keep` accepts, in order. */
  function KeepLinks(links: seq<Located>, keep: map<string, AttrValue> -> bool): (r: seq<Located>)
    ensures forall l :: l in r <==> l in links && keep(l.elem.attrs)
    ensures |r| <= |links|
  {
    if |links| == 0 then []
    else
      var rest := KeepLinks(links[1..], keep);
      assert forall l :: l in links <==> l == links[0] || l in links[1..];
      if keep(links[0].elem.attrs) then [links[0]] + rest else rest
  }

  lemma {:induction false} KeepLinksSnoc(links: seq<Located>, l: Located, keep: map<string, AttrValue> -> bool)
    ensures KeepLinks(links + [l], keep) ==
      KeepLinks(links, keep) + (if keep(l.elem.attrs) then [l] else [])
  {
    if |links| > 0 {
      assert (links + [l])[1..] == links[1..] + [l];
      KeepLinksSnoc(links[1..], l, keep);
    }
  }

  /** The head scan's filter of `<link>` tags, with the test as written. */
  function FilterCssOrIcon(links: seq<Located>): (r: seq<Located>)
    ensures forall l :: l in r <==> l in links && IsCssOrIconAsWritten(l.elem.attrs)
    ensures |r| <= |links|
  {
    KeepLinks(links, IsCssOrIconAsWritten)
  }

  /** The same filter with `rel` read as the parser's token list. */
  function FilterCssOrIconFixed(links: seq<Located>): (r: seq<Located>)
    ensures forall l :: l in r <==> l in links && IsCssOrIcon(l.elem.attrs)
    ensures |r| <= |links|
  {
    KeepLinks(links, IsCssOrIcon)
  }

  /** A web-font stylesheet link alone in the head: the filter as written
      drops it, the corrected one keeps it. */
  lemma FontsLinkDropped(l: Located)
    requires l.elem.attrs == FontsLink()
    ensures FilterCssOrIcon([l]) == []
    ensures FilterCssOrIconFixed([l]) == [l]
  {
    RelComparisonMissesStylesheet();
    KeepLinksSnoc([], l, IsCssOrIconAsWritten);
    KeepLinksSnoc([], l, IsCssOrIcon);
  }

  /** With `rel` read as the parser's token list, every link whose `rel`
      names the stylesheet token is kept for grouping, whatever its href
      says, and it keeps its place among the kept links. */
  lemma StylesheetLinkKept(links: seq<Located>, k: nat)
    requires k < |links| && "rel" in links[k].elem.attrs
    requires RelIsStylesheet(links[k].elem.attrs["rel"])
    ensures links[k] in FilterCssOrIconFixed(links)
    ensures FilterCssOrIconFixed(links[..k + 1]) == FilterCssOrIconFixed(links[..k]) + [links[k]]
  {
    var l := links[k];
    assert IsCssOrIcon(l.elem.attrs);
    assert l in links;
    var pre := links[..k];
    KeepLinksSnoc(pre, l, IsCssOrIcon);
    assert links[..k + 1] == pre + [l];
  }

  function Markup(run: seq<Located>): string
  {
    if |run| == 0 then "" else run[0].elem.markup + Markup(run[1..])
  }

  /** `b` is the block of one of `runs`: two or more tags whose joined
      markup is long enough, hashed over that markup. */
  predicate GroupBlockOf(b: Block, runs: seq<seq<Located>>, kind: BlockKind, minSize: int,
                         md5: string -> string, file: string) {
    exists run :: run in runs && |run| >= 2 && |Markup(run)| >= minSize
      && b == Block(kind, Markup(run), md5(Markup(run)), file)
  }

  /** The grouping's test for one run. */
  function LongRun(minSize: int): seq<Located> -> bool
  {
    run => |run| >= 2 && |Markup(run)| >= minSize
  }

  /** `r` holds one block of `kind` for each position of `ix`, in order, made
      from the joined markup of the run at that position. */
  predicate GroupsAt(r: seq<Block>, kind: BlockKind, runs: seq<seq<Located>>, ix: seq<nat>,
                     md5: string -> string, file: string) {
    && |r| == |ix|
    && forall k :: 0 <= k < |r| ==>
      ix[k] < |runs| && r[k] == Block(kind, Markup(runs[ix[k]]), md5(Markup(runs[ix[k]])), file)
  }

  lemma GroupsAtSnoc(r: seq<Block>, kind: BlockKind, runs: seq<seq<Located>>, ix: seq<nat>,
                     md5: string -> string, file: string, run: seq<Located>, keep: bool)
    requires GroupsAt(r, kind, runs, ix, md5, file)
    ensures GroupsAt(r + (if keep then [Block(kind, Markup(run), md5(Markup(run)), file)] else []), kind,
                     runs + [run], ix + (if keep then [|runs|] else []), md5, file)
  {
    var runs' := runs + [run];
    assert forall j :: 0 <= j < |runs| ==> runs'[j] == runs[j];
  }

  lemma GroupBlocksStep(rest: seq<Block>, runs: seq<seq<Located>>, kind: BlockKind, minSize: int,
                        md5: string -> string, file: string)
    requires |runs| > 0
    requires GroupsAt(rest, kind, runs[..|runs| - 1], Selected(runs[..|runs| - 1], LongRun(minSize)), md5, file)
    ensures var run := runs[|runs| - 1];
      GroupsAt(rest + (if |run| >= 2 && |Markup(run)| >= minSize
                       then [Block(kind, Markup(run), md5(Markup(run)), file)] else []),
               kind, runs, Selected(runs, LongRun(minSize)), md5, file)
  {
    var init, run := runs[..|runs| - 1], runs[|runs| - 1];
    assert runs == init + [run];
    var keep := LongRun(minSize);
    assert keep(run) == (|run| >= 2 && |Markup(run)| >= minSize);
    assert Selected(runs, keep) == Selected(init, keep) + (if keep(run) then [|init|] else []);
    GroupsAtSnoc(rest, kind, init, Selected(init, keep), md5, file, run, keep(run));
  }

  /** The blocks at the long enough runs are exactly the group blocks. */
  lemma GroupsAtMembers(r: seq<Block>, runs: seq<seq<Located>>, kind: BlockKind, minSize: int,
                        md5: string -> string, file: string)
    requires GroupsAt(r, kind, runs, Selected(runs, LongRun(minSize)), md5, file)
    ensures forall b :: b in r <==> GroupBlockOf(b, runs, kind, minSize, md5, file)
  {
    var ix := Selected(runs, LongRun(minSize));
    forall b | b in r ensures GroupBlockOf(b, runs, kind, minSize, md5, file) {
      var k :| 0 <= k < |r| && r[k] == b;
      var run := runs[ix[k]];
      assert LongRun(minSize)(run);
      assert run in runs;
    }
    forall b | GroupBlockOf(b, runs, kind, minSize, md5, file) ensures b in r {
      var run :| run in runs && |run| >= 2 && |Markup(run)| >= minSize
        && b == Block(kind, Markup(run), md5(Markup(run)), file);
      var j :| 0 <= j < |runs| && runs[j] == run;
      assert LongRun(minSize)(runs[j]);
      assert j in ix;
      var k :| 0 <= k < |ix| && ix[k] == j;
      assert r[k] == b;
    }
  }

  /** Blocks for the runs of two or more tags whose joined markup is long
      enough, and for no other run, in run order: the k-th block is that of
      the k-th such run, so two runs with equal markup give two blocks. */
  function GroupBlocks(runs: seq<seq<Located>>, kind: BlockKind, minSize: int,
                       md5: string -> string, file: string): (r: seq<Block>)
    ensures forall b :: b in r <==> GroupBlockOf(b, runs, kind, minSize, md5, file)
    ensures GroupsAt(r, kind, runs, Selected(runs, LongRun(minSize)), md5, file)
    decreases |runs|
  {
    if |runs| == 0 then []
    else
      var init := runs[..|runs| - 1];
      var run := runs[|runs| - 1];
      var rest := GroupBlocks(init, kind, minSize, md5, file);
      GroupBlocksStep(rest, runs, kind, minSize, md5, file);
      var r := rest + (if |run| >= 2 && |Markup(run)| >= minSize
                       then [Block(kind, Markup(run), md5(Markup(run)), file)] else []);
      GroupsAtMembers(r, runs, kind, minSize, md5, file);
      r
  }

  /** `r` is what grouping `tags` yields: nothing for fewer than two tags,
      otherwise the blocks of the long enough runs of adjacent siblings, in
      run order. */
  predicate HeadGroupedAs(r: seq<Block>, tags: seq<Located>, kind: BlockKind, minSize: int,
                          md5: string -> string, file: string) {
    if |tags| >= 2 then
      var runs := Runs(tags, 0, AdjacentSiblings);
      GroupsAt(r, kind, runs, Selected(runs, LongRun(minSize)), md5, file)
    else r == []
  }

  /** How many blocks grouping `tags` yields. */
  function GroupCount(tags: seq<Located>, minSize: int): nat
  {
    if |tags| >= 2 then |Selected(Runs(tags, 0, AdjacentSiblings), LongRun(minSize))| else 0
  }

  /** The grouping of one kind of head tag: the program only groups when at
      least two tags are present, and then every long enough run of two or
      more adjacent siblings becomes a block. */
  function HeadGroupBlocks(tags: seq<Located>, kind: BlockKind, minSize: int,
                           md5: string -> string, file: string): (r: seq<Block>)
    ensures forall b :: b in r <==>
      |tags| >= 2 && GroupBlockOf(b, Runs(tags, 0, AdjacentSiblings), kind, minSize, md5, file)
    ensures HeadGroupedAs(r, tags, kind, minSize, md5, file)
    ensures |r| == GroupCount(tags, minSize)
  {
    if |tags| >= 2 then GroupBlocks(Runs(tags, 0, AdjacentSiblings), kind, minSize, md5, file)
    else []
  }

  // ---------------------------------------------------------------------
  // One page

  datatype Head = Head(links: seq<Located>, metas: seq<Located>)

  /** What the markup parser yields for a page: the serialisations of its
      script elements, of its nav/div elements with a navigation-like class,
      of its first header and footer, its head tags, the serialisation of the
      whole page and the matches of the fixed CSS-link pattern in it. */
  datatype PageParse =
    | Unparseable
    | Parsed(scripts: seq<string>, navs: seq<string>, header: Option<string>, footer: Option<string>,
             head: Option<Head>, serialized: string, cssPatternMatches: seq<string>)

  function OptionItems(o: Option<string>): seq<string>
  {
    match o
    case None => []
    case Some(x) => [x]
  }

  /** Every match of the fixed CSS-link pattern becomes a css_links block,
      in match order and with no size filter. */
  function CssPatternBlocks(ms: seq<string>, md5: string -> string, file: string): (r: seq<Block>)
    ensures forall b :: b in r ==> b.kind == CssLinks && b.file == file && b.content in ms && b.hash == md5(b.content)
    ensures |r| == |ms|
    ensures forall k :: 0 <= k < |ms| ==> r[k] == Block(CssLinks, ms[k], md5(ms[k]), file)
    ensures forall m :: m in ms ==> Block(CssLinks, m, md5(m), file) in r
  {
    if |ms| == 0 then []
    else
      var rest := CssPatternBlocks(ms[1..], md5, file);
      assert forall x :: x in ms[1..] ==> x in ms;
      [Block(CssLinks, ms[0], md5(ms[0]), file)] + rest
  }

  /** `b` comes from grouping `tags` as the head scan does. */
  predicate HeadGroupOf(b: Block, tags: seq<Located>, kind: BlockKind, minSize: int,
                        md5: string -> string, file: string) {
    |tags| >= 2 && GroupBlockOf(b, Runs(tags, 0, AdjacentSiblings), kind, minSize, md5, file)
  }

  /** The head part of the structural scan: the css_links groups of the
      filtered `<link>` tags, then the meta_tags groups of the `<meta>` tags,
      and nothing else. */
  function HeadBlocks(head: Option<Head>, minSize: int, md5: string -> string, file: string): (r: seq<Block>)
    ensures head.None? ==> r == []
    ensures head.Some? ==> forall b :: b in r <==>
      || HeadGroupOf(b, FilterCssOrIcon(head.value.links), CssLinks, minSize, md5, file)
      || HeadGroupOf(b, head.value.metas, MetaTags, minSize, md5, file)
    ensures head.Some? ==>
      var css := FilterCssOrIcon(head.value.links);
      var n := GroupCount(css, minSize);
      && n <= |r|
      && HeadGroupedAs(r[..n], css, CssLinks, minSize, md5, file)
      && HeadGroupedAs(r[n..], head.value.metas, MetaTags, minSize, md5, file)
    ensures forall b :: b in r ==>
      && (b.kind == CssLinks || b.kind == MetaTags) && b.file == file
      && |b.content| >= minSize && b.hash == md5(b.content)
  {
    match head
    case None => []
    case Some(h) =>
      HeadGroupBlocks(FilterCssOrIcon(h.links), CssLinks, minSize, md5, file)
      + HeadGroupBlocks(h.metas, MetaTags, minSize, md5, file)
  }

  function StructuralBlocks(parse: PageParse, minSize: int, md5: string -> string, file: string): seq<Block>
  {
    match parse
    case Unparseable => []
    case Parsed(scripts, navs, header, footer, head, serialized, cssMatches) =>
      SizedBlocks(Script, scripts, minSize, md5, file)
      + SizedBlocks(Navigation, navs, minSize, md5, file)
      + SizedBlocks(Header, OptionItems(header), minSize, md5, file)
      + SizedBlocks(Footer, OptionItems(footer), minSize, md5, file)
      + HeadBlocks(head, minSize, md5, file)
      + CssPatternBlocks(cssMatches, md5, file)
      + SizedBlocks(LinkGroup, LinkGroups(serialized, 0), minSize, md5, file)
  }

  /** `_extract_potential_blocks` for one page, each block tagged with the
      page's path. */
  function ExtractBlocks(file: string, content: string, parse: PageParse, minSize: int,
                         md5: string -> string): seq<Block>
  {
    StructuralBlocks(parse, minSize, md5, file) + PhpBlocks(PhpInners(content, 0), minSize, md5, file)
  }

  /** Structural blocks belong to the page, are never php blocks, are hashed
      over their content, and pass the size filter unless they are matches of
      the fixed CSS-link pattern. */
  lemma StructuralBlocksShape(parse: PageParse, minSize: int, md5: string -> string, file: string)
    ensures forall b :: b in StructuralBlocks(parse, minSize, md5, file) ==>
      && b.file == file && b.kind != PhpCode && b.hash == md5(b.content)
      && (|b.content| >= minSize || (parse.Parsed? && b.kind == CssLinks && b.content in parse.cssPatternMatches))
  {
    if parse.Parsed? {
      StructuralParsedOk(parse, minSize, md5, file);
    }
  }

  lemma StructuralParsedOk(parse: PageParse, minSize: int, md5: string -> string, file: string)
    requires parse.Parsed?
    ensures AllStructural(StructuralBlocks(parse, minSize, md5, file), file, minSize, md5, parse.cssPatternMatches)
  {
    var Parsed(scripts, navs, header, footer, head, serialized, cssMatches) := parse;
    var a := SizedBlocks(Script, scripts, minSize, md5, file);
    var n := SizedBlocks(Navigation, navs, minSize, md5, file);
    var hd := SizedBlocks(Header, OptionItems(header), minSize, md5, file);
    var ft := SizedBlocks(Footer, OptionItems(footer), minSize, md5, file);
    var hb := HeadBlocks(head, minSize, md5, file);
    var cp := CssPatternBlocks(cssMatches, md5, file);
    var lg := SizedBlocks(LinkGroup, LinkGroups(serialized, 0), minSize, md5, file);
    assert AllStructural(a + n + hd + ft + hb + cp + lg, file, minSize, md5, cssMatches) by {
      SizedOk(Script, scripts, minSize, md5, file, cssMatches);
      SizedOk(Navigation, navs, minSize, md5, file, cssMatches);
      SizedOk(Header, OptionItems(header), minSize, md5, file, cssMatches);
      SizedOk(Footer, OptionItems(footer), minSize, md5, file, cssMatches);
      SizedOk(LinkGroup, LinkGroups(serialized, 0), minSize, md5, file, cssMatches);
      assert AllStructural(hb, file, minSize, md5, cssMatches);
      assert AllStructural(cp, file, minSize, md5, cssMatches);
      AllStructuralConcat(a, n, file, minSize, md5, cssMatches);
      AllStructuralConcat(a + n, hd, file, minSize, md5, cssMatches);
      AllStructuralConcat(a + n + hd, ft, file, minSize, md5, cssMatches);
      AllStructuralConcat(a + n + hd + ft, hb, file, minSize, md5, cssMatches);
      AllStructuralConcat(a + n + hd + ft + hb, cp, file, minSize, md5, cssMatches);
      AllStructuralConcat(a + n + hd + ft + hb + cp, lg, file, minSize, md5, cssMatches);
    }
    assert StructuralBlocks(parse, minSize, md5, file) == a + n + hd + ft + hb + cp + lg;
  }

  /** What `StructuralBlocksShape` promises of one block. */
  predicate StructuralBlock(b: Block, file: string, minSize: int, md5: string -> string, cssMatches: seq<string>) {
    && b.file == file && b.kind != PhpCode && b.hash == md5(b.content)
    && (|b.content| >= minSize || (b.kind == CssLinks && b.content in cssMatches))
  }

  predicate AllStructural(bs: seq<Block>, file: string, minSize: int, md5: string -> string, cssMatches: seq<string>) {
    forall b :: b in bs ==> StructuralBlock(b, file, minSize, md5, cssMatches)
  }

  lemma SizedOk(kind: BlockKind, items: seq<string>, minSize: int, md5: string -> string, file: string,
                cssMatches: seq<string>)
    requires kind != PhpCode
    ensures AllStructural(SizedBlocks(kind, items, minSize, md5, file), file, minSize, md5, cssMatches)
  {
  }

  lemma AllStructuralConcat(x: seq<Block>, y: seq<Block>, file: string, minSize: int, md5: string -> string,
                            cssMatches: seq<string>)
    requires AllStructural(x, file, minSize, md5, cssMatches) && AllStructural(y, file, minSize, md5, cssMatches)
    ensures AllStructural(x + y, file, minSize, md5, cssMatches)
  {
  }

  /** Every extracted block belongs to the page it was extracted from. */
  lemma ExtractBlocksFile(file: string, content: string, parse: PageParse, minSize: int,
                          md5: string -> string)
    ensures forall b :: b in ExtractBlocks(file, content, parse, minSize, md5) ==> b.file == file
  {
    ExtractBlocksShape(file, content, parse, minSize, md5);
  }

  /** Every extracted block belongs to the page; only the fixed CSS-pattern
      matches escape the size filter; a php block is `<?php ` + group + ` ?>`
      for a long enough group of the php pattern and is hashed over the
      group, every other block over its content. */
  lemma ExtractBlocksShape(file: string, content: string, parse: PageParse, minSize: int,
                           md5: string -> string)
    ensures forall b :: b in ExtractBlocks(file, content, parse, minSize, md5) ==>
      && b.file == file
      && (|b.content| >= minSize || (parse.Parsed? && b.kind == CssLinks && b.content in parse.cssPatternMatches))
      && (b.kind != PhpCode ==> b.hash == md5(b.content))
      && (b.kind == PhpCode ==> exists inner :: (inner in PhpInners(content, 0) && |inner| >= minSize
            && b.content == "<?php " + inner + " ?>" && b.hash == md5(inner)))
  {
    StructuralBlocksShape(parse, minSize, md5, file);
    var st := StructuralBlocks(parse, minSize, md5, file);
    var ph := PhpBlocks(PhpInners(content, 0), minSize, md5, file);
    forall b: Block | b in st + ph
      ensures && b.file == file
        && (|b.content| >= minSize || (parse.Parsed? && b.kind == CssLinks && b.content in parse.cssPatternMatches))
        && (b.kind != PhpCode ==> b.hash == md5(b.content))
        && (b.kind == PhpCode ==> exists inner :: (inner in PhpInners(content, 0) && |inner| >= minSize
              && b.content == "<?php " + inner + " ?>" && b.hash == md5(inner)))
    {
      if b in ph {
        var x :| x in PhpInners(content, 0) && |x| >= minSize && b == PhpBlock(x, md5, file);
        assert |b.content| == |x| + 9;
      }
    }
  }
}

=== FILE: clusters.dfy ===
/**
  Greedy clustering of candidate blocks (`identify_common_blocks`). Blocks
  are processed in extraction order; each block whose hash is not yet
  claimed seeds a cluster, and later blocks join it when their hash is
  unclaimed, they come from another file than the seed, and their
  similarity to the seed reaches the threshold. Joining claims the
  member's hash at once, whether or not the cluster is kept; a kept
  cluster also claims its seed's hash. Similarity is a parameter, with no
  assumption about symmetry or range.
 */
module Clusters {
  import opened Text
  import opened Blocks

  /** A kept cluster: its id and the positions of its members in the list of
      extracted blocks, seed first. */
  datatype Cluster = Cluster(id: string, positions: seq<nat>)

  /** `f"{type}_{k}"`. */
  function ClusterId(kind: BlockKind, k: nat): string
  {
    KindName(kind) + "_" + NatToString(k)
  }

  predicate Increasing(ps: seq<nat>) {
    forall a, b :: 0 <= a < b < |ps| ==> ps[a] < ps[b]
  }

  /** No two listed positions carry the same hash. */
  predicate HashesDistinct(blocks: seq<Block>, ps: seq<nat>) {
    forall a, c :: 0 <= a < c < |ps| && ps[a] < |blocks| && ps[c] < |blocks| ==>
      blocks[ps[a]].hash != blocks[ps[c]].hash
  }

  function HashesAt(blocks: seq<Block>, ps: seq<nat>): set<string>
  {
    set p | p in ps && p < |blocks| :: blocks[p].hash
  }

  /** The member scan for the seed at `seed`, from position `j` on, with the
      hashes in `claimed` already taken. Returns the members found and the
      claimed set afterwards. */
  function Scan(blocks: seq<Block>, seed: nat, j: nat, claimed: set<string>,
                sim: (string, string) -> real, threshold: real): (r: (seq<nat>, set<string>))
    requires seed < j <= |blocks|
    ensures forall a :: 0 <= a < |r.0| ==> j <= r.0[a] < |blocks|
    decreases |blocks| - j
  {
    if j == |blocks| then ([], claimed)
    else
      var b := blocks[j];
      if b.hash in claimed || blocks[seed].file == b.file then
        Scan(blocks, seed, j + 1, claimed, sim, threshold)
      else if sim(blocks[seed].content, b.content) >= threshold then
        var rest := Scan(blocks, seed, j + 1, claimed + {b.hash}, sim, threshold);
        ([j] + rest.0, rest.1)
      else
        Scan(blocks, seed, j + 1, claimed, sim, threshold)
  }

  /** Prepending a position below all others whose hash none of them has
      keeps a member list ordered and free of repeated hashes. */
  lemma OrderedCons(blocks: seq<Block>, j: nat, rest: seq<nat>)
    requires j < |blocks|
    requires Increasing(rest)
    requires forall a :: 0 <= a < |rest| ==> j < rest[a] < |blocks|
    requires forall m :: m in rest ==> blocks[m].hash != blocks[j].hash
    requires HashesDistinct(blocks, rest)
    ensures Increasing([j] + rest)
    ensures HashesDistinct(blocks, [j] + rest)
  {
    var ms := [j] + rest;
    forall a, c | 0 <= a < c < |ms|
      ensures ms[a] < ms[c]
      ensures ms[a] < |blocks| && ms[c] < |blocks| && blocks[ms[a]].hash != blocks[ms[c]].hash
    {
      assert ms[c] == rest[c - 1] && ms[c] in rest;
      if a > 0 {
        assert ms[a] == rest[a - 1];
      }
    }
  }

  /** The scan lists its members in extraction order and never two with the
      same hash. */
  lemma {:induction false} ScanOrdered(blocks: seq<Block>, seed: nat, j: nat, claimed: set<string>,
                                       sim: (string, string) -> real, threshold: real)
    requires seed < j <= |blocks|
    ensures Increasing(Scan(blocks, seed, j, claimed, sim, threshold).0)
    ensures HashesDistinct(blocks, Scan(blocks, seed, j, claimed, sim, threshold).0)
    decreases |blocks| - j
  {
    if j < |blocks| {
      var h := blocks[j].hash;
      if ScanTakes(blocks, seed, j, claimed, sim, threshold) {
        ScanOrdered(blocks, seed, j + 1, claimed + {h}, sim, threshold);
        ScanOrderedTake(blocks, seed, j, claimed, sim, threshold);
      } else {
        ScanSkip(blocks, seed, j, claimed, sim, threshold);
        ScanOrdered(blocks, seed, j + 1, claimed, sim, threshold);
      }
    }
  }

  /** The step of `ScanOrdered` that takes the block at `j`. */
  lemma ScanOrderedTake(blocks: seq<Block>, seed: nat, j: nat, claimed: set<string>,
                        sim: (string, string) -> real, threshold: real)
    requires seed < j < |blocks| && ScanTakes(blocks, seed, j, claimed, sim, threshold)
    requires var rest := Scan(blocks, seed, j + 1, claimed + {blocks[j].hash}, sim, threshold).0;
      Increasing(rest) && HashesDistinct(blocks, rest)
    ensures Increasing(Scan(blocks, seed, j, claimed, sim, threshold).0)
    ensures HashesDistinct(blocks, Scan(blocks, seed, j, claimed, sim, threshold).0)
  {
    var rest := Scan(blocks, seed, j + 1, claimed + {blocks[j].hash}, sim, threshold).0;
    ScanMembers(blocks, seed, j + 1, claimed + {blocks[j].hash}, sim, threshold);
    ScanTake(blocks, seed, j, claimed, sim, threshold);
    OrderedCons(blocks, j, rest);
  }

  /** Whether the scan takes the block at `j`. */
  predicate ScanTakes(blocks: seq<Block>, seed: nat, j: nat, claimed: set<string>,
                      sim: (string, string) -> real, threshold: real)
    requires seed < j < |blocks|
  {
    blocks[j].hash !in claimed && blocks[seed].file != blocks[j].file
    && sim(blocks[seed].content, blocks[j].content) >= threshold
  }

  lemma ScanTake(blocks: seq<Block>, seed: nat, j: nat, claimed: set<string>,
                 sim: (string, string) -> real, threshold: real)
    requires seed < j < |blocks| && ScanTakes(blocks, seed, j, claimed, sim, threshold)
    ensures var rest := Scan(blocks, seed, j + 1, claimed + {blocks[j].hash}, sim, threshold);
      Scan(blocks, seed, j, claimed, sim, threshold) == ([j] + rest.0, rest.1)
  {
  }

  lemma ScanSkip(blocks: seq<Block>, seed: nat, j: nat, claimed: set<string>,
                 sim: (string, string) -> real, threshold: real)
    requires seed < j < |blocks| && !ScanTakes(blocks, seed, j, claimed, sim, threshold)
    ensures Scan(blocks, seed, j, claimed, sim, threshold) == Scan(blocks, seed, j + 1, claimed, sim, threshold)
  {
  }

  /** Every member comes from another file than the seed, is similar enough
      to it, and had a hash not claimed before the scan. */
  lemma {:induction false} ScanMembers(blocks: seq<Block>, seed: nat, j: nat, claimed: set<string>,
                                       sim: (string, string) -> real, threshold: real)
    requires seed < j <= |blocks|
    ensures forall m :: m in Scan(blocks, seed, j, claimed, sim, threshold).0 ==>
      && blocks[m].file != blocks[seed].file
      && sim(blocks[seed].content, blocks[m].content) >= threshold
      && blocks[m].hash !in claimed
    decreases |blocks| - j
  {
    if j < |blocks| {
      var b := blocks[j];
      if b.hash in claimed || blocks[seed].file == b.file {
        ScanMembers(blocks, seed, j + 1, claimed, sim, threshold);
      } else if sim(blocks[seed].content, b.content) >= threshold {
        ScanMembers(blocks, seed, j + 1, claimed + {b.hash}, sim, threshold);
      } else {
        ScanMembers(blocks, seed, j + 1, claimed, sim, threshold);
      }
    }
  }

  /** The scan claims exactly its members' hashes. */
  lemma {:induction false} ScanClaims(blocks: seq<Block>, seed: nat, j: nat, claimed: set<string>,
                                      sim: (string, string) -> real, threshold: real)
    requires seed < j <= |blocks|
    ensures Scan(blocks, seed, j, claimed, sim, threshold).1
      == claimed + HashesAt(blocks, Scan(blocks, seed, j, claimed, sim, threshold).0)
    decreases |blocks| - j
  {
    if j < |blocks| {
      var h := blocks[j].hash;
      if ScanTakes(blocks, seed, j, claimed, sim, threshold) {
        ScanClaims(blocks, seed, j + 1, claimed + {h}, sim, threshold);
        ScanClaimsTake(blocks, seed, j, claimed, sim, threshold);
      } else {
        ScanSkip(blocks, seed, j, claimed, sim, threshold);
        ScanClaims(blocks, seed, j + 1, claimed, sim, threshold);
      }
    }
  }

  /** The step of `ScanClaims` that takes the block at `j`. */
  lemma ScanClaimsTake(blocks: seq<Block>, seed: nat, j: nat, claimed: set<string>,
                       sim: (string, string) -> real, threshold: real)
    requires seed < j < |blocks| && ScanTakes(blocks, seed, j, claimed, sim, threshold)
    requires var next := Scan(blocks, seed, j + 1, claimed + {blocks[j].hash}, sim, threshold);
      next.1 == claimed + {blocks[j].hash} + HashesAt(blocks, next.0)
    ensures Scan(blocks, seed, j, claimed, sim, threshold).1
      == claimed + HashesAt(blocks, Scan(blocks, seed, j, claimed, sim, threshold).0)
  {
    var next := Scan(blocks, seed, j + 1, claimed + {blocks[j].hash}, sim, threshold);
    ScanTake(blocks, seed, j, claimed, sim, threshold);
    HashesAtCons(blocks, j, next.0);
    ClaimsUnion(claimed, blocks[j].hash, HashesAt(blocks, next.0));
  }

  lemma ClaimsUnion(claimed: set<string>, h: string, more: set<string>)
    ensures claimed + {h} + more == claimed + ({h} + more)
  {
  }

  lemma HashesAtCons(blocks: seq<Block>, j: nat, rest: seq<nat>)
    requires j < |blocks|
    ensures HashesAt(blocks, [j] + rest) == {blocks[j].hash} + HashesAt(blocks, rest)
  {
  }

  lemma ScanSound(blocks: seq<Block>, seed: nat, j: nat, claimed: set<string>,
                  sim: (string, string) -> real, threshold: real)
    requires seed < j <= |blocks|
    ensures Increasing(Scan(blocks, seed, j, claimed, sim, threshold).0)
    ensures forall m :: m in Scan(blocks, seed, j, claimed, sim, threshold).0 ==>
      && blocks[m].file != blocks[seed].file
      && sim(blocks[seed].content, blocks[m].content) >= threshold
      && blocks[m].hash !in claimed
    ensures HashesDistinct(blocks, Scan(blocks, seed, j, claimed, sim, threshold).0)
    ensures Scan(blocks, seed, j, claimed, sim, threshold).1
      == claimed + HashesAt(blocks, Scan(blocks, seed, j, claimed, sim, threshold).0)
  {
    ScanOrdered(blocks, seed, j, claimed, sim, threshold);
    ScanMembers(blocks, seed, j, claimed, sim, threshold);
    ScanClaims(blocks, seed, j, claimed, sim, threshold);
  }

  /** No member listed in `ms` before position `x` shares `x`'s hash. */
  predicate NoEarlierTwin(blocks: seq<Block>, ms: seq<nat>, x: nat)
    requires x < |blocks|
  {
    forall a :: 0 <= a < |ms| && ms[a] < x && ms[a] < |blocks| ==> blocks[ms[a]].hash != blocks[x].hash
  }

  lemma NoEarlierTwinCons(blocks: seq<Block>, j: nat, rest: seq<nat>, x: nat)
    requires j < x < |blocks|
    ensures NoEarlierTwin(blocks, [j] + rest, x) <==> blocks[j].hash != blocks[x].hash && NoEarlierTwin(blocks, rest, x)
  {
    var ms := [j] + rest;
    assert ms[0] == j;
    assert forall a :: 1 <= a < |ms| ==> ms[a] == rest[a - 1];
    if NoEarlierTwin(blocks, ms, x) {
      forall a | 0 <= a < |rest| && rest[a] < x && rest[a] < |blocks|
        ensures blocks[rest[a]].hash != blocks[x].hash
      {
        assert ms[a + 1] == rest[a];
      }
    }
  }

  /** The step of `ScanSelects` where the block at `j` is taken. */
  lemma TakeStep(blocks: seq<Block>, seed: nat, j: nat, claimed: set<string>, rest: seq<nat>, x: nat,
                 sim: (string, string) -> real, threshold: real)
    requires seed < j < x < |blocks|
    requires x in rest <==>
        && blocks[x].hash !in claimed + {blocks[j].hash}
        && NoEarlierTwin(blocks, rest, x)
        && blocks[x].file != blocks[seed].file
        && sim(blocks[seed].content, blocks[x].content) >= threshold
    ensures x in [j] + rest <==>
        && blocks[x].hash !in claimed
        && NoEarlierTwin(blocks, [j] + rest, x)
        && blocks[x].file != blocks[seed].file
        && sim(blocks[seed].content, blocks[x].content) >= threshold
  {
    NoEarlierTwinCons(blocks, j, rest, x);
    assert x in [j] + rest <==> x in rest;
  }

  /** Which later blocks the scan takes: exactly those that, when reached,
      have a hash neither claimed before the scan nor taken by an earlier
      member, another file than the seed, and enough similarity. */
  lemma {:induction false} ScanSelects(blocks: seq<Block>, seed: nat, j: nat, claimed: set<string>,
                                       sim: (string, string) -> real, threshold: real, x: nat)
    requires seed < j <= x < |blocks|
    ensures var ms := Scan(blocks, seed, j, claimed, sim, threshold).0;
      x in ms <==>
        && blocks[x].hash !in claimed
        && NoEarlierTwin(blocks, ms, x)
        && blocks[x].file != blocks[seed].file
        && sim(blocks[seed].content, blocks[x].content) >= threshold
    decreases |blocks| - j
  {
    var b := blocks[j];
    if b.hash in claimed || blocks[seed].file == b.file {
      var ms := Scan(blocks, seed, j + 1, claimed, sim, threshold).0;
      if x > j {
        ScanSelects(blocks, seed, j + 1, claimed, sim, threshold, x);
      } else {
        assert x !in ms;
      }
    } else if sim(blocks[seed].content, b.content) >= threshold {
      var rest := Scan(blocks, seed, j + 1, claimed + {b.hash}, sim, threshold).0;
      var ms := [j] + rest;
      assert Scan(blocks, seed, j, claimed, sim, threshold).0 == ms;
      if x > j {
        ScanSelects(blocks, seed, j + 1, claimed + {b.hash}, sim, threshold, x);
        TakeStep(blocks, seed, j, claimed, rest, x, sim, threshold);
      } else {
        assert forall a :: 0 <= a < |ms| ==> ms[a] >= j;
        assert NoEarlierTwin(blocks, ms, x);
      }
    } else {
      var ms := Scan(blocks, seed, j + 1, claimed, sim, threshold).0;
      if x > j {
        ScanSelects(blocks, seed, j + 1, claimed, sim, threshold, x);
      } else {
        assert x !in ms;
      }
    }
  }

  /** The outer loop from position `i`, with `kept` the clusters kept so far. */
  function Build(blocks: seq<Block>, i: nat, claimed: set<string>, kept: seq<Cluster>,
                 sim: (string, string) -> real, threshold: real, minOccurrences: int): seq<Cluster>
    requires i <= |blocks|
    decreases |blocks| - i
  {
    if i == |blocks| then kept
    else if blocks[i].hash in claimed then
      Build(blocks, i + 1, claimed, kept, sim, threshold, minOccurrences)
    else
      var scan := Scan(blocks, i, i + 1, claimed, sim, threshold);
      if 1 + |scan.0| >= minOccurrences then
        var c := Cluster(ClusterId(blocks[i].kind, |kept|), [i] + scan.0);
        Build(blocks, i + 1, scan.1 + {blocks[i].hash}, kept + [c], sim, threshold, minOccurrences)
      else
        Build(blocks, i + 1, scan.1, kept, sim, threshold, minOccurrences)
  }

  /** `identify_common_blocks` on the extracted blocks, in order. */
  function IdentifyCommonBlocks(blocks: seq<Block>, sim: (string, string) -> real,
                                threshold: real, minOccurrences: int): seq<Cluster>
  {
    Build(blocks, 0, {}, [], sim, threshold, minOccurrences)
  }

  /** What each kept cluster (the k-th kept) satisfies on its own. */
  ghost predicate WellFormed(blocks: seq<Block>, c: Cluster, k: nat,
                             sim: (string, string) -> real, threshold: real, minOccurrences: int)
  {
    var ps := c.positions;
    && |ps| >= 1 && |ps| >= minOccurrences
    && (forall m :: 0 <= m < |ps| ==> ps[m] < |blocks|)
    && Increasing(ps)
    && c.id == ClusterId(blocks[ps[0]].kind, k)
    && (forall m :: 1 <= m < |ps| ==>
          && blocks[ps[m]].file != blocks[ps[0]].file
          && sim(blocks[ps[0]].content, blocks[ps[m]].content) >= threshold)
    && HashesDistinct(blocks, ps[1..])
  }

  /** How the kept clusters relate to each other: seeds in extraction order
      and no hash shared between two clusters. */
  ghost predicate Separated(blocks: seq<Block>, kept: seq<Cluster>)
  {
    forall a, b :: 0 <= a < b < |kept| ==>
      && |kept[a].positions| > 0 && |kept[b].positions| > 0
      && kept[a].positions[0] < kept[b].positions[0]
      && HashesAt(blocks, kept[a].positions) !! HashesAt(blocks, kept[b].positions)
  }

  ghost predicate BuildInv(blocks: seq<Block>, i: nat, claimed: set<string>, kept: seq<Cluster>,
                           sim: (string, string) -> real, threshold: real, minOccurrences: int)
  {
    && (forall k :: 0 <= k < |kept| ==> WellFormed(blocks, kept[k], k, sim, threshold, minOccurrences))
    && (forall k :: 0 <= k < |kept| ==> kept[k].positions[0] < i)
    && (forall k :: 0 <= k < |kept| ==> HashesAt(blocks, kept[k].positions) <= claimed)
    && Separated(blocks, kept)
  }

  /** The cluster kept at step `i` is well formed. */
  lemma NewClusterWellFormed(blocks: seq<Block>, i: nat, claimed: set<string>, k: nat,
                             sim: (string, string) -> real, threshold: real, minOccurrences: int)
    requires i < |blocks|
    requires 1 + |Scan(blocks, i, i + 1, claimed, sim, threshold).0| >= minOccurrences
    ensures var ps := [i] + Scan(blocks, i, i + 1, claimed, sim, threshold).0;
      WellFormed(blocks, Cluster(ClusterId(blocks[i].kind, k), ps), k, sim, threshold, minOccurrences)
  {
    var ms := Scan(blocks, i, i + 1, claimed, sim, threshold).0;
    ScanOrdered(blocks, i, i + 1, claimed, sim, threshold);
    ScanMembers(blocks, i, i + 1, claimed, sim, threshold);
    var ps := [i] + ms;
    assert ps[0] == i;
    assert ps[1..] == ms;
    IncreasingCons(i, ms);
    assert forall m :: 0 <= m < |ps| ==> ps[m] < |blocks| by {
      assert forall m :: 1 <= m < |ps| ==> ps[m] == ms[m - 1];
    }
    forall m | 1 <= m < |ps|
      ensures blocks[ps[m]].file != blocks[ps[0]].file
      ensures sim(blocks[ps[0]].content, blocks[ps[m]].content) >= threshold
    {
      assert ps[m] == ms[m - 1] && ms[m - 1] in ms;
    }
  }

  /** A position below every listed one can be put in front of an
      increasing list. */
  lemma IncreasingCons(i: nat, ms: seq<nat>)
    requires Increasing(ms) && forall a :: 0 <= a < |ms| ==> i < ms[a]
    ensures Increasing([i] + ms)
  {
    var ps := [i] + ms;
    forall a, b | 0 <= a < b < |ps| ensures ps[a] < ps[b] {
      assert ps[b] == ms[b - 1];
      if a > 0 {
        assert ps[a] == ms[a - 1];
      }
    }
  }

  /** Keeping the cluster found at step `i` preserves the invariant. */
  lemma KeepStep(blocks: seq<Block>, i: nat, claimed: set<string>, kept: seq<Cluster>,
                 sim: (string, string) -> real, threshold: real, minOccurrences: int)
    requires i < |blocks| && blocks[i].hash !in claimed
    requires BuildInv(blocks, i, claimed, kept, sim, threshold, minOccurrences)
    requires 1 + |Scan(blocks, i, i + 1, claimed, sim, threshold).0| >= minOccurrences
    ensures var scan := Scan(blocks, i, i + 1, claimed, sim, threshold);
      var c := Cluster(ClusterId(blocks[i].kind, |kept|), [i] + scan.0);
      BuildInv(blocks, i + 1, scan.1 + {blocks[i].hash}, kept + [c], sim, threshold, minOccurrences)
  {
    var scan := Scan(blocks, i, i + 1, claimed, sim, threshold);
    var ps := [i] + scan.0;
    var c := Cluster(ClusterId(blocks[i].kind, |kept|), ps);
    var kept' := kept + [c];
    var claimed' := scan.1 + {blocks[i].hash};
    ScanSound(blocks, i, i + 1, claimed, sim, threshold);
    NewClusterWellFormed(blocks, i, claimed, |kept|, sim, threshold, minOccurrences);
    assert HashesAt(blocks, ps) == {blocks[i].hash} + HashesAt(blocks, scan.0);
    KeepWellFormed(blocks, kept, c, sim, threshold, minOccurrences);
    KeepClaims(blocks, kept, c, claimed, claimed');
    KeepSeparated(blocks, kept, c, i, claimed);
  }

  lemma KeepWellFormed(blocks: seq<Block>, kept: seq<Cluster>, c: Cluster,
                       sim: (string, string) -> real, threshold: real, minOccurrences: int)
    requires forall k :: 0 <= k < |kept| ==> WellFormed(blocks, kept[k], k, sim, threshold, minOccurrences)
    requires WellFormed(blocks, c, |kept|, sim, threshold, minOccurrences)
    ensures forall k :: 0 <= k < |kept + [c]| ==> WellFormed(blocks, (kept + [c])[k], k, sim, threshold, minOccurrences)
  {
    forall k | 0 <= k < |kept + [c]|
      ensures WellFormed(blocks, (kept + [c])[k], k, sim, threshold, minOccurrences)
    {
      if k < |kept| { assert (kept + [c])[k] == kept[k]; }
    }
  }

  lemma KeepClaims(blocks: seq<Block>, kept: seq<Cluster>, c: Cluster, claimed: set<string>, claimed': set<string>)
    requires forall k :: 0 <= k < |kept| ==> HashesAt(blocks, kept[k].positions) <= claimed
    requires claimed <= claimed' && HashesAt(blocks, c.positions) <= claimed'
    ensures forall k :: 0 <= k < |kept + [c]| ==> HashesAt(blocks, (kept + [c])[k].positions) <= claimed'
  {
    forall k | 0 <= k < |kept + [c]| ensures HashesAt(blocks, (kept + [c])[k].positions) <= claimed' {
      if k < |kept| {
        assert (kept + [c])[k] == kept[k];
      }
    }
  }

  lemma KeepSeparated(blocks: seq<Block>, kept: seq<Cluster>, c: Cluster, i: nat, claimed: set<string>)
    requires Separated(blocks, kept)
    requires forall k :: 0 <= k < |kept| ==> |kept[k].positions| > 0 && kept[k].positions[0] < i
    requires forall k :: 0 <= k < |kept| ==> HashesAt(blocks, kept[k].positions) <= claimed
    requires |c.positions| > 0 && c.positions[0] == i
    requires HashesAt(blocks, c.positions) !! claimed
    ensures Separated(blocks, kept + [c])
    ensures forall k :: 0 <= k < |kept + [c]| ==> (kept + [c])[k].positions[0] < i + 1
  {
    var kept' := kept + [c];
    forall a, b | 0 <= a < b < |kept'|
      ensures |kept'[a].positions| > 0 && |kept'[b].positions| > 0
      ensures kept'[a].positions[0] < kept'[b].positions[0]
      ensures HashesAt(blocks, kept'[a].positions) !! HashesAt(blocks, kept'[b].positions)
    {
      assert kept'[a] == kept[a];
      if b == |kept| {
        assert kept'[b] == c;
      } else {
        assert kept'[b] == kept[b];
      }
    }
    forall k | 0 <= k < |kept'| ensures kept'[k].positions[0] < i + 1 {
      if k < |kept| { assert kept'[k] == kept[k]; }
    }
  }

  lemma {:induction false} BuildKeepsInv(blocks: seq<Block>, i: nat, claimed: set<string>, kept: seq<Cluster>,
                                         sim: (string, string) -> real, threshold: real, minOccurrences: int)
    requires i <= |blocks|
    requires BuildInv(blocks, i, claimed, kept, sim, threshold, minOccurrences)
    ensures var r := Build(blocks, i, claimed, kept, sim, threshold, minOccurrences);
      && (forall k :: 0 <= k < |r| ==> WellFormed(blocks, r[k], k, sim, threshold, minOccurrences))
      && Separated(blocks, r)
    decreases |blocks| - i
  {
    if i == |blocks| {
    } else if blocks[i].hash in claimed {
      BuildKeepsInv(blocks, i + 1, claimed, kept, sim, threshold, minOccurrences);
    } else {
      var scan := Scan(blocks, i, i + 1, claimed, sim, threshold);
      if 1 + |scan.0| >= minOccurrences {
        var c := Cluster(ClusterId(blocks[i].kind, |kept|), [i] + scan.0);
        KeepStep(blocks, i, claimed, kept, sim, threshold, minOccurrences);
        BuildKeepsInv(blocks, i + 1, scan.1 + {blocks[i].hash}, kept + [c], sim, threshold, minOccurrences);
      } else {
        ScanSound(blocks, i, i + 1, claimed, sim, threshold);
        assert BuildInv(blocks, i + 1, scan.1, kept, sim, threshold, minOccurrences);
        BuildKeepsInv(blocks, i + 1, scan.1, kept, sim, threshold, minOccurrences);
      }
    }
  }

  /** The promises of the clustering: every kept cluster has at least
      `minOccurrences` members, starts with its seed, lists the other members
      in extraction order after it, takes none from the seed's file, takes
      only members similar enough to the seed, never takes two members with
      the same hash, and is named after its seed's type and the number of
      clusters kept before it; seeds come in extraction order and no hash
      appears in two kept clusters. */
  lemma IdentifyCommonBlocksSpec(blocks: seq<Block>, sim: (string, string) -> real,
                                 threshold: real, minOccurrences: int)
    ensures var r := IdentifyCommonBlocks(blocks, sim, threshold, minOccurrences);
      && (forall k :: 0 <= k < |r| ==> WellFormed(blocks, r[k], k, sim, threshold, minOccurrences))
      && Separated(blocks, r)
  {
    BuildKeepsInv(blocks, 0, {}, [], sim, threshold, minOccurrences);
  }

  // ---------------------------------------------------------------------
  // The claimed set, position by position

  /** The claimed set when the outer loop reaches position `i`: every scan
      before it has added its members' hashes, whether its cluster was kept
      or dropped, and each kept seed its own. */
  function ClaimedAt(blocks: seq<Block>, i: nat, sim: (string, string) -> real,
                     threshold: real, minOccurrences: int): set<string>
    requires i <= |blocks|
  {
    if i == 0 then {}
    else
      var c := ClaimedAt(blocks, i - 1, sim, threshold, minOccurrences);
      var j := i - 1;
      if blocks[j].hash in c then c
      else
        var scan := Scan(blocks, j, j + 1, c, sim, threshold);
        if 1 + |scan.0| >= minOccurrences then scan.1 + {blocks[j].hash} else scan.1
  }

  /** The scan seeded at `i` with what is claimed when the loop gets there. */
  function ScanAt(blocks: seq<Block>, i: nat, sim: (string, string) -> real,
                  threshold: real, minOccurrences: int): seq<nat>
    requires i < |blocks|
  {
    Scan(blocks, i, i + 1, ClaimedAt(blocks, i, sim, threshold, minOccurrences), sim, threshold).0
  }

  /** Position `i` seeds a kept cluster: its hash is unclaimed and its scan
      finds enough members. */
  predicate SeedAt(blocks: seq<Block>, i: nat, sim: (string, string) -> real,
                   threshold: real, minOccurrences: int)
    requires i < |blocks|
  {
    && blocks[i].hash !in ClaimedAt(blocks, i, sim, threshold, minOccurrences)
    && 1 + |ScanAt(blocks, i, sim, threshold, minOccurrences)| >= minOccurrences
  }

  predicate SeedOf(c: Cluster, x: nat) {
    |c.positions| > 0 && c.positions[0] == x
  }

  /** `c` is the cluster of a seed at or after `lo`: the seed followed by the
      members its scan found. */
  predicate FromSeed(blocks: seq<Block>, c: Cluster, lo: nat, sim: (string, string) -> real,
                     threshold: real, minOccurrences: int)
  {
    && |c.positions| > 0
    && lo <= c.positions[0] < |blocks|
    && SeedAt(blocks, c.positions[0], sim, threshold, minOccurrences)
    && c.positions == [c.positions[0]] + ScanAt(blocks, c.positions[0], sim, threshold, minOccurrences)
  }

  /** `r` is `kept` followed by exactly the clusters of the seeds at or
      after `i`, in order. */
  ghost predicate AppendsSeeds(blocks: seq<Block>, i: nat, kept: seq<Cluster>, r: seq<Cluster>,
                               sim: (string, string) -> real, threshold: real, minOccurrences: int)
  {
    && |kept| <= |r| && r[..|kept|] == kept
    && (forall k :: |kept| <= k < |r| ==> FromSeed(blocks, r[k], i, sim, threshold, minOccurrences))
    && (forall k :: |kept| <= k < |r| - 1 ==> r[k].positions[0] < r[k + 1].positions[0])
    && (forall x :: i <= x < |blocks| && SeedAt(blocks, x, sim, threshold, minOccurrences) ==>
          exists k :: |kept| <= k < |r| && SeedOf(r[k], x))
  }

  lemma ClaimedAtNext(blocks: seq<Block>, i: nat, sim: (string, string) -> real,
                      threshold: real, minOccurrences: int)
    requires i < |blocks|
    ensures var c := ClaimedAt(blocks, i, sim, threshold, minOccurrences);
      ClaimedAt(blocks, i + 1, sim, threshold, minOccurrences) ==
        (if blocks[i].hash in c then c
         else
           var scan := Scan(blocks, i, i + 1, c, sim, threshold);
           if 1 + |scan.0| >= minOccurrences then scan.1 + {blocks[i].hash} else scan.1)
  {
  }

  /** A position that seeds nothing leaves the loop's result as it is. */
  lemma NonSeedStep(blocks: seq<Block>, i: nat, kept: seq<Cluster>,
                    sim: (string, string) -> real, threshold: real, minOccurrences: int)
    requires i < |blocks| && !SeedAt(blocks, i, sim, threshold, minOccurrences)
    requires AppendsSeeds(blocks, i + 1, kept,
      Build(blocks, i + 1, ClaimedAt(blocks, i + 1, sim, threshold, minOccurrences), kept, sim, threshold, minOccurrences),
      sim, threshold, minOccurrences)
    ensures AppendsSeeds(blocks, i, kept,
      Build(blocks, i, ClaimedAt(blocks, i, sim, threshold, minOccurrences), kept, sim, threshold, minOccurrences),
      sim, threshold, minOccurrences)
  {
    ClaimedAtNext(blocks, i, sim, threshold, minOccurrences);
  }

  /** A seed's cluster comes next, before those of the later seeds. */
  lemma SeedStep(blocks: seq<Block>, i: nat, kept: seq<Cluster>,
                 sim: (string, string) -> real, threshold: real, minOccurrences: int)
    requires i < |blocks| && SeedAt(blocks, i, sim, threshold, minOccurrences)
    requires var c := Cluster(ClusterId(blocks[i].kind, |kept|), [i] + ScanAt(blocks, i, sim, threshold, minOccurrences));
      AppendsSeeds(blocks, i + 1, kept + [c],
        Build(blocks, i + 1, ClaimedAt(blocks, i + 1, sim, threshold, minOccurrences), kept + [c], sim, threshold, minOccurrences),
        sim, threshold, minOccurrences)
    ensures AppendsSeeds(blocks, i, kept,
      Build(blocks, i, ClaimedAt(blocks, i, sim, threshold, minOccurrences), kept, sim, threshold, minOccurrences),
      sim, threshold, minOccurrences)
  {
    ClaimedAtNext(blocks, i, sim, threshold, minOccurrences);
    var c := Cluster(ClusterId(blocks[i].kind, |kept|), [i] + ScanAt(blocks, i, sim, threshold, minOccurrences));
    var r := Build(blocks, i, ClaimedAt(blocks, i, sim, threshold, minOccurrences), kept, sim, threshold, minOccurrences);
    assert r == Build(blocks, i + 1, ClaimedAt(blocks, i + 1, sim, threshold, minOccurrences), kept + [c], sim, threshold, minOccurrences);
    assert r[..|kept| + 1] == kept + [c];
    assert r[..|kept|] == (kept + [c])[..|kept|];
    assert r[|kept|] == c;
    assert FromSeed(blocks, c, i, sim, threshold, minOccurrences);
    forall k | |kept| <= k < |r| - 1 ensures r[k].positions[0] < r[k + 1].positions[0] {
      if k == |kept| {
        assert FromSeed(blocks, r[k + 1], i + 1, sim, threshold, minOccurrences);
      }
    }
    forall x | i <= x < |blocks| && SeedAt(blocks, x, sim, threshold, minOccurrences)
      ensures exists k :: |kept| <= k < |r| && SeedOf(r[k], x)
    {
      if x == i {
        assert SeedOf(r[|kept|], x);
      }
    }
  }

  /** The outer loop from `i` on appends to `kept` exactly the clusters of
      the seeds at or after `i`, in order. */
  lemma {:induction false} BuildFromSeeds(blocks: seq<Block>, i: nat, kept: seq<Cluster>,
                                          sim: (string, string) -> real, threshold: real, minOccurrences: int)
    requires i <= |blocks|
    ensures AppendsSeeds(blocks, i, kept,
      Build(blocks, i, ClaimedAt(blocks, i, sim, threshold, minOccurrences), kept, sim, threshold, minOccurrences),
      sim, threshold, minOccurrences)
    decreases |blocks| - i
  {
    if i < |blocks| {
      if SeedAt(blocks, i, sim, threshold, minOccurrences) {
        var c := Cluster(ClusterId(blocks[i].kind, |kept|), [i] + ScanAt(blocks, i, sim, threshold, minOccurrences));
        BuildFromSeeds(blocks, i + 1, kept + [c], sim, threshold, minOccurrences);
        SeedStep(blocks, i, kept, sim, threshold, minOccurrences);
      } else {
        BuildFromSeeds(blocks, i + 1, kept, sim, threshold, minOccurrences);
        NonSeedStep(blocks, i, kept, sim, threshold, minOccurrences);
      }
    }
  }

  /** The clusters `identify_common_blocks` keeps are exactly those of the
      seeds, in extraction order: each is its seed followed by what the
      seed's scan found with the hashes claimed so far, and every seed has
      its cluster. */
  lemma IdentifyCommonBlocksSeeds(blocks: seq<Block>, sim: (string, string) -> real,
                                  threshold: real, minOccurrences: int)
    ensures var r := IdentifyCommonBlocks(blocks, sim, threshold, minOccurrences);
      && (forall k :: 0 <= k < |r| ==> FromSeed(blocks, r[k], 0, sim, threshold, minOccurrences))
      && (forall x :: 0 <= x < |blocks| && SeedAt(blocks, x, sim, threshold, minOccurrences) ==>
            exists k :: 0 <= k < |r| && SeedOf(r[k], x))
  {
    BuildFromSeeds(blocks, 0, [], sim, threshold, minOccurrences);
  }

  /** One step of the outer loop only adds to the claimed set, and a scan
      run at `i` leaves its members claimed whether or not its cluster is
      kept. */
  lemma ClaimedAtStep(blocks: seq<Block>, i: nat, sim: (string, string) -> real,
                      threshold: real, minOccurrences: int)
    requires i < |blocks|
    ensures ClaimedAt(blocks, i, sim, threshold, minOccurrences) <= ClaimedAt(blocks, i + 1, sim, threshold, minOccurrences)
    ensures blocks[i].hash !in ClaimedAt(blocks, i, sim, threshold, minOccurrences) ==>
      HashesAt(blocks, ScanAt(blocks, i, sim, threshold, minOccurrences)) <= ClaimedAt(blocks, i + 1, sim, threshold, minOccurrences)
  {
    var c := ClaimedAt(blocks, i, sim, threshold, minOccurrences);
    ScanClaims(blocks, i, i + 1, c, sim, threshold);
  }

  lemma {:induction false} ClaimedAtGrows(blocks: seq<Block>, i: nat, j: nat, sim: (string, string) -> real,
                                          threshold: real, minOccurrences: int)
    requires i <= j <= |blocks|
    ensures ClaimedAt(blocks, i, sim, threshold, minOccurrences) <= ClaimedAt(blocks, j, sim, threshold, minOccurrences)
    decreases j - i
  {
    if i < j {
      ClaimedAtStep(blocks, i, sim, threshold, minOccurrences);
      ClaimedAtGrows(blocks, i + 1, j, sim, threshold, minOccurrences);
    }
  }

  /** A hash once taken by any scan, kept or dropped, is claimed at every
      later position: it never seeds and never joins a later cluster. */
  lemma EarlierScansClaimed(blocks: seq<Block>, x: nat, y: nat, sim: (string, string) -> real,
                            threshold: real, minOccurrences: int)
    requires x < y <= |blocks|
    requires blocks[x].hash !in ClaimedAt(blocks, x, sim, threshold, minOccurrences)
    ensures HashesAt(blocks, ScanAt(blocks, x, sim, threshold, minOccurrences)) <= ClaimedAt(blocks, y, sim, threshold, minOccurrences)
  {
    ClaimedAtStep(blocks, x, sim, threshold, minOccurrences);
    ClaimedAtGrows(blocks, x + 1, y, sim, threshold, minOccurrences);
  }

  /** No block of a kept cluster, seed or member, has a hash claimed when
      the loop reached the seed; with `EarlierScansClaimed`, no member shares
      a hash with any block an earlier scan took. */
  lemma KeptMembersUnclaimed(blocks: seq<Block>, sim: (string, string) -> real,
                             threshold: real, minOccurrences: int)
    ensures var r := IdentifyCommonBlocks(blocks, sim, threshold, minOccurrences);
      forall k, m :: 0 <= k < |r| && 0 <= m < |r[k].positions| ==>
        r[k].positions[m] < |blocks| && r[k].positions[0] < |blocks| &&
        blocks[r[k].positions[m]].hash !in ClaimedAt(blocks, r[k].positions[0], sim, threshold, minOccurrences)
  {
    var r := IdentifyCommonBlocks(blocks, sim, threshold, minOccurrences);
    IdentifyCommonBlocksSeeds(blocks, sim, threshold, minOccurrences);
    forall k, m | 0 <= k < |r| && 0 <= m < |r[k].positions|
      ensures r[k].positions[m] < |blocks| && r[k].positions[0] < |blocks|
      ensures blocks[r[k].positions[m]].hash !in ClaimedAt(blocks, r[k].positions[0], sim, threshold, minOccurrences)
    {
      var x := r[k].positions[0];
      assert FromSeed(blocks, r[k], 0, sim, threshold, minOccurrences);
      var c := ClaimedAt(blocks, x, sim, threshold, minOccurrences);
      ScanMembers(blocks, x, x + 1, c, sim, threshold);
      if m > 0 {
        assert r[k].positions[m] == ScanAt(blocks, x, sim, threshold, minOccurrences)[m - 1];
      }
    }
  }

  /** Two members may come from the same page: only the seed's page is
      excluded. Three blocks, the last two from one page, all similar to the
      first, form one cluster of three. */
  lemma TwoMembersFromOnePage(blocks: seq<Block>, sim: (string, string) -> real, threshold: real)
    requires |blocks| == 3
    requires blocks[0].file != blocks[1].file && blocks[1].file == blocks[2].file
    requires blocks[0].hash != blocks[1].hash && blocks[0].hash != blocks[2].hash && blocks[1].hash != blocks[2].hash
    requires sim(blocks[0].content, blocks[1].content) >= threshold
    requires sim(blocks[0].content, blocks[2].content) >= threshold
    ensures IdentifyCommonBlocks(blocks, sim, threshold, 3) == [Cluster(KindName(blocks[0].kind) + "_0", [0, 1, 2])]
  {
    var h0, h1, h2 := blocks[0].hash, blocks[1].hash, blocks[2].hash;
    assert {h1} + {h2} == {h1, h2};
    assert Scan(blocks, 0, 3, {h1} + {h2}, sim, threshold) == ([], {h1, h2});
    assert [2] + [] == [2];
    assert ScanTakes(blocks, 0, 2, {h1}, sim, threshold);
    ScanTake(blocks, 0, 2, {h1}, sim, threshold);
    assert Scan(blocks, 0, 2, {h1}, sim, threshold) == ([2], {h1, h2});
    assert {} + {h1} == {h1};
    assert Scan(blocks, 0, 2, {} + {h1}, sim, threshold) == ([2], {h1, h2});
    assert ScanTakes(blocks, 0, 1, {}, sim, threshold);
    ScanTake(blocks, 0, 1, {}, sim, threshold);
    assert [1] + [2] == [1, 2];
    assert Scan(blocks, 0, 1, {}, sim, threshold) == ([1, 2], {h1, h2});
    var c := Cluster(ClusterId(blocks[0].kind, 0), [0, 1, 2]);
    assert NatToString(0) == "0";
    var all := {h1, h2} + {h0};
    assert Build(blocks, 3, all, [c], sim, threshold, 3) == [c];
    assert Build(blocks, 2, all, [c], sim, threshold, 3) == [c];
    assert Build(blocks, 1, all, [c], sim, threshold, 3) == [c];
    assert ClusterId(blocks[0].kind, 0) == KindName(blocks[0].kind) + "_0";
    assert [0] + [1, 2] == [0, 1, 2] && [] + [c] == [c];
    assert Build(blocks, 0, {}, [], sim, threshold, 3) == Build(blocks, 1, all, [c], sim, threshold, 3);
  }

  /** The longest all-digit suffix. */
  function TrailingDigits(s: string): (d: string)
    ensures EndsWith(s, d)
  {
    if |s| == 0 || !('0' <= s[|s| - 1] <= '9') then ""
    else TrailingDigits(s[..|s| - 1]) + [s[|s| - 1]]
  }

  lemma {:induction false} TrailingDigitsAfterUnderscore(pre: string, d: string)
    requires forall k :: 0 <= k < |d| ==> '0' <= d[k] <= '9'
    ensures TrailingDigits(pre + "_" + d) == d
    decreases |d|
  {
    var s := pre + "_" + d;
    if |d| > 0 {
      var d' := d[..|d| - 1];
      assert s[..|s| - 1] == pre + "_" + d';
      TrailingDigitsAfterUnderscore(pre, d');
      assert d == d' + [d[|d| - 1]];
    } else {
      assert s[|s| - 1] == '_';
    }
  }

  /** An id `<type>_<k>` determines its counter `k`. */
  lemma ClusterIdCounter(k1: BlockKind, a: nat, k2: BlockKind, b: nat)
    requires ClusterId(k1, a) == ClusterId(k2, b)
    ensures a == b
  {
    IdDigits(k1, a);
    IdDigits(k2, b);
    NatToStringInjective(a, b);
  }

  /** The counter's digits are the id's trailing digits. */
  lemma IdDigits(kind: BlockKind, n: nat)
    ensures TrailingDigits(ClusterId(kind, n)) == NatToString(n)
  {
    TrailingDigitsAfterUnderscore(KindName(kind), NatToString(n));
  }

  /** Kept clusters have pairwise distinct ids and share no member. */
  lemma ClustersDistinct(blocks: seq<Block>, sim: (string, string) -> real,
                         threshold: real, minOccurrences: int)
    ensures var r := IdentifyCommonBlocks(blocks, sim, threshold, minOccurrences);
      forall a, b :: 0 <= a < |r| && 0 <= b < |r| ==>
        && (r[a].id == r[b].id ==> a == b)
        && (a != b ==> forall p :: p in r[a].positions ==> p !in r[b].positions)
  {
    var r := IdentifyCommonBlocks(blocks, sim, threshold, minOccurrences);
    IdentifyCommonBlocksSpec(blocks, sim, threshold, minOccurrences);
    forall a, b | 0 <= a < |r| && 0 <= b < |r|
      ensures r[a].id == r[b].id ==> a == b
      ensures a != b ==> forall p :: p in r[a].positions ==> p !in r[b].positions
    {
      assert WellFormed(blocks, r[a], a, sim, threshold, minOccurrences);
      assert WellFormed(blocks, r[b], b, sim, threshold, minOccurrences);
      if r[a].id == r[b].id {
        ClusterIdCounter(blocks[r[a].positions[0]].kind, a, blocks[r[b].positions[0]].kind, b);
      }
      if a != b {
        forall p | p in r[a].positions ensures p !in r[b].positions {
          assert blocks[p].hash in HashesAt(blocks, r[a].positions);
          if a < b {
            assert HashesAt(blocks, r[a].positions) !! HashesAt(blocks, r[b].positions);
          } else {
            assert HashesAt(blocks, r[b].positions) !! HashesAt(blocks, r[a].positions);
          }
        }
      }
    }
  }

  /** The number of occurrences over all clusters. */
  function Occurrences(cs: seq<Cluster>): nat
  {
    if |cs| == 0 then 0 else |cs[0].positions| + Occurrences(cs[1..])
  }

  /** The positions of a cluster as a set. */
  function Elems(ps: seq<nat>): (r: set<nat>)
    ensures forall x :: x in r <==> x in ps
  {
    if |ps| == 0 then {} else {ps[0]} + Elems(ps[1..])
  }

  lemma {:induction false} ElemsCard(ps: seq<nat>)
    requires Increasing(ps)
    ensures |Elems(ps)| == |ps|
  {
    if |ps| > 0 {
      IncreasingTail(ps);
      ElemsCard(ps[1..]);
      assert ps[0] !in Elems(ps[1..]);
    }
  }

  /** The tail of an increasing list is increasing and misses its head. */
  lemma IncreasingTail(ps: seq<nat>)
    requires Increasing(ps) && |ps| > 0
    ensures Increasing(ps[1..]) && ps[0] !in ps[1..]
  {
    var tail := ps[1..];
    forall a, b | 0 <= a < b < |tail| ensures tail[a] < tail[b] {
      assert tail[a] == ps[a + 1] && tail[b] == ps[b + 1];
    }
    forall j | 0 <= j < |tail| ensures tail[j] != ps[0] {
      assert tail[j] == ps[j + 1];
    }
  }

  /** Every position of every cluster. */
  function AllPositions(cs: seq<Cluster>): set<nat>
  {
    if |cs| == 0 then {} else Elems(cs[0].positions) + AllPositions(cs[1..])
  }

  lemma {:induction false} InAllPositions(cs: seq<Cluster>, x: nat)
    requires x in AllPositions(cs)
    ensures exists k :: 0 <= k < |cs| && x in cs[k].positions
  {
    if x !in Elems(cs[0].positions) {
      InAllPositions(cs[1..], x);
      var k :| 0 <= k < |cs[1..]| && x in cs[1..][k].positions;
      assert cs[1..][k] == cs[k + 1];
    }
  }

  lemma {:induction false} NotInAllPositions(cs: seq<Cluster>, x: nat)
    requires forall k :: 0 <= k < |cs| ==> x !in cs[k].positions
    ensures x !in AllPositions(cs)
  {
    if |cs| > 0 {
      assert forall k :: 0 <= k < |cs[1..]| ==> cs[1..][k] == cs[k + 1];
      NotInAllPositions(cs[1..], x);
    }
  }

  /** Pairwise disjoint increasing position lists: their union has as many
      elements as there are occurrences. */
  lemma {:induction false} AllPositionsCard(cs: seq<Cluster>)
    requires forall k :: 0 <= k < |cs| ==> Increasing(cs[k].positions)
    requires forall a, b :: 0 <= a < b < |cs| ==> forall p :: p in cs[a].positions ==> p !in cs[b].positions
    ensures |AllPositions(cs)| == Occurrences(cs)
  {
    if |cs| > 0 {
      var tail := cs[1..];
      assert forall k :: 0 <= k < |tail| ==> tail[k] == cs[k + 1];
      AllPositionsCard(tail);
      ElemsCard(cs[0].positions);
      assert Elems(cs[0].positions) !! AllPositions(tail) by {
        forall x | x in Elems(cs[0].positions) ensures x !in AllPositions(tail) {
          NotInAllPositions(tail, x);
        }
      }
    }
  }

  /** The numbers below n. */
  function Below(n: nat): (r: set<nat>)
    ensures |r| == n
    ensures forall x: nat :: x in r <==> x < n
  {
    if n == 0 then {} else Below(n - 1) + {n - 1}
  }

  lemma SubsetCard(a: set<nat>, b: set<nat>)
    requires a <= b
    ensures |a| <= |b|
  {
    assert b == a + (b - a);
  }

  /** No block belongs to two clusters or twice to one, so the clusters hold
      at most as many occurrences as there are blocks. */
  lemma OccurrencesBounded(blocks: seq<Block>, sim: (string, string) -> real,
                           threshold: real, minOccurrences: int)
    ensures Occurrences(IdentifyCommonBlocks(blocks, sim, threshold, minOccurrences)) <= |blocks|
  {
    var r := IdentifyCommonBlocks(blocks, sim, threshold, minOccurrences);
    IdentifyCommonBlocksSpec(blocks, sim, threshold, minOccurrences);
    ClustersDistinct(blocks, sim, threshold, minOccurrences);
    forall k | 0 <= k < |r| ensures Increasing(r[k].positions) {
      assert WellFormed(blocks, r[k], k, sim, threshold, minOccurrences);
    }
    AllPositionsCard(r);
    forall x | x in AllPositions(r) ensures x in Below(|blocks|) {
      InAllPositions(r, x);
      var k :| 0 <= k < |r| && x in r[k].positions;
      assert WellFormed(blocks, r[k], k, sim, threshold, minOccurrences);
    }
    SubsetCard(AllPositions(r), Below(|blocks|));
  }

  /** Three byte-identical blocks from three files form one cluster of two:
      the second block claims the shared hash, so the third is skipped both
      as a member and as a seed. */
  lemma ThreeIdenticalBlocksClusterOfTwo(blocks: seq<Block>, sim: (string, string) -> real,
                                         threshold: real)
    requires |blocks| == 3
    requires forall a, b :: 0 <= a < b < 3 ==> blocks[a].file != blocks[b].file
    requires forall a :: 0 <= a < 3 ==> blocks[a].hash == blocks[0].hash && blocks[a].content == blocks[0].content
    requires sim(blocks[0].content, blocks[0].content) >= threshold
    ensures IdentifyCommonBlocks(blocks, sim, threshold, 2) == [Cluster(KindName(blocks[0].kind) + "_0", [0, 1])]
  {
    var h := blocks[0].hash;
    assert blocks[1].content == blocks[0].content && blocks[1].hash == h && blocks[2].hash == h;
    assert blocks[0].file != blocks[1].file;
    assert Scan(blocks, 0, 3, {h}, sim, threshold) == ([], {h});
    assert Scan(blocks, 0, 2, {h}, sim, threshold) == ([], {h});
    assert {} + {h} == {h};
    assert blocks[1].hash !in {};
    assert sim(blocks[0].content, blocks[1].content) >= threshold;
    assert Scan(blocks, 0, 1, {}, sim, threshold).0 == [1];
    assert Scan(blocks, 0, 1, {}, sim, threshold).1 == {h};
    var c := Cluster(ClusterId(blocks[0].kind, 0), [0, 1]);
    assert NatToString(0) == "0";
    assert ClusterId(blocks[0].kind, 0) == KindName(blocks[0].kind) + "_0";
    assert Build(blocks, 3, {h}, [c], sim, threshold, 2) == [c];
    assert Build(blocks, 2, {h}, [c], sim, threshold, 2) == [c];
    assert Build(blocks, 1, {h}, [c], sim, threshold, 2) == [c];
    assert [0] + [1] == [0, 1] && {h} + {h} == {h} && [] + [c] == [c];
    assert Build(blocks, 0, {}, [], sim, threshold, 2) == Build(blocks, 1, {h}, [c], sim, threshold, 2);
  }

  /** A member of a discarded cluster keeps its hash claimed: with four blocks
      on four pages where the second is similar to each of the other three,
      the first is similar only to the second, and the third and fourth are
      not similar to each other, the first cluster (the first two blocks) is
      dropped for want of a third member and claims the second block's hash;
      the second block is then skipped as a seed, and no cluster is kept,
      although the second block alone would have seeded a cluster of three. */
  lemma DiscardedMembersStayClaimed(blocks: seq<Block>, sim: (string, string) -> real, threshold: real)
    requires |blocks| == 4
    requires forall a, b :: 0 <= a < b < 4 ==> blocks[a].file != blocks[b].file && blocks[a].hash != blocks[b].hash
    requires sim(blocks[0].content, blocks[1].content) >= threshold
    requires sim(blocks[0].content, blocks[2].content) < threshold
    requires sim(blocks[0].content, blocks[3].content) < threshold
    requires sim(blocks[1].content, blocks[2].content) >= threshold
    requires sim(blocks[1].content, blocks[3].content) >= threshold
    requires sim(blocks[2].content, blocks[3].content) < threshold
    ensures IdentifyCommonBlocks(blocks, sim, threshold, 3) == []
    ensures |Scan(blocks, 1, 2, {}, sim, threshold).0| + 1 >= 3
  {
    var h0, h1, h2, h3 := blocks[0].hash, blocks[1].hash, blocks[2].hash, blocks[3].hash;
    assert h1 != h2 && h1 != h3 && h2 != h3 && h0 != h1;
    assert blocks[0].file != blocks[1].file && blocks[1].file != blocks[2].file;
    assert blocks[1].file != blocks[3].file && blocks[2].file != blocks[3].file;
    assert Scan(blocks, 0, 4, {h1}, sim, threshold) == ([], {h1});
    assert Scan(blocks, 0, 3, {h1}, sim, threshold) == ([], {h1});
    assert Scan(blocks, 0, 2, {h1}, sim, threshold) == ([], {h1});
    assert {} + {h1} == {h1};
    assert Scan(blocks, 0, 1, {}, sim, threshold).0 == [1];
    assert Scan(blocks, 0, 1, {}, sim, threshold).1 == {h1};
    assert Scan(blocks, 2, 4, {h1}, sim, threshold) == ([], {h1});
    assert Scan(blocks, 2, 3, {h1}, sim, threshold) == ([], {h1});
    assert Scan(blocks, 3, 4, {h1}, sim, threshold) == ([], {h1});
    assert Build(blocks, 4, {h1}, [], sim, threshold, 3) == [];
    assert Build(blocks, 3, {h1}, [], sim, threshold, 3) == [];
    assert Build(blocks, 2, {h1}, [], sim, threshold, 3) == [];
    assert Build(blocks, 1, {h1}, [], sim, threshold, 3) == [];
    assert Scan(blocks, 1, 4, {h2, h3}, sim, threshold).0 == [];
    assert {h2} + {h3} == {h2, h3};
    assert {} + {h2} == {h2};
    assert Scan(blocks, 1, 3, {h2}, sim, threshold).0 == [3];
    assert Scan(blocks, 1, 2, {}, sim, threshold).0 == [2, 3];
  }
}

=== FILE: filenames.dfy ===
/**
  The file-name side of the downloader's clean-up passes: stripping the
  `@query` tail off saved names and fixing the references to them
  (`fix_query_string_filenames`), renaming `.asp.html`/`.php.html` pages to
  `.html` (`normalize_html`), and renaming `.html` pages to `.php` with the
  links that name them (`php_rename`). A directory is the set of names in
  it, files and sub-directories alike.
 */
module FileNames {
  import opened Text
  import opened Urls

  // ---------------------------------------------------------------------
  // Query-string names

  /** `file.split("@")[0]`: the name up to its first `@`. */
  function CleanName(file: string): (r: string)
    ensures StartsWith(file, r)
    ensures !Contains(r, "@")
  {
    var r := Split(file, "@")[0];
    SplitFirstPiece(file, "@");
    r
  }

  lemma SplitFirstPiece(s: string, p: string)
    requires |p| > 0
    ensures StartsWith(s, Split(s, p)[0]) && !Contains(Split(s, p)[0], p)
  {
    JoinSplit(s, p);
    SplitPiecesFree(s, p, 0);
    var pieces := Split(s, p);
    if |pieces| > 1 {
      JoinCons(pieces[0], pieces[1..], p);
      assert pieces == [pieces[0]] + pieces[1..];
    }
  }

  /** A name with no `@` is its own clean name; one with an `@` loses at
      least the `@`. */
  lemma CleanNameCases(file: string)
    ensures !Contains(file, "@") ==> CleanName(file) == file
    ensures Contains(file, "@") ==> |CleanName(file)| < |file|
  {
    if !Contains(file, "@") {
      SplitNoMatch(file, "@");
    } else {
      assert CleanName(file) != file;
    }
  }

  lemma SplitNoMatch(s: string, p: string)
    requires |p| > 0 && !Contains(s, p)
    ensures Split(s, p) == [s]
  {
    FindFromFirst(s, p, 0);
    if FindFrom(s, p, 0).Some? {
      ContainsIff(s, p);
    }
  }

  /** The names `os.path.exists` finds in a directory: its entries, and the
      empty name, which joins to the directory itself. */
  predicate Exists(dir: set<string>, name: string) {
    name == "" || name in dir
  }

  /** The first walk: each listed name with an `@` is renamed to its clean
      name, or removed when the clean name already exists; the mapping
      records old name to clean name either way. */
  function CleanQueryNames(listing: seq<string>, dir: set<string>, mapping: seq<(string, string)>)
    : (r: (set<string>, seq<(string, string)>))
    decreases |listing|
  {
    if |listing| == 0 then (dir, mapping)
    else
      var f := listing[0];
      if !Contains(f, "@") then CleanQueryNames(listing[1..], dir, mapping)
      else
        var n := CleanName(f);
        var dir' := if Exists(dir, n) then dir - {f} else dir - {f} + {n};
        CleanQueryNames(listing[1..], dir', mapping + [(f, n)])
  }

  /** After the walk no listed name with an `@` is left; every clean name
      but the empty one exists; a name without `@` that existed still does;
      and nothing else appears. */
  lemma {:induction false} CleanQueryNamesSpec(listing: seq<string>, dir: set<string>, mapping: seq<(string, string)>)
    ensures var r := CleanQueryNames(listing, dir, mapping);
      && (forall k :: 0 <= k < |listing| && Contains(listing[k], "@") ==> listing[k] !in r.0)
      && (forall k :: 0 <= k < |listing| && Contains(listing[k], "@") && CleanName(listing[k]) != "" ==>
            CleanName(listing[k]) in r.0)
      && (forall x :: x in dir && !Contains(x, "@") ==> x in r.0)
      && (forall x :: x in r.0 ==> x in dir || exists k :: 0 <= k < |listing| && x == CleanName(listing[k]))
    decreases |listing|
  {
    if |listing| > 0 {
      var f := listing[0];
      var r := CleanQueryNames(listing, dir, mapping);
      var tail := listing[1..];
      assert forall k :: 1 <= k < |listing| ==> listing[k] == tail[k - 1];
      if !Contains(f, "@") {
        CleanQueryNamesSpec(tail, dir, mapping);
        forall x | x in r.0 ensures x in dir || exists k :: 0 <= k < |listing| && x == CleanName(listing[k]) {
          if x !in dir {
            var k :| 0 <= k < |tail| && x == CleanName(tail[k]);
            assert x == CleanName(listing[k + 1]);
          }
        }
      } else {
        var n := CleanName(f);
        var dir' := if Exists(dir, n) then dir - {f} else dir - {f} + {n};
        CleanQueryNamesSpec(tail, dir', mapping + [(f, n)]);
        assert f !in dir' by {
          if f == n { assert Contains(f, "@"); }
        }
        CleanStaysOut(tail, dir', mapping + [(f, n)], f);
        forall x | x in r.0 ensures x in dir || exists k :: 0 <= k < |listing| && x == CleanName(listing[k]) {
          if x !in dir && x != n {
            var k :| 0 <= k < |tail| && x == CleanName(tail[k]);
            assert x == CleanName(listing[k + 1]);
          }
        }
      }
    }
  }

  /** A name with an `@` that is gone stays gone: the walk only adds clean
      names. */
  lemma {:induction false} CleanStaysOut(listing: seq<string>, dir: set<string>, mapping: seq<(string, string)>, f: string)
    requires Contains(f, "@") && f !in dir
    ensures f !in CleanQueryNames(listing, dir, mapping).0
    decreases |listing|
  {
    if |listing| > 0 {
      var g := listing[0];
      if !Contains(g, "@") {
        CleanStaysOut(listing[1..], dir, mapping, f);
      } else {
        var n := CleanName(g);
        assert f != n;
        var dir' := if Exists(dir, n) then dir - {g} else dir - {g} + {n};
        CleanStaysOut(listing[1..], dir', mapping + [(g, n)], f);
      }
    }
  }

  /** The mapping lists exactly the listed names with an `@`, in walk order,
      each with its clean name. */
  lemma {:induction false} CleanQueryMapping(listing: seq<string>, dir: set<string>, mapping: seq<(string, string)>)
    ensures var m := CleanQueryNames(listing, dir, mapping).1;
      && |mapping| <= |m|
      && m[..|mapping|] == mapping
      && (forall k :: |mapping| <= k < |m| ==> Contains(m[k].0, "@") && m[k].1 == CleanName(m[k].0))
      && (forall k :: 0 <= k < |listing| && Contains(listing[k], "@") ==> exists j :: |mapping| <= j < |m| && m[j].0 == listing[k])
    decreases |listing|
  {
    if |listing| > 0 {
      var f := listing[0];
      var tail := listing[1..];
      assert forall k :: 1 <= k < |listing| ==> listing[k] == tail[k - 1];
      if !Contains(f, "@") {
        CleanQueryMapping(tail, dir, mapping);
      } else {
        var n := CleanName(f);
        var dir' := if Exists(dir, n) then dir - {f} else dir - {f} + {n};
        var mapping' := mapping + [(f, n)];
        CleanQueryMapping(tail, dir', mapping');
        var m := CleanQueryNames(listing, dir, mapping).1;
        assert m[..|mapping'|] == mapping';
        assert m[|mapping|] == mapping'[|mapping|] == (f, n);
        assert m[..|mapping|] == m[..|mapping'|][..|mapping|];
      }
    }
  }

  /** The second walk on one file's text: each old name replaced by its new
      one, in mapping order. */
  function FixReferences(content: string, mapping: seq<(string, string)>): (r: string)
    decreases |mapping|
  {
    if |mapping| == 0 then content
    else FixReferences(ReplaceAll(content, mapping[0].0, mapping[0].1), mapping[1..])
  }

  /** A text naming none of the old names is left as it is, and a text in
      which the one old name occurs is changed. */
  lemma {:induction false} FixReferencesAbsent(content: string, mapping: seq<(string, string)>)
    requires forall k :: 0 <= k < |mapping| ==> |mapping[k].0| > 0 && !Contains(content, mapping[k].0)
    ensures FixReferences(content, mapping) == content
    decreases |mapping|
  {
    if |mapping| > 0 {
      ReplaceAllAbsent(content, mapping[0].0, mapping[0].1);
      FixReferencesAbsent(content, mapping[1..]);
    }
  }

  /** The pairs are applied in mapping order: the last pair rewrites the
      text the earlier ones produced, each occurrence of its old name
      (split on it) joined back with the new one. */
  lemma {:induction false} FixReferencesSnoc(content: string, mapping: seq<(string, string)>, was: string, now: string)
    requires |was| > 0
    ensures FixReferences(content, mapping + [(was, now)]) == Join(Split(FixReferences(content, mapping), was), now)
    decreases |mapping|
  {
    if |mapping| == 0 {
      assert [(was, now)][1..] == [];
      ReplaceAllIsSplitJoin(content, was, now, 0);
    } else {
      assert (mapping + [(was, now)])[1..] == mapping[1..] + [(was, now)];
      FixReferencesSnoc(ReplaceAll(content, mapping[0].0, mapping[0].1), mapping[1..], was, now);
    }
  }

  /** With one pair, the text is cut at each occurrence of the old name and
      the pieces, none of which holds it, are joined back with the new name;
      so a text containing the old name changes. */
  lemma FixReferencesOne(content: string, was: string, now: string)
    requires Contains(content, was) && was != now
    ensures FixReferences(content, [(was, now)]) != content
    ensures |was| > 0 ==>
      && content == Join(Split(content, was), was)
      && (forall k :: 0 <= k < |Split(content, was)| ==> !Contains(Split(content, was)[k], was))
      && FixReferences(content, [(was, now)]) == Join(Split(content, was), now)
  {
    ReplaceAllChanges(content, was, now);
    assert [(was, now)][1..] == [];
    if |was| > 0 {
      JoinSplit(content, was);
      SplitPiecesFree(content, was, 0);
      ReplaceAllIsSplitJoin(content, was, now, 0);
    }
  }

  // ---------------------------------------------------------------------
  // `.asp.html` and `.php.html` pages

  /** The rename `normalize_html` gives a page: `.asp.html` or `.php.html`
      at the end (exact case) becomes `.html`; other names are not renamed. */
  function HtmlRename(file: string): (r: Option<string>)
    ensures r.Some? <==> EndsWith(file, ".asp.html") || EndsWith(file, ".php.html")
    ensures r.Some? ==> |r.value| == |file| - 4 && EndsWith(r.value, ".html")
  {
    if EndsWith(file, ".asp.html") || EndsWith(file, ".php.html") then
      Some(file[..|file| - 9] + ".html")
    else None
  }

  /** `re.sub(r'\.(asp|php)\.html$', '.html', name, flags=re.IGNORECASE)`:
      the only place `$` allows is the end or before a final newline. */
  function SubAnchoredExt(s: string): string
  {
    if |s| >= 9 && ExtAt(s, |s| - 9) then s[..|s| - 9] + ".html"
    else if |s| >= 10 && s[|s| - 1] == '\n' && ExtAt(s, |s| - 10) then s[..|s| - 10] + ".html\n"
    else s
  }

  /** The rename agrees with the regular-expression substitution the program
      applies, on every name the guard lets through. */
  lemma HtmlRenameIsSub(file: string)
    requires HtmlRename(file).Some?
    ensures HtmlRename(file).value == SubAnchoredExt(file)
  {
    var i := |file| - 9;
    var lit := if EndsWith(file, ".asp.html") then ".asp.html" else ".php.html";
    assert file[i..] == lit;
    forall k | 0 <= k < |lit| ensures CharCI(file[i + k], lit[k]) {
      assert file[i + k] == file[i..][k];
    }
    assert LitAt(file, i, lit);
  }

  // ---------------------------------------------------------------------
  // `.html` pages become `.php`

  /** The names collected by the first walk of `php_rename`. */
  function HtmlFiles(listing: seq<string>): (r: set<string>)
    ensures forall f :: f in r <==> f in listing && EndsWith(f, ".html")
  {
    set f | f in listing && EndsWith(f, ".html")
  }

  /** `filename[:-5] + '.php'`. */
  function PhpName(f: string): (r: string)
    requires EndsWith(f, ".html")
    ensures EndsWith(r, ".php") && !EndsWith(r, ".html")
  {
    var r := f[..|f| - 5] + ".php";
    assert |r| >= 5 ==> r[|r| - 5..][4] == 'p';
    r
  }

  /** Back from `.php` to `.html`. */
  function HtmlName(p: string): string
    requires EndsWith(p, ".php")
  {
    p[..|p| - 4] + ".html"
  }

  /** Renaming loses nothing: the `.html` name comes back from the `.php`
      one, so two pages never get the same `.php` name. */
  lemma PhpNameRoundTrip(f: string)
    requires EndsWith(f, ".html")
    ensures HtmlName(PhpName(f)) == f
  {
    var p := PhpName(f);
    assert p[..|p| - 4] == f[..|f| - 5];
    assert f == f[..|f| - 5] + f[|f| - 5..];
  }

  lemma PhpNameInjective(f: string, g: string)
    requires EndsWith(f, ".html") && EndsWith(g, ".html") && PhpName(f) == PhpName(g)
    ensures f == g
  {
    PhpNameRoundTrip(f);
    PhpNameRoundTrip(g);
  }

  /** `v` cut at each occurrence of the page name `f`, joined back with the
      page's `.php` name. */
  function RenamedValue(v: string, f: string): string
    requires EndsWith(f, ".html")
  {
    assert |f| >= |".html"|;
    Join(Split(v, f), PhpName(f))
  }

  /** One `href`, `src`, `data-src` or `data-href` value: `fileOf` is
      `os.path.basename(urlparse(v).path)`. When that name is one of the
      pages, every occurrence of it in the value gets the `.php` name and
      the page is marked modified. */
  function RewriteRef(v: string, fileOf: string -> string, htmlFiles: set<string>): (r: Option<string>)
    requires forall f :: f in htmlFiles ==> EndsWith(f, ".html")
    ensures r.Some? <==> fileOf(v) in htmlFiles
    ensures r.Some? ==> r.value == RenamedValue(v, fileOf(v))
  {
    var f := fileOf(v);
    if f in htmlFiles then
      ReplaceAllIsSplitJoin(v, f, PhpName(f), 0);
      Some(ReplaceAll(v, f, PhpName(f)))
    else None
  }

  /** When the page name occurs in the value (it does whenever `fileOf`
      really is a piece of the value) the value changes, and it changes to
      the value with each occurrence renamed. */
  lemma RewriteRefChanges(v: string, fileOf: string -> string, htmlFiles: set<string>)
    requires forall f :: f in htmlFiles ==> EndsWith(f, ".html")
    requires fileOf(v) in htmlFiles && Contains(v, fileOf(v))
    ensures RewriteRef(v, fileOf, htmlFiles).value != v
    ensures Join(Split(v, fileOf(v)), PhpName(fileOf(v))) == RewriteRef(v, fileOf, htmlFiles).value
  {
    var f := fileOf(v);
    assert f != PhpName(f) by {
      assert EndsWith(f, ".html");
      assert !EndsWith(PhpName(f), ".html");
    }
    ReplaceAllChanges(v, f, PhpName(f));
    ReplaceAllIsSplitJoin(v, f, PhpName(f), 0);
  }

  /** The new text of one value: renamed when its file name is one of the
      pages, kept otherwise. */
  function RefValue(v: string, fileOf: string -> string, htmlFiles: set<string>): (w: string)
    requires forall f :: f in htmlFiles ==> EndsWith(f, ".html")
    ensures fileOf(v) !in htmlFiles ==> w == v
    ensures fileOf(v) in htmlFiles ==> w == RenamedValue(v, fileOf(v))
  {
    match RewriteRef(v, fileOf, htmlFiles)
    case Some(w) => w
    case None => v
  }

  /** All link values of one file in document order: the new values and
      whether the file is written back. */
  function RewriteRefs(values: seq<string>, fileOf: string -> string, htmlFiles: set<string>): (r: (seq<string>, bool))
    requires forall f :: f in htmlFiles ==> EndsWith(f, ".html")
    ensures |r.0| == |values|
    ensures r.1 <==> exists k :: 0 <= k < |values| && fileOf(values[k]) in htmlFiles
    ensures forall k :: 0 <= k < |values| ==> r.0[k] == RefValue(values[k], fileOf, htmlFiles)
    ensures forall k :: 0 <= k < |values| && fileOf(values[k]) !in htmlFiles ==> r.0[k] == values[k]
    ensures forall k :: 0 <= k < |values| && fileOf(values[k]) in htmlFiles ==>
      r.0[k] == RenamedValue(values[k], fileOf(values[k]))
  {
    if |values| == 0 then ([], false)
    else
      var rest := RewriteRefs(values[1..], fileOf, htmlFiles);
      var out := [RefValue(values[0], fileOf, htmlFiles)] + rest.0;
      assert forall k :: 1 <= k < |values| ==> values[1..][k - 1] == values[k] && out[k] == rest.0[k - 1];
      (out, fileOf(values[0]) in htmlFiles || rest.1)
  }

  /** A name the last walk renames: a listed file ending in `.html`. */
  predicate RenamedPage(listing: seq<string>, f: string) {
    f in listing && EndsWith(f, ".html")
  }

  /** Each listed `.html` file is still there at its turn: present in the
      directory and not renamed already by an earlier entry. */
  predicate RenamesFine(listing: seq<string>, dir: set<string>) {
    forall k :: 0 <= k < |listing| && EndsWith(listing[k], ".html") ==>
      listing[k] in dir && listing[k] !in listing[..k]
  }

  /** The last walk over the files of one directory: each listed `.html`
      file is renamed to its `.php` name, in listing order (replacing an
      entry of that name, as `os.rename` does); sub-directories are not
      listed and are never renamed. `None` when a rename finds its file
      gone, where `os.rename` raises. */
  function RenameToPhp(listing: seq<string>, dir: set<string>): (r: Option<set<string>>)
    decreases |listing|
  {
    if |listing| == 0 then Some(dir)
    else
      var f := listing[0];
      if !EndsWith(f, ".html") then RenameToPhp(listing[1..], dir)
      else if f !in dir then None
      else RenameToPhp(listing[1..], dir - {f} + {PhpName(f)})
  }

  /** The walk gets through exactly when every listed `.html` file is
      there at its turn. */
  lemma {:induction false} RenameToPhpSucceeds(listing: seq<string>, dir: set<string>)
    ensures RenameToPhp(listing, dir).Some? <==> RenamesFine(listing, dir)
    decreases |listing|
  {
    if |listing| > 0 {
      var f := listing[0];
      var tail := listing[1..];
      assert forall k :: 1 <= k <= |listing| ==> listing[..k] == [f] + tail[..k - 1];
      if !EndsWith(f, ".html") {
        RenameToPhpSucceeds(tail, dir);
        assert RenamesFine(listing, dir) <==> RenamesFine(tail, dir) by {
          forall k | 1 <= k < |listing| ensures listing[k] == tail[k - 1] { }
        }
      } else if f in dir {
        var dir' := dir - {f} + {PhpName(f)};
        RenameToPhpSucceeds(tail, dir');
        assert RenamesFine(listing, dir) <==> RenamesFine(tail, dir') by {
          forall k | 1 <= k < |listing| ensures listing[k] == tail[k - 1] { }
          forall g | EndsWith(g, ".html") ensures g in dir' <==> g in dir && g != f {
            assert g != PhpName(f);
          }
        }
      } else {
        assert !RenamesFine(listing, dir) by { assert EndsWith(listing[0], ".html"); }
      }
    }
  }

  /** After the last walk no listed `.html` file is left and each has its
      `.php` name; every other entry is kept, and nothing else appears. */
  lemma {:induction false} RenameToPhpSpec(listing: seq<string>, dir: set<string>)
    requires RenamesFine(listing, dir)
    ensures RenameToPhp(listing, dir).Some?
    ensures var r := RenameToPhp(listing, dir).value;
      && (forall f :: RenamedPage(listing, f) ==> f !in r && PhpName(f) in r)
      && (forall x :: x in dir && !RenamedPage(listing, x) ==> x in r)
      && (forall x :: x in r ==> (x in dir && !RenamedPage(listing, x)) || exists f :: RenamedPage(listing, f) && x == PhpName(f))
    decreases |listing|
  {
    RenameToPhpSucceeds(listing, dir);
    if |listing| > 0 {
      var f := listing[0];
      var tail := listing[1..];
      assert forall x :: x in listing <==> x == f || x in tail;
      assert forall k :: 1 <= k <= |listing| ==> listing[..k] == [f] + tail[..k - 1];
      if !EndsWith(f, ".html") {
        RenameToPhpSucceeds(tail, dir);
        RenameToPhpSpec(tail, dir);
      } else {
        var dir' := dir - {f} + {PhpName(f)};
        RenameToPhpSucceeds(tail, dir');
        assert f !in tail by {
          forall k | 0 <= k < |tail| ensures tail[k] != f {
            assert listing[k + 1] == tail[k] && EndsWith(listing[k + 1], ".html") ==> f in listing[..k + 1];
          }
        }
        RenameToPhpSpec(tail, dir');
        var r := RenameToPhp(listing, dir).value;
        assert !EndsWith(PhpName(f), ".html");
        assert forall x :: x in r ==> x != f;
      }
    }
  }
}

=== FILE: includes.dfy ===
/**
  `create_includes`: one include file per kept cluster, holding the seed's
  content, named after the seed's type and the first eight hex digits of the
  md5 of that content. Paths are relative to the site directory (the include
  directory is `includes/` under it); the files written are a map from path
  to text, and a later cluster whose file name coincides with an earlier
  one's overwrites it.
 */
module Includes {
  import opened Text
  import opened Blocks
  import opened Clusters

  /** Python's `d[:8]`. */
  function Prefix8(d: string): (r: string)
    ensures r <= d
    ensures |r| == if |d| < 8 then |d| else 8
  {
    if |d| <= 8 then d else d[..8]
  }

  /** `f"{type}_{md5(content)[:8]}.php"`. */
  function IncludeName(kind: BlockKind, content: string, md5: string -> string): string
  {
    KindName(kind) + "_" + Prefix8(md5(content)) + ".php"
  }

  /** The include file of a kind and content, relative to the site directory. */
  function IncludePath(kind: BlockKind, content: string, md5: string -> string): (p: string)
    ensures StartsWith(p, "includes/") && EndsWith(p, ".php")
  {
    "includes/" + IncludeName(kind, content, md5)
  }

  /** A cluster list the refactorer can hold: ids are dictionary keys, so
      distinct, and every cluster has a seed among the blocks. */
  predicate ValidClusters(blocks: seq<Block>, cs: seq<Cluster>) {
    && (forall k :: 0 <= k < |cs| ==> |cs[k].positions| > 0 && cs[k].positions[0] < |blocks|)
    && (forall a, b :: 0 <= a < b < |cs| ==> cs[a].id != cs[b].id)
  }

  function Seed(blocks: seq<Block>, c: Cluster): Block
    requires |c.positions| > 0 && c.positions[0] < |blocks|
  {
    blocks[c.positions[0]]
  }

  /** The file the cluster at index k is written to. */
  function TargetOf(blocks: seq<Block>, cs: seq<Cluster>, k: nat, md5: string -> string): string
    requires ValidClusters(blocks, cs) && k < |cs|
  {
    IncludePath(Seed(blocks, cs[k]).kind, Seed(blocks, cs[k]).content, md5)
  }

  /** No cluster after index k writes to the same file. */
  predicate LastWriter(blocks: seq<Block>, cs: seq<Cluster>, k: nat, md5: string -> string)
    requires ValidClusters(blocks, cs) && k < |cs|
  {
    forall k' :: k < k' < |cs| ==> TargetOf(blocks, cs, k', md5) != TargetOf(blocks, cs, k, md5)
  }

  /** Writes the include files of `cs` in order; returns the id-to-path map
      and the files afterwards. */
  function CreateIncludes(blocks: seq<Block>, cs: seq<Cluster>, md5: string -> string,
                          files: map<string, string>): (r: (map<string, string>, map<string, string>))
    requires ValidClusters(blocks, cs)
    decreases |cs|
  {
    if |cs| == 0 then (map[], files)
    else
      var seed := Seed(blocks, cs[0]);
      var path := IncludePath(seed.kind, seed.content, md5);
      var rest := CreateIncludes(blocks, cs[1..], md5, files[path := seed.content]);
      (rest.0[cs[0].id := path], rest.1)
  }

  function Ids(cs: seq<Cluster>): set<string>
  {
    if |cs| == 0 then {} else {cs[0].id} + Ids(cs[1..])
  }

  function Targets(blocks: seq<Block>, cs: seq<Cluster>, md5: string -> string): set<string>
    requires ValidClusters(blocks, cs)
  {
    if |cs| == 0 then {} else {TargetOf(blocks, cs, 0, md5)} + Targets(blocks, cs[1..], md5)
  }

  lemma {:induction false} InTargets(blocks: seq<Block>, cs: seq<Cluster>, md5: string -> string, p: string)
    requires ValidClusters(blocks, cs)
    ensures p in Targets(blocks, cs, md5) <==> exists k :: 0 <= k < |cs| && TargetOf(blocks, cs, k, md5) == p
    decreases |cs|
  {
    if |cs| > 0 {
      var tail := cs[1..];
      InTargets(blocks, tail, md5, p);
      if p in Targets(blocks, tail, md5) {
        var k :| 0 <= k < |tail| && TargetOf(blocks, tail, k, md5) == p;
        assert tail[k] == cs[k + 1];
        assert TargetOf(blocks, cs, k + 1, md5) == p;
      }
      if exists k :: 0 <= k < |cs| && TargetOf(blocks, cs, k, md5) == p {
        var k :| 0 <= k < |cs| && TargetOf(blocks, cs, k, md5) == p;
        if k > 0 {
          assert tail[k - 1] == cs[k];
          assert TargetOf(blocks, tail, k - 1, md5) == p;
        }
      }
    }
  }

  /** The returned map has exactly the cluster ids as keys, and maps each to
      the file of its seed's type and content. */
  lemma {:induction false} CreateIncludesPaths(blocks: seq<Block>, cs: seq<Cluster>, md5: string -> string,
                                               files: map<string, string>)
    requires ValidClusters(blocks, cs)
    ensures var paths := CreateIncludes(blocks, cs, md5, files).0;
      && paths.Keys == Ids(cs)
      && forall k :: 0 <= k < |cs| ==> cs[k].id in paths && paths[cs[k].id] == TargetOf(blocks, cs, k, md5)
    decreases |cs|
  {
    if |cs| > 0 {
      var seed := Seed(blocks, cs[0]);
      var path := IncludePath(seed.kind, seed.content, md5);
      var tail := cs[1..];
      CreateIncludesPaths(blocks, tail, md5, files[path := seed.content]);
      var paths := CreateIncludes(blocks, cs, md5, files).0;
      forall k | 0 <= k < |cs| ensures cs[k].id in paths && paths[cs[k].id] == TargetOf(blocks, cs, k, md5) {
        if k > 0 {
          assert tail[k - 1] == cs[k];
          assert cs[k].id != cs[0].id;
          assert TargetOf(blocks, tail, k - 1, md5) == TargetOf(blocks, cs, k, md5);
        }
      }
    }
  }

  /** Afterwards the files are the previous ones plus one per cluster. */
  lemma {:induction false} CreateIncludesKeys(blocks: seq<Block>, cs: seq<Cluster>, md5: string -> string,
                                              files: map<string, string>)
    requires ValidClusters(blocks, cs)
    ensures CreateIncludes(blocks, cs, md5, files).1.Keys == files.Keys + Targets(blocks, cs, md5)
    decreases |cs|
  {
    if |cs| > 0 {
      var seed := Seed(blocks, cs[0]);
      CreateIncludesKeys(blocks, cs[1..], md5, files[IncludePath(seed.kind, seed.content, md5) := seed.content]);
    }
  }

  /** A file no cluster writes keeps its text. */
  lemma {:induction false} CreateIncludesUntouched(blocks: seq<Block>, cs: seq<Cluster>, md5: string -> string,
                                                   files: map<string, string>, p: string)
    requires ValidClusters(blocks, cs)
    requires p in files && p !in Targets(blocks, cs, md5)
    ensures var out := CreateIncludes(blocks, cs, md5, files).1;
      p in out && out[p] == files[p]
    decreases |cs|
  {
    if |cs| > 0 {
      var seed := Seed(blocks, cs[0]);
      CreateIncludesUntouched(blocks, cs[1..], md5, files[IncludePath(seed.kind, seed.content, md5) := seed.content], p);
    }
  }

  /** Each cluster's file holds its seed's content unless a later cluster
      writes the same file. */
  lemma {:induction false} CreateIncludesContent(blocks: seq<Block>, cs: seq<Cluster>, md5: string -> string,
                                                 files: map<string, string>, k: nat)
    requires ValidClusters(blocks, cs) && k < |cs|
    requires LastWriter(blocks, cs, k, md5)
    ensures var out := CreateIncludes(blocks, cs, md5, files).1;
      TargetOf(blocks, cs, k, md5) in out && out[TargetOf(blocks, cs, k, md5)] == Seed(blocks, cs[k]).content
    decreases |cs|, 1
  {
    if k == 0 {
      FirstContent(blocks, cs, md5, files);
    } else {
      LaterContent(blocks, cs, md5, files, k);
    }
  }

  /** The step of `CreateIncludesContent` for a cluster after the first. */
  lemma {:induction false} LaterContent(blocks: seq<Block>, cs: seq<Cluster>, md5: string -> string,
                                        files: map<string, string>, k: nat)
    requires ValidClusters(blocks, cs) && 0 < k < |cs|
    requires LastWriter(blocks, cs, k, md5)
    ensures var out := CreateIncludes(blocks, cs, md5, files).1;
      TargetOf(blocks, cs, k, md5) in out && out[TargetOf(blocks, cs, k, md5)] == Seed(blocks, cs[k]).content
    decreases |cs|, 0
  {
    var files' := WriteFirst(blocks, cs, md5, files);
    TailTarget(blocks, cs, md5, k);
    LastWriterTail(blocks, cs, md5, k);
    CreateIncludesContent(blocks, cs[1..], md5, files', k - 1);
  }

  /** The files after the first cluster's write, from which the others go on. */
  function WriteFirst(blocks: seq<Block>, cs: seq<Cluster>, md5: string -> string,
                      files: map<string, string>): (r: map<string, string>)
    requires ValidClusters(blocks, cs) && |cs| > 0
    ensures ValidClusters(blocks, cs[1..])
    ensures CreateIncludes(blocks, cs, md5, files).1 == CreateIncludes(blocks, cs[1..], md5, r).1
    ensures TargetOf(blocks, cs, 0, md5) in r && r[TargetOf(blocks, cs, 0, md5)] == Seed(blocks, cs[0]).content
  {
    var seed := Seed(blocks, cs[0]);
    files[IncludePath(seed.kind, seed.content, md5) := seed.content]
  }

  /** The first cluster's file keeps its content when no later one writes it. */
  lemma FirstContent(blocks: seq<Block>, cs: seq<Cluster>, md5: string -> string, files: map<string, string>)
    requires ValidClusters(blocks, cs) && |cs| > 0
    requires LastWriter(blocks, cs, 0, md5)
    ensures var out := CreateIncludes(blocks, cs, md5, files).1;
      TargetOf(blocks, cs, 0, md5) in out && out[TargetOf(blocks, cs, 0, md5)] == Seed(blocks, cs[0]).content
  {
    var files' := WriteFirst(blocks, cs, md5, files);
    FirstNotRewritten(blocks, cs, md5);
    CreateIncludesUntouched(blocks, cs[1..], md5, files', TargetOf(blocks, cs, 0, md5));
  }

  /** Dropping the first cluster keeps the list valid. */
  lemma ValidTail(blocks: seq<Block>, cs: seq<Cluster>)
    requires ValidClusters(blocks, cs) && 0 < |cs|
    ensures ValidClusters(blocks, cs[1..])
  {
  }

  /** Dropping the first cluster shifts the indices by one. */
  lemma TailTarget(blocks: seq<Block>, cs: seq<Cluster>, md5: string -> string, k: nat)
    requires ValidClusters(blocks, cs) && 0 < k < |cs|
    ensures ValidClusters(blocks, cs[1..])
    ensures TargetOf(blocks, cs[1..], k - 1, md5) == TargetOf(blocks, cs, k, md5)
    ensures cs[1..][k - 1] == cs[k]
  {
    ValidTail(blocks, cs);
  }

  lemma LastWriterTail(blocks: seq<Block>, cs: seq<Cluster>, md5: string -> string, k: nat)
    requires ValidClusters(blocks, cs) && 0 < k < |cs|
    requires LastWriter(blocks, cs, k, md5)
    ensures ValidClusters(blocks, cs[1..]) && LastWriter(blocks, cs[1..], k - 1, md5)
  {
    ValidTail(blocks, cs);
    var tail := cs[1..];
    var path := TargetOf(blocks, cs, k, md5);
    assert tail[k - 1] == cs[k];
    assert TargetOf(blocks, tail, k - 1, md5) == path;
    forall k' | k - 1 < k' < |tail| ensures TargetOf(blocks, tail, k', md5) != path {
      assert tail[k'] == cs[k' + 1];
      assert TargetOf(blocks, cs, k' + 1, md5) != path;
    }
  }

  /** When the first cluster is its file's last writer, no later cluster
      targets that file. */
  lemma FirstNotRewritten(blocks: seq<Block>, cs: seq<Cluster>, md5: string -> string)
    requires ValidClusters(blocks, cs) && 0 < |cs|
    requires LastWriter(blocks, cs, 0, md5)
    ensures ValidClusters(blocks, cs[1..]) && TargetOf(blocks, cs, 0, md5) !in Targets(blocks, cs[1..], md5)
  {
    ValidTail(blocks, cs);
    var tail := cs[1..];
    var path := TargetOf(blocks, cs, 0, md5);
    forall k' | 0 <= k' < |tail| ensures TargetOf(blocks, tail, k', md5) != path {
      assert tail[k'] == cs[k' + 1];
      assert TargetOf(blocks, cs, k' + 1, md5) != path;
    }
    NotInTargets(blocks, tail, md5, path);
  }

  /** A file no cluster targets is not among the targets. */
  lemma {:induction false} NotInTargets(blocks: seq<Block>, cs: seq<Cluster>, md5: string -> string, p: string)
    requires ValidClusters(blocks, cs)
    requires forall k :: 0 <= k < |cs| ==> TargetOf(blocks, cs, k, md5) != p
    ensures p !in Targets(blocks, cs, md5)
    decreases |cs|
  {
    if |cs| > 0 {
      ValidTail(blocks, cs);
      var tail := cs[1..];
      forall k | 0 <= k < |tail| ensures TargetOf(blocks, tail, k, md5) != p {
        assert tail[k] == cs[k + 1];
        assert TargetOf(blocks, cs, k + 1, md5) != p;
      }
      NotInTargets(blocks, tail, md5, p);
    }
  }

  /** With no clusters, nothing is written and the map is empty. */
  lemma CreateIncludesEmpty(blocks: seq<Block>, md5: string -> string, files: map<string, string>)
    ensures CreateIncludes(blocks, [], md5, files) == (map[], files)
  {
  }

  /** Two clusters whose seeds share the type and the first eight hex digits
      of the content's md5 write the same file, and the second one's content
      is what remains. */
  lemma SameNameOverwrites(blocks: seq<Block>, c1: Cluster, c2: Cluster, md5: string -> string,
                           files: map<string, string>)
    requires |c1.positions| > 0 && c1.positions[0] < |blocks|
    requires |c2.positions| > 0 && c2.positions[0] < |blocks|
    requires c1.id != c2.id
    requires Seed(blocks, c1).kind == Seed(blocks, c2).kind
    requires Prefix8(md5(Seed(blocks, c1).content)) == Prefix8(md5(Seed(blocks, c2).content))
    ensures var r := CreateIncludes(blocks, [c1, c2], md5, files);
      && c1.id in r.0 && c2.id in r.0 && r.0[c1.id] == r.0[c2.id]
      && r.0[c1.id] in r.1 && r.1[r.0[c1.id]] == Seed(blocks, c2).content
  {
    var cs := [c1, c2];
    CreateIncludesPaths(blocks, cs, md5, files);
    assert cs[0] == c1 && cs[1] == c2;
    CreateIncludesContent(blocks, cs, md5, files, 1);
  }
}

=== FILE: patterns.dfy ===
/**
  The regular expression the link and meta tiers build: the block's tags,
  each escaped, joined with `\s*`, searched with `re.finditer` and the first
  match taken. A match at a start position is the first success in the
  backtracking order of the regex engine: each greedy `\s*` tries the longest
  whitespace run first and gives back one character at a time.
 */
module Patterns {
  import opened Text

  /** `s` is the tags `lits` in order with whitespace runs between them: the
      language of the joined pattern. */
  ghost predicate Joined(s: string, lits: seq<string>)
    requires |lits| > 0
    decreases |lits|
  {
    if |lits| == 1 then s == lits[0]
    else
      && StartsWith(s, lits[0])
      && exists k :: |lits[0]| <= k <= |s| && AllWs(s[|lits[0]|..k]) && Joined(s[k..], lits[1..])
  }

  /** The end of the pattern's match at exactly position `i`, if any. */
  function MatchLits(t: string, i: nat, lits: seq<string>): (r: Option<nat>)
    requires i <= |t| && |lits| > 0
    ensures r.Some? ==> i <= r.value <= |t|
    decreases |lits|, 1, 0
  {
    if !StartsAt(t, i, lits[0]) then None
    else if |lits| == 1 then Some(i + |lits[0]|)
    else
      var g := i + |lits[0]|;
      TryGaps(t, g, WsRunEnd(t, g), lits[1..])
  }

  /** Backtracking over one `\s*` that starts at `g`: the rest of the
      pattern is tried after the gap `t[g..k]`, for k from the longest run
      down to `g`. */
  function TryGaps(t: string, g: nat, k: nat, rest: seq<string>): (r: Option<nat>)
    requires g <= k <= |t| && |rest| > 0
    ensures r.Some? ==> k <= |t| && g <= r.value <= |t|
    decreases |rest| + 1, 0, k - g
  {
    match MatchLits(t, k, rest)
    case Some(e) => Some(e)
    case None => if k == g then None else TryGaps(t, g, k - 1, rest)
  }

  /** Every match found spells the tags joined by whitespace. */
  lemma {:induction false} MatchLitsSound(t: string, i: nat, lits: seq<string>)
    requires i <= |t| && |lits| > 0
    ensures MatchLits(t, i, lits).Some? ==> Joined(t[i..MatchLits(t, i, lits).value], lits)
    decreases |lits|, 1, 0
  {
    if StartsAt(t, i, lits[0]) && |lits| > 1 {
      var g := i + |lits[0]|;
      var run := WsRunEnd(t, g);
      assert MatchLits(t, i, lits) == TryGaps(t, g, run, lits[1..]);
      TryGapsSound(t, g, run, lits[1..]);
      if TryGaps(t, g, run, lits[1..]).Some? {
        var e := TryGaps(t, g, run, lits[1..]).value;
        var k :| g <= k <= run && k <= e && AllWs(t[g..k]) && Joined(t[k..e], lits[1..]);
        JoinedAt(t, i, k, e, lits);
      }
    }
  }

  /** The first tag at i, a whitespace gap up to k and a spelling of the
      other tags from k to e make a spelling of all of them. */
  lemma JoinedAt(t: string, i: nat, k: nat, e: nat, lits: seq<string>)
    requires |lits| > 1 && StartsAt(t, i, lits[0])
    requires i + |lits[0]| <= k <= e <= |t|
    requires AllWs(t[i + |lits[0]|..k]) && Joined(t[k..e], lits[1..])
    ensures Joined(t[i..e], lits)
  {
    var s, n := t[i..e], |lits[0]|;
    assert s[..n] == t[i..i + n] == lits[0];
    var gap, tail := s[n..k - i], s[k - i..];
    forall x | 0 <= x < |gap| ensures IsWs(gap[x]) {
      assert gap[x] == t[i + n + x] == t[i + n..k][x];
    }
    assert forall x :: 0 <= x < |tail| ==> tail[x] == t[k..e][x];
    assert tail == t[k..e];
    assert StartsWith(s, lits[0]);
    assert n <= k - i <= |s| && AllWs(s[n..k - i]) && Joined(s[k - i..], lits[1..]);
  }

  lemma {:induction false} TryGapsSound(t: string, g: nat, k: nat, rest: seq<string>)
    requires g <= k <= |t| && |rest| > 0
    requires AllWs(t[g..k])
    ensures var r := TryGaps(t, g, k, rest);
      r.Some? ==> exists k' :: g <= k' <= k && k' <= r.value && AllWs(t[g..k']) && Joined(t[k'..r.value], rest)
    decreases |rest| + 1, 0, k - g
  {
    MatchLitsSound(t, k, rest);
    match MatchLits(t, k, rest)
    case Some(e) =>
      assert AllWs(t[g..k]) && Joined(t[k..e], rest);
    case None =>
      if k > g {
        assert t[g..k - 1] == t[g..k][..k - 1 - g];
        TryGapsSound(t, g, k - 1, rest);
      }
  }

  /** The first gap of a joined spelling. */
  lemma JoinedStep(s: string, lits: seq<string>) returns (k: nat)
    requires |lits| > 1 && Joined(s, lits)
    ensures StartsWith(s, lits[0])
    ensures |lits[0]| <= k <= |s| && AllWs(s[|lits[0]|..k]) && Joined(s[k..], lits[1..])
  {
    k :| |lits[0]| <= k <= |s| && AllWs(s[|lits[0]|..k]) && Joined(s[k..], lits[1..]);
  }

  /** Every whitespace-joined spelling of the tags at `i` is found: the
      backtracking search misses no match. */
  lemma {:induction false} MatchLitsComplete(t: string, i: nat, e: nat, lits: seq<string>)
    requires i <= e <= |t| && |lits| > 0
    requires Joined(t[i..e], lits)
    ensures MatchLits(t, i, lits).Some?
    decreases |lits|
  {
    if |lits| == 1 {
      assert t[i..i + |lits[0]|] == t[i..e];
    } else {
      var k := JoinedSplit(t, i, e, lits);
      var g := i + |lits[0]|;
      MatchLitsComplete(t, k, e, lits[1..]);
      WsRunCovers(t, g, k);
      assert MatchLits(t, i, lits) == TryGaps(t, g, WsRunEnd(t, g), lits[1..]);
      TryGapsComplete(t, g, WsRunEnd(t, g), k, lits[1..]);
    }
  }

  /** A spelling of two or more tags from i to e, read in `t`: the first
      tag at i, whitespace up to some k, the other tags from k to e. */
  lemma JoinedSplit(t: string, i: nat, e: nat, lits: seq<string>) returns (k: nat)
    requires i <= e <= |t| && |lits| > 1
    requires Joined(t[i..e], lits)
    ensures StartsAt(t, i, lits[0]) && i + |lits[0]| <= k <= e
    ensures forall j :: i + |lits[0]| <= j < k ==> IsWs(t[j])
    ensures Joined(t[k..e], lits[1..])
  {
    var s := t[i..e];
    var k0 := JoinedStep(s, lits);
    k := i + k0;
    assert t[i..i + |lits[0]|] == s[..|lits[0]|];
    assert s[k0..] == t[k..e];
    GapIsWs(t, i, e, i + |lits[0]|, k);
  }

  lemma GapIsWs(t: string, i: nat, e: nat, a: nat, b: nat)
    requires i <= a <= b <= e <= |t|
    requires AllWs(t[i..e][a - i..b - i])
    ensures forall j :: a <= j < b ==> IsWs(t[j])
  {
    forall j | a <= j < b ensures IsWs(t[j]) {
      assert t[i..e][a - i..b - i][j - a] == t[j];
    }
  }

  lemma {:induction false} TryGapsComplete(t: string, g: nat, k: nat, k': nat, rest: seq<string>)
    requires g <= k' <= k <= |t| && |rest| > 0
    requires MatchLits(t, k', rest).Some?
    ensures TryGaps(t, g, k, rest).Some?
    decreases k - k'
  {
    if k > k' && MatchLits(t, k, rest).None? {
      TryGapsComplete(t, g, k - 1, k', rest);
    }
  }

  /** `re.search`: the leftmost start at or after `from` where the pattern
      matches, with the end of that match. */
  function FirstMatch(t: string, lits: seq<string>, from: nat): (r: Option<(nat, nat)>)
    requires from <= |t| && |lits| > 0
    ensures r.Some? ==> from <= r.value.0 <= r.value.1 <= |t|
    ensures r.Some? ==> MatchLits(t, r.value.0, lits) == Some(r.value.1)
    ensures r.Some? ==> forall s :: from <= s < r.value.0 ==> MatchLits(t, s, lits).None?
    ensures r.None? ==> forall s :: from <= s <= |t| ==> MatchLits(t, s, lits).None?
    decreases |t| - from
  {
    match MatchLits(t, from, lits)
    case Some(e) => Some((from, e))
    case None => if from == |t| then None else FirstMatch(t, lits, from + 1)
  }

  /** The first-match tier: the match's span is replaced by `stmt`. An empty
      tag list gives nothing (the refactorer checks for one). */
  function PatternReplace(t: string, lits: seq<string>, stmt: string): Option<string>
  {
    if |lits| == 0 then None
    else match FirstMatch(t, lits, 0)
      case None => None
      case Some((s, e)) => Some(Splice(t, s, e, stmt))
  }

  /** What the first-match tier does: when it succeeds the text is
      `pre + stmt + post` around a span spelling the tags joined by
      whitespace, and no such span starts earlier; when it fails there is
      no such span at all. */
  lemma PatternReplaceSpec(t: string, lits: seq<string>, stmt: string)
    requires |lits| > 0
    ensures var r := PatternReplace(t, lits, stmt);
      && (r.Some? ==> (exists s, e ::
                          && 0 <= s <= e <= |t| && Joined(t[s..e], lits)
                          && r.value == t[..s] + stmt + t[e..]
                          && forall s', e' :: 0 <= s' < s && s' <= e' <= |t| ==> !Joined(t[s'..e'], lits)))
      && (r.None? ==> forall s, e :: 0 <= s <= e <= |t| ==> !Joined(t[s..e], lits))
  {
    var r := PatternReplace(t, lits, stmt);
    match FirstMatch(t, lits, 0)
    case Some((s, e)) =>
      MatchLitsSound(t, s, lits);
      forall s', e' | 0 <= s' < s && s' <= e' <= |t| ensures !Joined(t[s'..e'], lits) {
        if Joined(t[s'..e'], lits) { MatchLitsComplete(t, s', e', lits); }
      }
    case None =>
      forall s, e | 0 <= s <= e <= |t| ensures !Joined(t[s..e], lits) {
        if Joined(t[s..e], lits) { MatchLitsComplete(t, s, e, lits); }
      }
  }
}

=== FILE: refactor.dfy ===
/**
  `PHPRefactor.run`: extract the candidate blocks of every page, cluster
  them, write the include files and rewrite the pages. The pages are the
  `.php` files of the site in the order the directory walk yields them.
 */
module Refactor {
  import opened Text
  import opened Blocks
  import opened Clusters
  import opened Includes
  import opened Rewrite

  /** A page: its path, its text and the markup parser's view of it. */
  datatype Page = Page(path: string, content: string, parse: PageParse)

  function Paths(pages: seq<Page>): set<string>
  {
    if |pages| == 0 then {} else {pages[0].path} + Paths(pages[1..])
  }

  /** The first loop of `identify_common_blocks`: every page's blocks in page
      order. */
  function CollectBlocks(pages: seq<Page>, minSize: int, md5: string -> string): (r: seq<Block>)
    ensures forall k :: 0 <= k < |r| ==> r[k].file in Paths(pages)
  {
    if |pages| == 0 then []
    else
      var p := pages[0];
      var own := ExtractBlocks(p.path, p.content, p.parse, minSize, md5);
      var rest := CollectBlocks(pages[1..], minSize, md5);
      ExtractBlocksFile(p.path, p.content, p.parse, minSize, md5);
      CollectStep(pages, own, rest);
      own + rest
  }

  /** The blocks `f` gives each page, concatenated in page order. */
  function ConcatPages(pages: seq<Page>, f: Page -> seq<Block>): seq<Block>
  {
    if |pages| == 0 then [] else f(pages[0]) + ConcatPages(pages[1..], f)
  }

  lemma {:induction false} ConcatPagesSnoc(pages: seq<Page>, p: Page, f: Page -> seq<Block>)
    ensures ConcatPages(pages + [p], f) == ConcatPages(pages, f) + f(p)
    decreases |pages|
  {
    if |pages| == 0 {
      assert pages + [p] == [p] && [p][1..] == [];
    } else {
      assert (pages + [p])[0] == pages[0] && (pages + [p])[1..] == pages[1..] + [p];
      ConcatPagesSnoc(pages[1..], p, f);
    }
  }

  /** One page's extraction. */
  function Extractor(minSize: int, md5: string -> string): Page -> seq<Block>
  {
    (p: Page) => ExtractBlocks(p.path, p.content, p.parse, minSize, md5)
  }

  lemma {:induction false} CollectIsConcat(pages: seq<Page>, minSize: int, md5: string -> string)
    ensures CollectBlocks(pages, minSize, md5) == ConcatPages(pages, Extractor(minSize, md5))
    decreases |pages|
  {
    if |pages| > 0 {
      CollectIsConcat(pages[1..], minSize, md5);
      CollectUnfold(pages, minSize, md5);
    }
  }

  /** The collection walks the pages in order: adding a page at the end adds
      that page's extracted blocks, in extraction order, after all earlier
      ones. */
  lemma CollectBlocksSnoc(pages: seq<Page>, p: Page, minSize: int, md5: string -> string)
    ensures CollectBlocks(pages + [p], minSize, md5) ==
      CollectBlocks(pages, minSize, md5) + ExtractBlocks(p.path, p.content, p.parse, minSize, md5)
  {
    var f := Extractor(minSize, md5);
    CollectIsConcat(pages + [p], minSize, md5);
    CollectIsConcat(pages, minSize, md5);
    ConcatPagesSnoc(pages, p, f);
    assert f(p) == ExtractBlocks(p.path, p.content, p.parse, minSize, md5);
  }

  lemma CollectUnfold(pages: seq<Page>, minSize: int, md5: string -> string)
    requires |pages| > 0
    ensures CollectBlocks(pages, minSize, md5) ==
      ExtractBlocks(pages[0].path, pages[0].content, pages[0].parse, minSize, md5)
      + CollectBlocks(pages[1..], minSize, md5)
  {
  }

  lemma CollectStep(pages: seq<Page>, own: seq<Block>, rest: seq<Block>)
    requires |pages| > 0
    requires forall b :: b in own ==> b.file == pages[0].path
    requires forall k :: 0 <= k < |rest| ==> rest[k].file in Paths(pages[1..])
    ensures forall k :: 0 <= k < |own + rest| ==> (own + rest)[k].file in Paths(pages)
  {
    forall k | 0 <= k < |own + rest| ensures (own + rest)[k].file in Paths(pages) {
      if k < |own| {
        assert own[k] in own;
      } else {
        assert (own + rest)[k] == rest[k - |own|];
      }
    }
  }

  /** `file_contents`: each page's path mapped to its text, a later page
      with the same path overriding an earlier one. */
  function PageMap(pages: seq<Page>): (m: map<string, string>)
    ensures m.Keys == Paths(pages)
    ensures forall k :: 0 <= k < |pages| ==> pages[k].path in m
  {
    if |pages| == 0 then map[]
    else
      var init := pages[..|pages| - 1];
      var last := pages[|pages| - 1];
      PathsSnoc(init, last);
      assert pages == init + [last];
      assert forall k :: 0 <= k < |init| ==> pages[k] == init[k];
      PageMap(init)[last.path := last.content]
  }

  lemma {:induction false} PathsSnoc(pages: seq<Page>, p: Page)
    ensures Paths(pages + [p]) == Paths(pages) + {p.path}
  {
    if |pages| > 0 {
      assert (pages + [p])[1..] == pages[1..] + [p];
      PathsSnoc(pages[1..], p);
    }
  }

  /** What `run` returns, with the pages and include files afterwards. */
  datatype RunResult = RunResult(pages: map<string, string>, includes: map<string, string>,
                                 fileCount: nat, clusterCount: nat, replacements: nat)

  /** The kept clusters satisfy what writing and replaying need. */
  lemma ClustersReady(pages: seq<Page>, minSize: int, md5: string -> string, sim: (string, string) -> real,
                      threshold: real, minOccurrences: int)
    ensures var blocks := CollectBlocks(pages, minSize, md5);
      var cs := IdentifyCommonBlocks(blocks, sim, threshold, minOccurrences);
      && ValidClusters(blocks, cs)
      && forall k :: 0 <= k < |cs| ==> OccurrencesIn(blocks, cs[k].positions, PageMap(pages))
  {
    var blocks := CollectBlocks(pages, minSize, md5);
    var cs := IdentifyCommonBlocks(blocks, sim, threshold, minOccurrences);
    IdentifyCommonBlocksSpec(blocks, sim, threshold, minOccurrences);
    ClustersDistinct(blocks, sim, threshold, minOccurrences);
    forall k | 0 <= k < |cs|
      ensures |cs[k].positions| > 0 && cs[k].positions[0] < |blocks|
      ensures OccurrencesIn(blocks, cs[k].positions, PageMap(pages))
    {
      assert WellFormed(blocks, cs[k], k, sim, threshold, minOccurrences);
    }
  }

  function Run(pages: seq<Page>, includes: map<string, string>, minSize: int, threshold: real,
               minOccurrences: int, md5: string -> string, sim: (string, string) -> real,
               parser: Parser): RunResult
  {
    var blocks := CollectBlocks(pages, minSize, md5);
    var cs := IdentifyCommonBlocks(blocks, sim, threshold, minOccurrences);
    ClustersReady(pages, minSize, md5, sim, threshold, minOccurrences);
    var written := CreateIncludes(blocks, cs, md5, includes);
    CreateIncludesPaths(blocks, cs, md5, includes);
    var replayed := Replay(blocks, cs, written.0, PageMap(pages), parser, sim);
    RunResult(replayed.0, written.1, |pages|, |cs|, replayed.1)
  }

  /** `run` reports one file per page and one count per kept cluster; no page
      is added or removed; every include file the clusters name is written;
      the replacements are at most the extracted blocks; and a page holding
      no occurrence of a kept cluster keeps its text. */
  lemma RunSpec(pages: seq<Page>, includes: map<string, string>, minSize: int, threshold: real,
                minOccurrences: int, md5: string -> string, sim: (string, string) -> real, parser: Parser)
    ensures var r := Run(pages, includes, minSize, threshold, minOccurrences, md5, sim, parser);
      var blocks := CollectBlocks(pages, minSize, md5);
      var cs := IdentifyCommonBlocks(blocks, sim, threshold, minOccurrences);
      && r.fileCount == |pages|
      && r.clusterCount == |cs|
      && r.pages.Keys == Paths(pages)
      && r.replacements <= |blocks|
      && ValidClusters(blocks, cs) && PositionsIn(blocks, cs)
      && r.includes.Keys == includes.Keys + Targets(blocks, cs, md5)
      && forall f :: f in Paths(pages) && f !in ClusterFiles(blocks, cs) ==> r.pages[f] == PageMap(pages)[f]
  {
    var blocks := CollectBlocks(pages, minSize, md5);
    var cs := IdentifyCommonBlocks(blocks, sim, threshold, minOccurrences);
    ClustersReady(pages, minSize, md5, sim, threshold, minOccurrences);
    var written := CreateIncludes(blocks, cs, md5, includes);
    CreateIncludesPaths(blocks, cs, md5, includes);
    CreateIncludesKeys(blocks, cs, md5, includes);
    var replayed := Replay(blocks, cs, written.0, PageMap(pages), parser, sim);
    ReplayFrame(blocks, cs, written.0, PageMap(pages), parser, sim);
    OccurrencesBounded(blocks, sim, threshold, minOccurrences);
    var r := Run(pages, includes, minSize, threshold, minOccurrences, md5, sim, parser);
    assert r == RunResult(replayed.0, written.1, |pages|, |cs|, replayed.1);
  }
}

=== FILE: rewrite.dfy ===
/**
  `apply_includes`: for every occurrence of every kept cluster, the owning
  page's current text goes through an ordered chain of rewrite tiers and the
  first tier that succeeds replaces the occurrence by the cluster's include
  statement. The markup parser's answers (fingerprint candidates, script
  candidates, meta tags, menu items, navigation containers) are inputs.
 */
module Rewrite {
  import opened Text
  import opened Blocks
  import opened Clusters
  import opened Includes
  import opened Patterns

  /** `<?php include '<rel>'; ?>` and a newline. */
  function Stmt(rel: string): (s: string)
    ensures |s| > |rel| && s[|s| - 1] == '\n'
    ensures StartsWith(s, "<?php include '")
  {
    "<?php include '" + rel + "'; ?>\n"
  }

  /** The tier that made a replacement, in the order they are tried. */
  datatype Tier =
    | Exact | LinkPattern | Fingerprint | ScriptMatch | MetaPattern
    | NavFile | Fuzzy | Menu | NavFallback

  datatype Outcome = Replaced(tier: Tier, text: string) | Unresolved

  // ---------------------------------------------------------------------
  // The parser's answers

  /** An element of the page the fingerprint tier compares the block with:
      its serialisation and its fingerprint (sorted hrefs, classes, ids
      joined by `|`). */
  datatype Candidate = Candidate(markup: string, fingerprint: string)

  /** A `<script>` of the page: its serialisation and whether every
      attribute of the block's script has the same value on it. */
  datatype ScriptCandidate = ScriptCandidate(markup: string, attrsMatch: bool)

  /** An `<a>`: its href (empty when missing) and its stripped text. */
  datatype MenuItem = MenuItem(href: string, text: string)

  /** A navigation container of the page and its links. */
  datatype NavContainer = NavContainer(markup: string, links: seq<MenuItem>)

  /** What the markup parser reports; each function takes the block's
      content and/or the page's current text. */
  datatype Parser = Parser(
    fingerprintOf: string -> string,
    fingerprintCandidates: (string, string) -> seq<Candidate>,
    scriptCandidates: (string, string) -> seq<ScriptCandidate>,
    metaTags: string -> seq<string>,
    menuItems: string -> seq<MenuItem>,
    navContainers: string -> seq<NavContainer>)

  // ---------------------------------------------------------------------
  // Tier 1: exact replace-all

  /** `block in text` and the replace-all changed something. */
  function ExactTier(t: string, content: string, stmt: string): Option<string>
  {
    if Contains(t, content) && ReplaceAll(t, content, stmt) != t
    then Some(ReplaceAll(t, content, stmt)) else None
  }

  /** The exact tier succeeds exactly when the block occurs and is not the
      include statement itself, and then every occurrence is replaced. */
  lemma ExactTierIff(t: string, content: string, stmt: string)
    ensures ExactTier(t, content, stmt).Some? <==> Contains(t, content) && content != stmt
    ensures ExactTier(t, content, stmt).Some? ==> ExactTier(t, content, stmt).value == ReplaceAll(t, content, stmt)
  {
    if content == stmt {
      ReplaceAllIdentity(t, content);
    } else if Contains(t, content) {
      ReplaceAllChanges(t, content, stmt);
    }
  }

  // ---------------------------------------------------------------------
  // Tier 2 for `navigation`, `header`, `footer`: the fingerprint match

  /** The similarities of the candidates' fingerprints to the block's. */
  function Scores(cs: seq<Candidate>, fp: string, sim: (string, string) -> real): (r: seq<real>)
    ensures |r| == |cs|
    ensures forall k :: 0 <= k < |cs| ==> r[k] == sim(fp, cs[k].fingerprint)
  {
    seq(|cs|, k requires 0 <= k < |cs| => sim(fp, cs[k].fingerprint))
  }

  /** The loop keeping the best match among the first n scores: a candidate
      replaces the best only when strictly more similar, starting from 0. */
  function BestUpTo(scores: seq<real>, n: nat): (r: Option<nat>)
    requires n <= |scores|
    ensures r.Some? ==> r.value < n && scores[r.value] > 0.0
    ensures r.Some? ==> forall j :: 0 <= j < n ==> scores[j] <= scores[r.value]
    ensures r.Some? ==> forall j :: 0 <= j < r.value ==> scores[j] < scores[r.value]
    ensures r.None? ==> forall j :: 0 <= j < n ==> scores[j] <= 0.0
  {
    if n == 0 then None
    else
      var b := BestUpTo(scores, n - 1);
      var best := if b.Some? then scores[b.value] else 0.0;
      if scores[n - 1] > best then Some(n - 1) else b
  }

  function FingerprintTier(t: string, content: string, stmt: string, parser: Parser,
                           sim: (string, string) -> real): Option<string>
  {
    var cs := parser.fingerprintCandidates(content, t);
    var scores := Scores(cs, parser.fingerprintOf(content), sim);
    match BestUpTo(scores, |scores|)
    case None => None
    case Some(k) =>
      if scores[k] >= 0.8 && Contains(t, cs[k].markup)
      then Some(ReplaceAll(t, cs[k].markup, stmt)) else None
  }

  /** Candidate `k` is the first of the most similar ones. */
  predicate FirstBest(cs: seq<Candidate>, fp: string, sim: (string, string) -> real, k: nat) {
    && k < |cs|
    && (forall j :: 0 <= j < |cs| ==> sim(fp, cs[j].fingerprint) <= sim(fp, cs[k].fingerprint))
    && (forall j :: 0 <= j < k ==> sim(fp, cs[j].fingerprint) < sim(fp, cs[k].fingerprint))
  }

  /** The fingerprint tier replaces the first most similar candidate, and
      only when its similarity is at least 0.8 and its markup occurs;
      conversely, when the first most similar candidate is that similar and
      occurs, the tier succeeds with it. */
  lemma FingerprintTierSpec(t: string, content: string, stmt: string, parser: Parser,
                            sim: (string, string) -> real)
    ensures var cs := parser.fingerprintCandidates(content, t);
      var fp := parser.fingerprintOf(content);
      FingerprintTier(t, content, stmt, parser, sim).Some? ==>
        exists k: nat :: FirstBest(cs, fp, sim, k)
          && sim(fp, cs[k].fingerprint) >= 0.8 && Contains(t, cs[k].markup)
          && FingerprintTier(t, content, stmt, parser, sim).value == ReplaceAll(t, cs[k].markup, stmt)
    ensures var cs := parser.fingerprintCandidates(content, t);
      var fp := parser.fingerprintOf(content);
      forall k: nat :: FirstBest(cs, fp, sim, k) && sim(fp, cs[k].fingerprint) >= 0.8 && Contains(t, cs[k].markup) ==>
        FingerprintTier(t, content, stmt, parser, sim) == Some(ReplaceAll(t, cs[k].markup, stmt))
  {
    var cs := parser.fingerprintCandidates(content, t);
    var fp := parser.fingerprintOf(content);
    var scores := Scores(cs, fp, sim);
    var b := BestUpTo(scores, |scores|);
    if b.Some? {
      var k := b.value;
      assert forall j :: 0 <= j < |cs| ==> scores[j] <= scores[k];
      assert FirstBest(cs, fp, sim, k);
    }
    forall k: nat | FirstBest(cs, fp, sim, k) && sim(fp, cs[k].fingerprint) >= 0.8 && Contains(t, cs[k].markup)
      ensures FingerprintTier(t, content, stmt, parser, sim) == Some(ReplaceAll(t, cs[k].markup, stmt))
    {
      assert scores[k] > 0.0;
      var m := b.value;
      assert scores[m] == scores[k];
      assert m == k;
    }
  }

  // ---------------------------------------------------------------------
  // Tier 3 for `script`: the first script whose attributes match

  /** The first element at or after index j that passes `ok`: a `for`
      loop that breaks at the first success. */
  function FirstIndex<T>(xs: seq<T>, ok: T -> bool, j: nat): (r: Option<nat>)
    ensures r.Some? ==> j <= r.value < |xs| && ok(xs[r.value])
    ensures r.Some? ==> forall i :: j <= i < r.value ==> !ok(xs[i])
    ensures r.None? ==> forall i :: j <= i < |xs| ==> !ok(xs[i])
    decreases |xs| - j
  {
    if j >= |xs| then None
    else if ok(xs[j]) then Some(j)
    else FirstIndex(xs, ok, j + 1)
  }

  /** The attributes match and the serialisation occurs in the page. */
  predicate ScriptUsable(c: ScriptCandidate, t: string) {
    c.attrsMatch && Contains(t, c.markup)
  }

  function ScriptTier(t: string, content: string, stmt: string, parser: Parser): Option<string>
  {
    var cs := parser.scriptCandidates(content, t);
    match FirstIndex(cs, c => ScriptUsable(c, t), 0)
    case None => None
    case Some(k) => Some(ReplaceAll(t, cs[k].markup, stmt))
  }

  /** The script tier replaces every occurrence of the first page script
      whose attributes match and whose serialisation occurs; it fails only
      when there is no such script. */
  lemma ScriptTierSpec(t: string, content: string, stmt: string, parser: Parser)
    ensures var cs := parser.scriptCandidates(content, t);
      && (ScriptTier(t, content, stmt, parser).Some? ==>
            exists k :: 0 <= k < |cs| && ScriptUsable(cs[k], t)
              && (forall i :: 0 <= i < k ==> !ScriptUsable(cs[i], t))
              && ScriptTier(t, content, stmt, parser).value == ReplaceAll(t, cs[k].markup, stmt))
      && (ScriptTier(t, content, stmt, parser).None? ==> forall i :: 0 <= i < |cs| ==> !ScriptUsable(cs[i], t))
  {
    var cs := parser.scriptCandidates(content, t);
    var ok := (c: ScriptCandidate) => ScriptUsable(c, t);
    var r := FirstIndex(cs, ok, 0);
    if r.Some? {
      assert forall i :: 0 <= i < r.value ==> !ok(cs[i]);
    } else {
      assert forall i :: 0 <= i < |cs| ==> !ok(cs[i]);
    }
  }

  // ---------------------------------------------------------------------
  // Tiers 2 and 3 by block type

  /** The structure-based tier of a block type; `php_code` has none. */
  function KindTier(kind: BlockKind, t: string, content: string, stmt: string, parser: Parser,
                    sim: (string, string) -> real): (r: Option<(Tier, string)>)
  {
    match kind
    case CssLinks | LinkGroup =>
      (match PatternReplace(t, LinkTags(content, 0), stmt)
       case Some(u) => Some((LinkPattern, u))
       case None => None)
    case Navigation | Header | Footer =>
      (match FingerprintTier(t, content, stmt, parser, sim)
       case Some(u) => Some((Fingerprint, u))
       case None => None)
    case Script =>
      (match ScriptTier(t, content, stmt, parser)
       case Some(u) => Some((ScriptMatch, u))
       case None => None)
    case MetaTags =>
      (match PatternReplace(t, parser.metaTags(content), stmt)
       case Some(u) => Some((MetaPattern, u))
       case None => None)
    case PhpCode => None
  }

  // ---------------------------------------------------------------------
  // Tier 4: whitespace-normalised windows

  /** `'navigation' in os.path.basename(path).lower()`. */
  predicate IsNavFile(path: string) {
    Contains(Lower(Basename(path)), "navigation")
  }

  function Min(a: nat, b: nat): nat {
    if a <= b then a else b
  }

  /** `text[i:i+len]` exists and normalises to the normalised block. */
  predicate WindowFits(t: string, nb: string, i: nat, len: nat) {
    i + len <= |t| && NormalizeWs(t[i..i + len]) == nb
  }

  /** No window at i with a length in `[lo, hi)` fits. */
  ghost predicate NoFitAt(t: string, nb: string, i: nat, lo: nat, hi: nat) {
    forall m :: lo <= m < hi ==> !WindowFits(t, nb, i, m)
  }

  /** No window starting in `[lo, hi)` with a length in `[n, n + 100)` fits. */
  ghost predicate NoFitIn(t: string, nb: string, lo: nat, hi: nat, n: nat) {
    forall i :: lo <= i < hi ==> NoFitFrom(t, nb, i, n)
  }

  /** No window at i with a length in `[n, n + 100)` fits. */
  ghost predicate NoFitFrom(t: string, nb: string, i: nat, n: nat) {
    NoFitAt(t, nb, i, n, n + 100)
  }

  /** The first length in `[len, hi)` whose window at i fits. */
  function FirstLen(t: string, nb: string, i: nat, len: nat, hi: nat): (r: Option<nat>)
    ensures r.Some? ==> len <= r.value < hi && WindowFits(t, nb, i, r.value)
    decreases hi - len
  {
    if len >= hi then None
    else if WindowFits(t, nb, i, len) then Some(len)
    else FirstLen(t, nb, i, len + 1, hi)
  }

  /** The length found is the first that fits, and None means none fits. */
  lemma {:induction false} FirstLenSpec(t: string, nb: string, i: nat, len: nat, hi: nat)
    ensures var r := FirstLen(t, nb, i, len, hi);
      && (r.Some? ==> NoFitAt(t, nb, i, len, r.value))
      && (r.None? ==> NoFitAt(t, nb, i, len, hi))
    decreases hi - len
  {
    if len < hi && !WindowFits(t, nb, i, len) {
      FirstLenSpec(t, nb, i, len + 1, hi);
    }
  }

  /** The nested loops over start positions `[i, hi)` and lengths
      `[n, n + 100)`: the first fitting window in that order. */
  function FirstWindow(t: string, nb: string, i: nat, hi: nat, n: nat): (r: Option<(nat, nat)>)
    ensures r.Some? ==> i <= r.value.0 < hi && n <= r.value.1 < n + 100
    ensures r.Some? ==> WindowFits(t, nb, r.value.0, r.value.1)
    decreases hi - i
  {
    if i >= hi then None
    else match FirstLen(t, nb, i, n, n + 100)
      case Some(len) => Some((i, len))
      case None => FirstWindow(t, nb, i + 1, hi, n)
  }

  /** The window found is the first that fits in start-then-length order,
      and None means no window in the range fits. */
  lemma {:induction false} FirstWindowSpec(t: string, nb: string, i: nat, hi: nat, n: nat)
    ensures var r := FirstWindow(t, nb, i, hi, n);
      && (r.Some? ==> NoFitAt(t, nb, r.value.0, n, r.value.1) && NoFitIn(t, nb, i, r.value.0, n))
      && (r.None? ==> NoFitIn(t, nb, i, hi, n))
    decreases hi - i
  {
    if i < hi {
      FirstLenSpec(t, nb, i, n, n + 100);
      if FirstLen(t, nb, i, n, n + 100).None? {
        FirstWindowSpec(t, nb, i + 1, hi, n);
      }
    }
  }

  /** Where the refactorer expects the block in the page for a match at `pos`
      of the normalised page: the length of the normalised, right-stripped
      prefix `text[:pos + 20]`. */
  function Estimate(t: string, pos: nat): nat
  {
    |RStrip(NormalizeWs(t[..Min(pos + 20, |t|)]))|
  }

  /** The window range searched for a match at `pos`:
      `range(max(0, est - 100), min(len(text), est + 100))`. */
  function SearchLo(t: string, pos: nat): nat
  {
    var est := Estimate(t, pos);
    if est >= 100 then est - 100 else 0
  }

  function SearchHi(t: string, pos: nat): nat
  {
    Min(|t|, Estimate(t, pos) + 100)
  }

  /** The loop over the occurrences of the normalised block `nb` in the
      normalised page `nt` from `start`, with `near(pos)` the window search
      made for the occurrence at `pos`: the first search that succeeds
      ends the loop. */
  function ScanWith(nt: string, nb: string, start: nat, near: nat -> Option<(nat, nat)>): (r: Option<(nat, nat)>)
    requires |nb| > 0
    decreases |nt| - start
  {
    match FindFrom(nt, nb, start)
    case None => None
    case Some(pos) => if near(pos).Some? then near(pos) else ScanWith(nt, nb, pos + |nb|, near)
  }

  /** `pos` is one of the positions `normalized_content.find(nb, start_pos)`
      returns as the loop advances `start_pos` past each occurrence. */
  predicate ScanVisits(nt: string, nb: string, start: nat, pos: nat)
    requires |nb| > 0
    decreases |nt| - start
  {
    match FindFrom(nt, nb, start)
    case None => false
    case Some(i) => i == pos || (i < pos && ScanVisits(nt, nb, i + |nb|, pos))
  }

  /** The loop visits positions at or after where it starts. */
  lemma {:induction false} ScanVisitsAfter(nt: string, nb: string, start: nat, pos: nat)
    requires |nb| > 0 && ScanVisits(nt, nb, start, pos)
    ensures start <= pos
    decreases |nt| - start
  {
    var i := FindFrom(nt, nb, start).value;
    if i != pos {
      ScanVisitsAfter(nt, nb, i + |nb|, pos);
    }
  }

  /** What the loop returns is the search result of an occurrence it
      visits. */
  lemma {:induction false} ScanWithFound(nt: string, nb: string, start: nat, near: nat -> Option<(nat, nat)>)
    returns (pos: nat)
    requires |nb| > 0 && ScanWith(nt, nb, start, near).Some?
    ensures ScanVisits(nt, nb, start, pos) && near(pos) == ScanWith(nt, nb, start, near)
    decreases |nt| - start
  {
    var p := FindFrom(nt, nb, start).value;
    if near(p).Some? {
      pos := p;
    } else {
      pos := ScanWithFound(nt, nb, p + |nb|, near);
      ScanVisitsAfter(nt, nb, p + |nb|, pos);
    }
  }

  lemma ScanWithSome(nt: string, nb: string, start: nat, near: nat -> Option<(nat, nat)>)
    requires |nb| > 0
    ensures ScanWith(nt, nb, start, near).Some? ==>
      exists pos :: ScanVisits(nt, nb, start, pos) && near(pos) == ScanWith(nt, nb, start, near)
  {
    if ScanWith(nt, nb, start, near).Some? {
      var pos := ScanWithFound(nt, nb, start, near);
    }
  }

  /** When the loop ends empty-handed, every visited occurrence's search
      failed. */
  lemma {:induction false} ScanWithMissed(nt: string, nb: string, start: nat, near: nat -> Option<(nat, nat)>, pos: nat)
    requires |nb| > 0 && ScanWith(nt, nb, start, near).None? && ScanVisits(nt, nb, start, pos)
    ensures near(pos).None?
    decreases |nt| - start
  {
    var p := FindFrom(nt, nb, start).value;
    if p != pos {
      ScanWithMissed(nt, nb, p + |nb|, near, pos);
    }
  }

  /** The window search made for the occurrence at `pos`. */
  function Near(t: string, nb: string, n: nat): nat -> Option<(nat, nat)>
  {
    (pos: nat) => FirstWindow(t, nb, SearchLo(t, pos), SearchHi(t, pos), n)
  }

  /** The occurrence loop of the fuzzy tier. */
  function FuzzyScan(t: string, nt: string, nb: string, n: nat, start: nat): (r: Option<(nat, nat)>)
    requires |nb| > 0
    ensures r.Some? ==> WindowFits(t, nb, r.value.0, r.value.1)
    ensures r.Some? ==> n <= r.value.1 < n + 100
  {
    ScanWithSome(nt, nb, start, Near(t, nb, n));
    ScanWith(nt, nb, start, Near(t, nb, n))
  }

  /** `i` is among the start positions searched for the occurrence at `pos`. */
  predicate SearchedFrom(t: string, pos: nat, i: nat) {
    SearchLo(t, pos) <= i < SearchHi(t, pos)
  }

  /** No window searched for the occurrence at `pos` fits. */
  ghost predicate NoWindowNear(t: string, nb: string, n: nat, pos: nat) {
    NoFitIn(t, nb, SearchLo(t, pos), SearchHi(t, pos), n)
  }

  /** A window is found only near an occurrence the loop visits, inside the
      range searched for it. */
  lemma FuzzyScanFound(t: string, nt: string, nb: string, n: nat, start: nat)
    requires |nb| > 0
    ensures FuzzyScan(t, nt, nb, n, start).Some? ==>
      exists pos :: ScanVisits(nt, nb, start, pos) && SearchedFrom(t, pos, FuzzyScan(t, nt, nb, n, start).value.0)
  {
    if FuzzyScan(t, nt, nb, n, start).Some? {
      var pos := ScanWithFound(nt, nb, start, Near(t, nb, n));
      assert SearchedFrom(t, pos, FuzzyScan(t, nt, nb, n, start).value.0);
    }
  }

  /** When the scan finds nothing, no window searched for any visited
      occurrence fits. */
  lemma FuzzyScanMissed(t: string, nt: string, nb: string, n: nat, start: nat)
    requires |nb| > 0
    ensures FuzzyScan(t, nt, nb, n, start).None? ==>
      forall pos :: ScanVisits(nt, nb, start, pos) ==> NoWindowNear(t, nb, n, pos)
  {
    if FuzzyScan(t, nt, nb, n, start).None? {
      forall pos | ScanVisits(nt, nb, start, pos) ensures NoWindowNear(t, nb, n, pos) {
        ScanWithMissed(nt, nb, start, Near(t, nb, n), pos);
        FirstWindowSpec(t, nb, SearchLo(t, pos), SearchHi(t, pos), n);
      }
    }
  }

  /** Tier 4, tried when the normalised block occurs in the normalised page:
      a small navigation file is replaced whole, otherwise the first window
      near an occurrence that normalises to the block is spliced out. */
  function FuzzyTier(kind: BlockKind, file: string, t: string, content: string, stmt: string): Option<(Tier, string)>
  {
    var nt := NormalizeWs(t);
    var nb := NormalizeWs(content);
    if !Contains(nt, nb) then None
    else if kind == Navigation && IsNavFile(file) && 2 * |t| < 3 * |content| then Some((NavFile, stmt))
    else if |nb| == 0 then None
    else match FuzzyScan(t, nt, nb, |content|, 0)
      case None => None
      case Some((i, len)) => Some((Fuzzy, Splice(t, i, i + len, stmt)))
  }

  // ---------------------------------------------------------------------
  // Tier 5 for `navigation`: menu containment

  /** `sum(1 for item in items if item in links)`. */
  function CountIn(items: seq<MenuItem>, links: seq<MenuItem>): (c: nat)
    ensures c <= |items|
  {
    if |items| == 0 then 0
    else (if items[0] in links then 1 else 0) + CountIn(items[1..], links)
  }

  /** Every item is counted exactly when all of them are among the links, and
      none is exactly when none of them is. */
  lemma {:induction false} CountInBounds(items: seq<MenuItem>, links: seq<MenuItem>)
    ensures CountIn(items, links) == |items| <==> forall k :: 0 <= k < |items| ==> items[k] in links
    ensures CountIn(items, links) == 0 <==> forall k :: 0 <= k < |items| ==> items[k] !in links
  {
    if |items| > 0 {
      CountInBounds(items[1..], links);
      assert forall k :: 1 <= k < |items| ==> items[k] == items[1..][k - 1];
    }
  }

  /** At least 70% of the block's menu items are among the container's
      links, and the container's serialisation occurs in the page. */
  predicate NavMatches(items: seq<MenuItem>, nav: NavContainer, t: string) {
    10 * CountIn(items, nav.links) >= 7 * |items| && Contains(t, nav.markup)
  }

  function MenuTier(t: string, content: string, stmt: string, parser: Parser): Option<string>
  {
    var items := parser.menuItems(content);
    var navs := parser.navContainers(t);
    if |items| < 3 then None
    else match FirstIndex(navs, nav => NavMatches(items, nav, t), 0)
      case None => None
      case Some(k) => Some(ReplaceAll(t, navs[k].markup, stmt))
  }

  /** The menu tier needs at least three menu items and replaces every
      occurrence of the first container matching at least 70% of them; with
      three items and some matching container it always succeeds. */
  lemma MenuTierSpec(t: string, content: string, stmt: string, parser: Parser)
    ensures var items := parser.menuItems(content);
      var navs := parser.navContainers(t);
      MenuTier(t, content, stmt, parser).Some? ==>
        && |items| >= 3
        && exists k :: 0 <= k < |navs| && NavMatches(items, navs[k], t)
             && (forall i :: 0 <= i < k ==> !NavMatches(items, navs[i], t))
             && MenuTier(t, content, stmt, parser).value == ReplaceAll(t, navs[k].markup, stmt)
    ensures var items := parser.menuItems(content);
      var navs := parser.navContainers(t);
      (|items| >= 3 && exists k :: 0 <= k < |navs| && NavMatches(items, navs[k], t)) ==>
        MenuTier(t, content, stmt, parser).Some?
  {
    var items := parser.menuItems(content);
    var navs := parser.navContainers(t);
    if |items| >= 3 {
      var ok := (nav: NavContainer) => NavMatches(items, nav, t);
      var r := FirstIndex(navs, ok, 0);
      if r.Some? {
        assert forall i :: 0 <= i < r.value ==> !ok(navs[i]);
      } else {
        assert forall i :: 0 <= i < |navs| ==> !ok(navs[i]);
      }
    }
  }

  // ---------------------------------------------------------------------
  // The chain

  /** The tiers in order for one occurrence of a block of type `kind` in the
      page `file` whose current text is `t`; the first success wins. */
  function ApplyTiers(kind: BlockKind, file: string, content: string, t: string, stmt: string,
                      parser: Parser, sim: (string, string) -> real): Outcome
  {
    match ExactTier(t, content, stmt)
    case Some(u) => Replaced(Exact, u)
    case None =>
      match KindTier(kind, t, content, stmt, parser, sim)
      case Some((tier, u)) => Replaced(tier, u)
      case None =>
        match FuzzyTier(kind, file, t, content, stmt)
        case Some((tier, u)) => Replaced(tier, u)
        case None =>
          match (if kind == Navigation then MenuTier(t, content, stmt, parser) else None)
          case Some(u) => Replaced(Menu, u)
          case None =>
            if kind == Navigation && IsNavFile(file) && |t| < 5000 then Replaced(NavFallback, stmt)
            else Unresolved
  }

  /** Which tiers a block type can reach, and the whole-file tiers only for
      navigation blocks in files whose name says so. */
  lemma TierGating(kind: BlockKind, file: string, content: string, t: string, stmt: string,
                   parser: Parser, sim: (string, string) -> real)
    ensures var r := ApplyTiers(kind, file, content, t, stmt, parser, sim);
      && (r.Replaced? && r.tier == LinkPattern ==> kind == CssLinks || kind == LinkGroup)
      && (r.Replaced? && r.tier == Fingerprint ==> kind == Navigation || kind == Header || kind == Footer)
      && (r.Replaced? && r.tier == ScriptMatch ==> kind == Script)
      && (r.Replaced? && r.tier == MetaPattern ==> kind == MetaTags)
      && (r.Replaced? && r.tier == Menu ==> kind == Navigation)
      && (r.Replaced? && (r.tier == NavFile || r.tier == NavFallback) ==>
            kind == Navigation && IsNavFile(file) && r.text == stmt)
      && (r.Replaced? && r.tier == NavFile ==>
            Contains(NormalizeWs(t), NormalizeWs(content)) && 2 * |t| < 3 * |content|)
      && (r.Replaced? && r.tier == NavFallback ==> |t| < 5000)
  {
  }

  /** When the block occurs verbatim and is not the include statement, the
      exact tier wins and replaces every occurrence; any other tier is
      reached only when that is not so. */
  lemma ExactTierFirst(kind: BlockKind, file: string, content: string, t: string, stmt: string,
                       parser: Parser, sim: (string, string) -> real)
    ensures var r := ApplyTiers(kind, file, content, t, stmt, parser, sim);
      && (Contains(t, content) && content != stmt ==> r == Replaced(Exact, ReplaceAll(t, content, stmt)))
      && (r.Replaced? && r.tier != Exact ==> !Contains(t, content) || content == stmt)
  {
    ExactTierIff(t, content, stmt);
  }

  /** An empty block always takes the exact tier: the empty string occurs
      everywhere and the include statement is not empty. */
  lemma EmptyBlockExact(kind: BlockKind, file: string, t: string, stmt: string,
                        parser: Parser, sim: (string, string) -> real)
    requires |stmt| > 0
    ensures ApplyTiers(kind, file, "", t, stmt, parser, sim).Replaced?
    ensures ApplyTiers(kind, file, "", t, stmt, parser, sim).tier == Exact
  {
    assert StartsAt(t, 0, "");
    ContainsIff(t, "");
    ExactTierIff(t, "", stmt);
  }

  /** A navigation block in a file whose name says navigation and which is
      shorter than 5000 characters is always replaced. */
  lemma SmallNavFileResolved(file: string, content: string, t: string, stmt: string,
                             parser: Parser, sim: (string, string) -> real)
    requires IsNavFile(file) && |t| < 5000
    ensures ApplyTiers(Navigation, file, content, t, stmt, parser, sim).Replaced?
  {
  }

  /** The pattern tiers replace the leftmost whitespace-joined spelling of
      the block's `<link>` tags (or of its meta tags) and nothing else. */
  lemma PatternTierSpan(kind: BlockKind, file: string, content: string, t: string, stmt: string,
                        parser: Parser, sim: (string, string) -> real)
    ensures var r := ApplyTiers(kind, file, content, t, stmt, parser, sim);
      var lits := if kind == MetaTags then parser.metaTags(content) else LinkTags(content, 0);
      r.Replaced? && (r.tier == LinkPattern || r.tier == MetaPattern) ==>
        && |lits| > 0
        && exists s, e ::
             && 0 <= s <= e <= |t| && Joined(t[s..e], lits)
             && r.text == t[..s] + stmt + t[e..]
             && forall s', e' :: 0 <= s' < s && s' <= e' <= |t| ==> !Joined(t[s'..e'], lits)
  {
    var r := ApplyTiers(kind, file, content, t, stmt, parser, sim);
    var lits := if kind == MetaTags then parser.metaTags(content) else LinkTags(content, 0);
    if r.Replaced? && (r.tier == LinkPattern || r.tier == MetaPattern) {
      PatternFromKindTier(kind, file, content, t, stmt, parser, sim);
      PatternReplaceSpec(t, lits, stmt);
    }
  }

  /** A pattern-tier outcome is the pattern replacement on the block's
      link tags, or on its meta tags for a meta block. */
  lemma PatternFromKindTier(kind: BlockKind, file: string, content: string, t: string, stmt: string,
                            parser: Parser, sim: (string, string) -> real)
    requires ApplyTiers(kind, file, content, t, stmt, parser, sim).Replaced?
    requires ApplyTiers(kind, file, content, t, stmt, parser, sim).tier in {LinkPattern, MetaPattern}
    ensures var lits := if kind == MetaTags then parser.metaTags(content) else LinkTags(content, 0);
      PatternReplace(t, lits, stmt) == Some(ApplyTiers(kind, file, content, t, stmt, parser, sim).text)
  {
    var r := ApplyTiers(kind, file, content, t, stmt, parser, sim);
    assert ExactTier(t, content, stmt).None?;
    assert KindTier(kind, t, content, stmt, parser, sim) == Some((r.tier, r.text)) by {
      FuzzyTierTiers(kind, file, t, content, stmt);
    }
  }

  /** The fuzzy tier function yields only its own two tiers. */
  lemma FuzzyTierTiers(kind: BlockKind, file: string, t: string, content: string, stmt: string)
    ensures var f := FuzzyTier(kind, file, t, content, stmt);
      f.Some? ==> f.value.0 == NavFile || f.value.0 == Fuzzy
  {
  }

  /** Only the fuzzy tier function produces a fuzzy replacement. */
  lemma FuzzyFromTier(kind: BlockKind, file: string, content: string, t: string, stmt: string,
                      parser: Parser, sim: (string, string) -> real)
    requires ApplyTiers(kind, file, content, t, stmt, parser, sim).Replaced?
    requires ApplyTiers(kind, file, content, t, stmt, parser, sim).tier == Fuzzy
    ensures FuzzyTier(kind, file, t, content, stmt) == Some((Fuzzy, ApplyTiers(kind, file, content, t, stmt, parser, sim).text))
  {
  }

  /** `u` is `t` with the window `[i, i + len)` replaced by `stmt`, where the
      window re-normalises to `nb`, is between `n` and `n + 99` long, and
      starts in the range searched for the visited occurrence `pos` of `nb`
      in `nt`. */
  predicate FuzzySplice(t: string, nt: string, nb: string, n: nat, stmt: string, u: string,
                        i: nat, len: nat, pos: nat)
    requires |nb| > 0
  {
    && WindowFits(t, nb, i, len) && n <= len < n + 100
    && ScanVisits(nt, nb, 0, pos) && SearchedFrom(t, pos, i)
    && u == Splice(t, i, i + len, stmt)
  }

  /** The fuzzy tier replaces one window `[i, i + len)` that re-normalises to
      the normalised block, with `len(block) <= len < len(block) + 100` and
      i in the range searched around an occurrence of the normalised block;
      the text outside the window is kept. */
  lemma FuzzyTierSpan(kind: BlockKind, file: string, content: string, t: string, stmt: string, u: string)
    requires FuzzyTier(kind, file, t, content, stmt) == Some((Fuzzy, u))
    ensures |NormalizeWs(content)| > 0
    ensures exists i: nat, len: nat, pos: nat ::
      FuzzySplice(t, NormalizeWs(t), NormalizeWs(content), |content|, stmt, u, i, len, pos)
  {
    var nt := NormalizeWs(t);
    var nb := NormalizeWs(content);
    assert |nb| > 0;
    FuzzyScanFound(t, nt, nb, |content|, 0);
    var w := FuzzyScan(t, nt, nb, |content|, 0).value;
    var pos :| ScanVisits(nt, nb, 0, pos) && SearchedFrom(t, pos, w.0);
    assert FuzzySplice(t, nt, nb, |content|, stmt, u, w.0, w.1, pos);
  }

  // ---------------------------------------------------------------------
  // The loop over clusters and occurrences

  /** One occurrence: its page's current text goes through the tiers and a
      replacement is written back to that page, so the next occurrence sees
      the new text; returns the pages and the number of replacements made
      (0 or 1). */
  function ApplyOccurrence(pages: map<string, string>, b: Block, kind: BlockKind, stmt: string,
                           parser: Parser, sim: (string, string) -> real): (r: (map<string, string>, nat))
    requires b.file in pages
    ensures r.0.Keys == pages.Keys
    ensures r.1 <= 1
    ensures forall f :: f in pages && f != b.file ==> r.0[f] == pages[f]
    ensures r.1 == 0 <==> ApplyTiers(kind, b.file, b.content, pages[b.file], stmt, parser, sim).Unresolved?
    ensures r.1 == 0 ==> r.0 == pages
    ensures r.1 == 1 ==> r.0[b.file] == ApplyTiers(kind, b.file, b.content, pages[b.file], stmt, parser, sim).text
  {
    match ApplyTiers(kind, b.file, b.content, pages[b.file], stmt, parser, sim)
    case Unresolved => (pages, 0)
    case Replaced(_, u) => (pages[b.file := u], 1)
  }

  /** Every position is a block index whose page is known. */
  predicate OccurrencesIn(blocks: seq<Block>, ps: seq<nat>, pages: map<string, string>) {
    forall k :: 0 <= k < |ps| ==> ps[k] < |blocks| && blocks[ps[k]].file in pages
  }

  /** The pages of the blocks at the positions. */
  function FilesAt(blocks: seq<Block>, ps: seq<nat>): set<string>
    requires forall k :: 0 <= k < |ps| ==> ps[k] < |blocks|
  {
    if |ps| == 0 then {} else {blocks[ps[0]].file} + FilesAt(blocks, ps[1..])
  }

  /** The occurrences of one cluster in order; each sees the text left by the
      ones before. */
  function ReplayOccurrences(blocks: seq<Block>, ps: seq<nat>, kind: BlockKind, stmt: string,
                             pages: map<string, string>, parser: Parser,
                             sim: (string, string) -> real): (r: (map<string, string>, nat))
    requires OccurrencesIn(blocks, ps, pages)
    decreases |ps|
  {
    if |ps| == 0 then (pages, 0)
    else
      var one := ApplyOccurrence(pages, blocks[ps[0]], kind, stmt, parser, sim);
      var rest := ReplayOccurrences(blocks, ps[1..], kind, stmt, one.0, parser, sim);
      (rest.0, one.1 + rest.1)
  }

  /** One cluster's occurrences keep the set of pages, add at most one
      replacement each, and leave every page none of them lives in as it
      was. */
  lemma {:induction false} ReplayOccurrencesFrame(blocks: seq<Block>, ps: seq<nat>, kind: BlockKind, stmt: string,
                                                  pages: map<string, string>, parser: Parser,
                                                  sim: (string, string) -> real)
    requires OccurrencesIn(blocks, ps, pages)
    ensures var r := ReplayOccurrences(blocks, ps, kind, stmt, pages, parser, sim);
      && r.0.Keys == pages.Keys
      && r.1 <= |ps|
      && forall f :: f in pages && f !in FilesAt(blocks, ps) ==> r.0[f] == pages[f]
    decreases |ps|
  {
    if |ps| > 0 {
      var one := ApplyOccurrence(pages, blocks[ps[0]], kind, stmt, parser, sim);
      assert OccurrencesIn(blocks, ps[1..], one.0) by {
        forall k | 0 <= k < |ps[1..]| ensures ps[1..][k] < |blocks| && blocks[ps[1..][k]].file in one.0 {
          assert ps[1..][k] == ps[k + 1];
        }
      }
      ReplayOccurrencesFrame(blocks, ps[1..], kind, stmt, one.0, parser, sim);
    }
  }

  /** Everything the replay needs: seeds exist, every occurrence's page is
      known and every cluster has an include path. */
  predicate ReplayReady(blocks: seq<Block>, cs: seq<Cluster>, paths: map<string, string>,
                        pages: map<string, string>)
  {
    && ValidClusters(blocks, cs)
    && (forall k :: 0 <= k < |cs| ==> OccurrencesIn(blocks, cs[k].positions, pages))
    && (forall k :: 0 <= k < |cs| ==> cs[k].id in paths)
  }

  lemma ReplayReadyTail(blocks: seq<Block>, cs: seq<Cluster>, paths: map<string, string>,
                        pages: map<string, string>, pages': map<string, string>)
    requires |cs| > 0 && ReplayReady(blocks, cs, paths, pages) && pages'.Keys == pages.Keys
    ensures ReplayReady(blocks, cs[1..], paths, pages')
  {
    var tail := cs[1..];
    forall k | 0 <= k < |tail| ensures OccurrencesIn(blocks, tail[k].positions, pages') {
      assert tail[k] == cs[k + 1];
      assert OccurrencesIn(blocks, cs[k + 1].positions, pages);
    }
    forall a, b | 0 <= a < b < |tail| ensures tail[a].id != tail[b].id {
      assert tail[a] == cs[a + 1] && tail[b] == cs[b + 1];
    }
  }

  /** Every position of every cluster is a block index. */
  predicate PositionsIn(blocks: seq<Block>, cs: seq<Cluster>) {
    forall k :: 0 <= k < |cs| ==> forall m :: 0 <= m < |cs[k].positions| ==> cs[k].positions[m] < |blocks|
  }

  /** The pages any occurrence of any cluster lives in. */
  function ClusterFiles(blocks: seq<Block>, cs: seq<Cluster>): set<string>
    requires PositionsIn(blocks, cs)
  {
    if |cs| == 0 then {} else FilesAt(blocks, cs[0].positions) + ClusterFiles(blocks, cs[1..])
  }

  /** The loop of `apply_includes`: the clusters in order, each with the
      include statement of its path and the type of its seed. */
  function Replay(blocks: seq<Block>, cs: seq<Cluster>, paths: map<string, string>,
                  pages: map<string, string>, parser: Parser,
                  sim: (string, string) -> real): (r: (map<string, string>, nat))
    requires ReplayReady(blocks, cs, paths, pages)
    decreases |cs|
  {
    if |cs| == 0 then (pages, 0)
    else
      var c := cs[0];
      var stmt := Stmt(paths[c.id]);
      assert OccurrencesIn(blocks, c.positions, pages);
      ReplayOccurrencesFrame(blocks, c.positions, Seed(blocks, c).kind, stmt, pages, parser, sim);
      var one := ReplayOccurrences(blocks, c.positions, Seed(blocks, c).kind, stmt, pages, parser, sim);
      ReplayReadyTail(blocks, cs, paths, pages, one.0);
      var rest := Replay(blocks, cs[1..], paths, one.0, parser, sim);
      (rest.0, one.1 + rest.1)
  }

  /** The replay keeps the set of pages, makes at most one replacement per
      occurrence, and leaves every page without an occurrence as it was. */
  lemma {:induction false} ReplayFrame(blocks: seq<Block>, cs: seq<Cluster>, paths: map<string, string>,
                                       pages: map<string, string>, parser: Parser,
                                       sim: (string, string) -> real)
    requires ReplayReady(blocks, cs, paths, pages)
    ensures var r := Replay(blocks, cs, paths, pages, parser, sim);
      && r.0.Keys == pages.Keys
      && r.1 <= Occurrences(cs)
      && forall f :: f in pages && f !in ClusterFiles(blocks, cs) ==> r.0[f] == pages[f]
    decreases |cs|
  {
    if |cs| > 0 {
      var c := cs[0];
      var stmt := Stmt(paths[c.id]);
      assert OccurrencesIn(blocks, c.positions, pages);
      ReplayOccurrencesFrame(blocks, c.positions, Seed(blocks, c).kind, stmt, pages, parser, sim);
      var one := ReplayOccurrences(blocks, c.positions, Seed(blocks, c).kind, stmt, pages, parser, sim);
      ReplayReadyTail(blocks, cs, paths, pages, one.0);
      ReplayFrame(blocks, cs[1..], paths, one.0, parser, sim);
    }
  }
}

=== FILE: text.dfy ===
/**
  String primitives shared by the refactoring engine and the link rewriter,
  each written to behave like the Python string operation or regular
  expression it stands for.
 */
module Text {

  datatype Option<T> = None | Some(value: T)

  /** The characters Python's `str.isspace()`, `str.strip()` and the regex
      class `\s` treat as whitespace. */
  predicate IsWs(c: char) {
    var n := c as int;
    || n == 0x20 || (0x09 <= n <= 0x0d) || (0x1c <= n <= 0x1f)
    || n == 0x85 || n == 0xa0 || n == 0x1680 || (0x2000 <= n <= 0x200a)
    || n == 0x2028 || n == 0x2029 || n == 0x202f || n == 0x205f || n == 0x3000
  }

  predicate AllWs(s: string) {
    forall k :: 0 <= k < |s| ==> IsWs(s[k])
  }

  /** `p` occurs in `s` at index `i`. */
  predicate StartsAt(s: string, i: nat, p: string) {
    i + |p| <= |s| && s[i..i + |p|] == p
  }

  predicate StartsWith(s: string, p: string) {
    p <= s
  }

  predicate EndsWith(s: string, p: string) {
    |p| <= |s| && s[|s| - |p|..] == p
  }

  predicate StartsWithAny(s: string, ps: seq<string>) {
    exists k :: 0 <= k < |ps| && StartsWith(s, ps[k])
  }

  /** Python's `s.find(p, from)`: the lowest index at or after `from` where
      `p` occurs, or None for -1. */
  function FindFrom(s: string, p: string, from: nat): (r: Option<nat>)
    ensures r.Some? ==> from <= r.value && StartsAt(s, r.value, p)
    decreases |s| - from
  {
    if from + |p| > |s| then None
    else if StartsAt(s, from, p) then Some(from)
    else FindFrom(s, p, from + 1)
  }

  /** The index found is the first occurrence at or after `from`, and None
      means there is none. */
  lemma {:induction false} FindFromFirst(s: string, p: string, from: nat)
    ensures var r := FindFrom(s, p, from);
      && (r.Some? ==> forall k :: from <= k < r.value ==> !StartsAt(s, k, p))
      && (r.None? ==> forall k :: from <= k ==> !StartsAt(s, k, p))
    decreases |s| - from
  {
    if from + |p| <= |s| && !StartsAt(s, from, p) {
      FindFromFirst(s, p, from + 1);
    }
  }

  /** The first occurrence at or after `from` is what the search finds. */
  lemma {:induction false} FindFromAt(s: string, p: string, from: nat, i: nat)
    requires from <= i && StartsAt(s, i, p)
    requires forall k :: from <= k < i ==> !StartsAt(s, k, p)
    ensures FindFrom(s, p, from) == Some(i)
    decreases i - from
  {
    if from < i {
      FindFromAt(s, p, from + 1, i);
    }
  }

  /** Python's `p in s`. */
  predicate Contains(s: string, p: string) {
    FindFrom(s, p, 0).Some?
  }

  lemma ContainsIff(s: string, p: string)
    ensures Contains(s, p) <==> exists i :: 0 <= i && StartsAt(s, i, p)
  {
    FindFromFirst(s, p, 0);
  }

  /** Python's `s.replace(p, r)` for the empty pattern: `r` before every
      character and at the end. */
  function InsertEverywhere(s: string, r: string): string
  {
    if |s| == 0 then r else r + [s[0]] + InsertEverywhere(s[1..], r)
  }

  /** The replacement of every non-overlapping occurrence of a non-empty `p`
      in `s[from..]`, scanning left to right. */
  function ReplaceFrom(s: string, p: string, r: string, from: nat): string
    requires |p| > 0 && from <= |s|
    decreases |s| - from
  {
    match FindFrom(s, p, from)
    case None => s[from..]
    case Some(i) => s[from..i] + r + ReplaceFrom(s, p, r, i + |p|)
  }

  /** Python's `s.replace(p, r)`. */
  function ReplaceAll(s: string, p: string, r: string): string
  {
    if |p| == 0 then InsertEverywhere(s, r) else ReplaceFrom(s, p, r, 0)
  }

  /** The pieces of `s[from..]` between occurrences of a non-empty `p`. */
  function SplitFrom(s: string, p: string, from: nat): (pieces: seq<string>)
    requires |p| > 0 && from <= |s|
    ensures |pieces| > 0
    decreases |s| - from
  {
    match FindFrom(s, p, from)
    case None => [s[from..]]
    case Some(i) => [s[from..i]] + SplitFrom(s, p, i + |p|)
  }

  /** Python's `s.split(p)` for a non-empty separator. */
  function Split(s: string, p: string): (pieces: seq<string>)
    requires |p| > 0
    ensures |pieces| > 0
  {
    SplitFrom(s, p, 0)
  }

  /** Python's `sep.join(pieces)`. */
  function Join(pieces: seq<string>, sep: string): string
  {
    if |pieces| == 0 then ""
    else if |pieces| == 1 then pieces[0]
    else pieces[0] + sep + Join(pieces[1..], sep)
  }

  lemma JoinCons(a: string, rest: seq<string>, sep: string)
    requires |rest| > 0
    ensures Join([a] + rest, sep) == a + sep + Join(rest, sep)
  {
    assert ([a] + rest)[1..] == rest;
  }

  /** Splitting on a separator and joining the pieces back with it gives the
      original text. */
  lemma {:induction false} JoinSplitFrom(s: string, p: string, from: nat)
    requires |p| > 0 && from <= |s|
    ensures Join(SplitFrom(s, p, from), p) == s[from..]
    decreases |s| - from
  {
    match FindFrom(s, p, from)
    case None =>
    case Some(i) =>
      JoinSplitFrom(s, p, i + |p|);
      JoinCons(s[from..i], SplitFrom(s, p, i + |p|), p);
      assert s[from..] == s[from..i] + s[i..i + |p|] + s[i + |p|..];
  }

  lemma JoinSplit(s: string, p: string)
    requires |p| > 0
    ensures Join(Split(s, p), p) == s
  {
    JoinSplitFrom(s, p, 0);
  }

  /** A stretch of `s` in which no occurrence of `p` starts and fits does
      not contain `p`. */
  lemma SliceFree(s: string, p: string, a: nat, b: nat)
    requires |p| > 0 && a <= b <= |s|
    requires forall k :: a <= k && k + |p| <= b ==> !StartsAt(s, k, p)
    ensures !Contains(s[a..b], p)
  {
    var piece := s[a..b];
    forall j: nat ensures !StartsAt(piece, j, p) {
      if j + |p| <= |piece| {
        var w, v := piece[j..j + |p|], s[a + j..a + j + |p|];
        assert forall t :: 0 <= t < |p| ==> w[t] == v[t];
        assert w == v;
        assert !StartsAt(s, a + j, p);
      }
    }
  }

  /** No piece of a split contains the separator: every occurrence of it was
      consumed by the split. */
  lemma {:induction false} SplitPiecesFree(s: string, p: string, from: nat)
    requires |p| > 0 && from <= |s|
    ensures forall k :: 0 <= k < |SplitFrom(s, p, from)| ==> !Contains(SplitFrom(s, p, from)[k], p)
    decreases |s| - from
  {
    match FindFrom(s, p, from)
    case None =>
      PieceFree(s, p, from, |s|);
      assert s[from..|s|] == s[from..];
    case Some(i) =>
      PieceFree(s, p, from, i);
      var rest := SplitFrom(s, p, i + |p|);
      SplitPiecesFree(s, p, i + |p|);
      var pieces := [s[from..i]] + rest;
      assert pieces == SplitFrom(s, p, from);
      forall k | 0 <= k < |pieces| ensures !Contains(pieces[k], p) {
        if k > 0 { assert pieces[k] == rest[k - 1]; }
      }
  }

  /** The stretch from `from` to the next occurrence (or to the end) holds
      no occurrence. */
  lemma PieceFree(s: string, p: string, from: nat, e: nat)
    requires |p| > 0 && from <= e <= |s|
    requires FindFrom(s, p, from) == Some(e) || (e == |s| && FindFrom(s, p, from).None?)
    ensures !Contains(s[from..e], p)
  {
    FindFromFirst(s, p, from);
    SliceFree(s, p, from, e);
  }

  /** Replacing every occurrence is the same as splitting on the pattern and
      joining the pieces with the replacement. */
  lemma {:induction false} ReplaceAllIsSplitJoin(s: string, p: string, r: string, from: nat)
    requires |p| > 0 && from <= |s|
    ensures ReplaceFrom(s, p, r, from) == Join(SplitFrom(s, p, from), r)
    decreases |s| - from
  {
    match FindFrom(s, p, from)
    case None =>
    case Some(i) =>
      ReplaceAllIsSplitJoin(s, p, r, i + |p|);
      JoinCons(s[from..i], SplitFrom(s, p, i + |p|), r);
  }

  /** A text without the pattern is left as it is. */
  lemma ReplaceAllAbsent(s: string, p: string, r: string)
    requires |p| > 0 && !Contains(s, p)
    ensures ReplaceAll(s, p, r) == s
  {
  }

  /** Inserting a non-empty text everywhere makes the text longer. */
  lemma {:induction false} InsertEverywhereGrows(s: string, r: string)
    requires |r| > 0
    ensures |InsertEverywhere(s, r)| > |s|
  {
    if |s| > 0 { InsertEverywhereGrows(s[1..], r); }
  }

  /** Replacing a pattern with itself changes nothing. */
  lemma {:induction false} ReplaceAllSelf(s: string, p: string, from: nat)
    requires |p| > 0 && from <= |s|
    ensures ReplaceFrom(s, p, p, from) == s[from..]
    decreases |s| - from
  {
    match FindFrom(s, p, from)
    case None =>
    case Some(i) =>
      ReplaceAllSelf(s, p, i + |p|);
      SliceThree(s, from, i, i + |p|);
  }

  lemma SliceThree(s: string, a: nat, b: nat, c: nat)
    requires a <= b <= c <= |s|
    ensures s[a..] == s[a..b] + s[b..c] + s[c..]
  {
  }

  lemma {:induction false} InsertNothing(s: string)
    ensures InsertEverywhere(s, "") == s
  {
    if |s| > 0 {
      InsertNothing(s[1..]);
      assert s == [s[0]] + s[1..];
    }
  }

  /** `s.replace(p, p) == s`, the empty pattern included. */
  lemma ReplaceAllIdentity(s: string, p: string)
    ensures ReplaceAll(s, p, p) == s
  {
    if |p| == 0 { InsertNothing(s); } else { ReplaceAllSelf(s, p, 0); }
  }

  /** A shorter replacement never lengthens the text and a longer one never
      shortens it. */
  lemma {:induction false} ReplaceAllLength(s: string, p: string, r: string, from: nat)
    requires |p| > 0 && from <= |s|
    ensures |r| <= |p| ==> |ReplaceFrom(s, p, r, from)| <= |s| - from
    ensures |r| >= |p| ==> |ReplaceFrom(s, p, r, from)| >= |s| - from
    decreases |s| - from
  {
    match FindFrom(s, p, from)
    case None =>
    case Some(i) => ReplaceAllLength(s, p, r, i + |p|);
  }

  /** Replacing an occurring pattern with a different text changes the text. */
  lemma ReplaceAllChanges(s: string, p: string, r: string)
    requires Contains(s, p) && p != r
    ensures ReplaceAll(s, p, r) != s
  {
    if |p| == 0 {
      InsertEverywhereGrows(s, r);
    } else {
      var i := FindFrom(s, p, 0).value;
      var out := ReplaceAll(s, p, r);
      var tail := ReplaceFrom(s, p, r, i + |p|);
      assert out == s[..i] + r + tail;
      ReplaceAllLength(s, p, r, i + |p|);
      if |r| == |p| {
        assert out[i..i + |r|] == r;
        assert s[i..i + |p|] == p;
      }
    }
  }

  /** Python's `s.count(p)` for a non-empty pattern: non-overlapping
      occurrences from the left. */
  function CountFrom(s: string, p: string, from: nat): (n: nat)
    requires |p| > 0
    ensures n * |p| <= |s| - from || (n == 0 && from > |s|)
    decreases |s| - from
  {
    match FindFrom(s, p, from)
    case None => 0
    case Some(i) =>
      var c := CountFrom(s, p, i + |p|);
      assert (1 + c) * |p| == |p| + c * |p|;
      1 + c
  }

  /** End of the run of whitespace starting at `i`. */
  function WsRunEnd(s: string, i: nat): (e: nat)
    requires i <= |s|
    ensures i <= e <= |s|
    ensures forall k :: i <= k < e ==> IsWs(s[k])
    ensures e == |s| || !IsWs(s[e])
    decreases |s| - i
  {
    if i == |s| || !IsWs(s[i]) then i else WsRunEnd(s, i + 1)
  }

  /** A whitespace stretch from `g` to `k` ends no later than the run. */
  lemma WsRunCovers(t: string, g: nat, k: nat)
    requires g <= k <= |t|
    requires forall j :: g <= j < k ==> IsWs(t[j])
    ensures k <= WsRunEnd(t, g)
    decreases k - g
  {
    if g < k { WsRunCovers(t, g + 1, k); }
  }

  /** A whitespace stretch from `i` to a non-whitespace character (or the
      end) is exactly the run that starts at `i`. */
  lemma {:induction false} WsRunEndAt(s: string, i: nat, e: nat)
    requires i <= e <= |s|
    requires forall k :: i <= k < e ==> IsWs(s[k])
    requires e == |s| || !IsWs(s[e])
    ensures WsRunEnd(s, i) == e
    decreases e - i
  {
    if i < e {
      WsRunEndAt(s, i + 1, e);
    }
  }

  /** Python's `re.sub(r'\s+', ' ', s)`. */
  function NormalizeWs(s: string): (r: string)
    ensures |r| <= |s|
    decreases |s|
  {
    if |s| == 0 then ""
    else if IsWs(s[0]) then " " + NormalizeWs(s[WsRunEnd(s, 0)..])
    else [s[0]] + NormalizeWs(s[1..])
  }

  /** Python's `s.rstrip()`. */
  function RStrip(s: string): (r: string)
    ensures r <= s
    ensures |r| == 0 || !IsWs(r[|r| - 1])
    ensures AllWs(s[|r|..])
  {
    if |s| == 0 || !IsWs(s[|s| - 1]) then s
    else
      var r := RStrip(s[..|s| - 1]);
      assert s[|r|..] == s[..|s| - 1][|r|..] + [s[|s| - 1]];
      r
  }

  /** Python's `s.strip() == ''` */
  predicate IsBlank(s: string) {
    AllWs(s)
  }

  /** ASCII lower-casing (Python's `str.lower()` on ASCII text). */
  function LowerChar(c: char): char {
    if 'A' <= c <= 'Z' then (c as int + 32) as char else c
  }

  function Lower(s: string): (r: string)
    ensures |r| == |s|
    ensures forall k :: 0 <= k < |s| ==> r[k] == LowerChar(s[k])
  {
    seq(|s|, k requires 0 <= k < |s| => LowerChar(s[k]))
  }

  /** Index just after the last '/', 0 when there is none. */
  function LastSlashEnd(s: string): (k: nat)
    ensures k <= |s|
    ensures k > 0 ==> s[k - 1] == '/'
    ensures forall j :: k <= j < |s| ==> s[j] != '/'
  {
    if |s| == 0 then 0
    else if s[|s| - 1] == '/' then |s|
    else LastSlashEnd(s[..|s| - 1])
  }

  /** `os.path.basename`: the text after the last '/'. */
  function Basename(path: string): (r: string)
    ensures EndsWith(path, r)
    ensures forall j :: 0 <= j < |r| ==> r[j] != '/'
  {
    path[LastSlashEnd(path)..]
  }

  /** `s[i..j]` replaced by `r`. */
  function Splice(s: string, i: nat, j: nat, r: string): string
    requires i <= j <= |s|
  {
    s[..i] + r + s[j..]
  }

  function DigitChar(d: nat): (c: char)
    requires d < 10
    ensures '0' <= c <= '9'
  {
    (d + '0' as int) as char
  }

  /** Python's `str(n)` for a natural number. */
  function NatToString(n: nat): (r: string)
    ensures |r| > 0
    ensures forall k :: 0 <= k < |r| ==> '0' <= r[k] <= '9'
  {
    if n < 10 then [DigitChar(n)] else NatToString(n / 10) + [DigitChar(n % 10)]
  }

  /** A number of two digits or more renders as the rendering of its tens
      followed by its last digit. */
  lemma NatToStringLast(n: nat)
    requires n >= 10
    ensures var r := NatToString(n);
      |r| >= 2 && r[|r| - 1] == DigitChar(n % 10) && r[..|r| - 1] == NatToString(n / 10)
  {
    var t := NatToString(n / 10);
    assert NatToString(n) == t + [DigitChar(n % 10)];
    assert (t + [DigitChar(n % 10)])[..|t|] == t;
  }

  /** Decimal rendering is injective. */
  lemma {:induction false} NatToStringInjective(a: nat, b: nat)
    requires NatToString(a) == NatToString(b)
    ensures a == b
    decreases a
  {
    if a < 10 && b < 10 {
      assert NatToString(a)[0] == DigitChar(a);
      assert NatToString(b)[0] == DigitChar(b);
    } else if a < 10 {
      NatToStringLast(b);
    } else if b < 10 {
      NatToStringLast(a);
    } else {
      NatToStringLast(a);
      NatToStringLast(b);
      NatToStringInjective(a / 10, b / 10);
    }
  }

  /** The positions of the elements of `xs` that `keep` accepts, in
      increasing order: a filter's choice, with order and repeats kept. */
  function Selected<T>(xs: seq<T>, keep: T -> bool): (r: seq<nat>)
    ensures forall k :: 0 <= k < |r| ==> r[k] < |xs| && keep(xs[r[k]])
    ensures forall k, l :: 0 <= k < l < |r| ==> r[k] < r[l]
    ensures forall j :: 0 <= j < |xs| && keep(xs[j]) ==> j in r
    ensures |r| <= |xs|
    decreases |xs|
  {
    if |xs| == 0 then []
    else
      var init := xs[..|xs| - 1];
      assert forall j :: 0 <= j < |init| ==> init[j] == xs[j];
      Selected(init, keep) + (if keep(xs[|xs| - 1]) then [|xs| - 1] else [])
  }
}

=== FILE: urls.dfy ===
/**
  The string logic of the downloader's URL handling: `is_probably_url` and the
  rewrite `normalize_html` applies to each `href`, `src`, `data-lazyload`,
  `data-src` and `data-image-src` value: relative paths become site-rooted,
  the site's own absolute URLs lose their scheme and host, `.asp.html` and
  `.php.html` become `.html`, and repeated slashes are collapsed.
 */
module Urls {
  import opened Text

  // ---------------------------------------------------------------------
  // is_probably_url

  /** `re.search(r'\.html$', v, re.IGNORECASE)`: `$` also matches just
      before a final newline. */
  predicate EndsHtml(v: string) {
    || (|v| >= 5 && LitAt(v, |v| - 5, ".html"))
    || (|v| >= 6 && v[|v| - 1] == '\n' && LitAt(v, |v| - 6, ".html"))
  }

  /** `re.search(r'\.(asp|php)\.html$', v, re.IGNORECASE)`. */
  predicate EndsAspPhpHtml(v: string) {
    || (|v| >= 9 && ExtAt(v, |v| - 9))
    || (|v| >= 10 && v[|v| - 1] == '\n' && ExtAt(v, |v| - 10))
  }

  const UrlPrefixes: seq<string> := ["//", "http://", "https://", "/", "./", "../"]

  /** `is_probably_url`; `hasScheme` stands for `urlparse(v).scheme != ''`. */
  function IsProbablyUrl(v: string, hasScheme: string -> bool): (r: bool)
    ensures |v| == 0 || Contains(v, " ") ==> !r
  {
    if |v| == 0 || Contains(v, " ") then false
    else if hasScheme(v) then true
    else if StartsWithAny(v, UrlPrefixes) then true
    else if Contains(v, "/") then true
    else if EndsAspPhpHtml(v) || EndsHtml(v) then true
    else false
  }

  /** A value the `.asp.html`/`.php.html` search accepts also ends in
      `.html`. */
  lemma AspPhpHtmlEndsHtml(v: string)
    requires EndsAspPhpHtml(v)
    ensures EndsHtml(v)
  {
    var i := if |v| >= 9 && ExtAt(v, |v| - 9) then |v| - 9 else |v| - 10;
    var lit := if LitAt(v, i, ".asp.html") then ".asp.html" else ".php.html";
    assert LitAt(v, i, lit);
    forall k | 0 <= k < 5 ensures CharCI(v[i + 4 + k], ".html"[k]) {
      assert CharCI(v[i + (4 + k)], lit[4 + k]);
    }
  }

  /** Every listed prefix holds a slash, so the prefix test adds nothing to
      the slash test: a space-free non-empty value is a URL exactly when it
      has a scheme, holds a slash, or ends in `.html` in any case. */
  lemma IsProbablyUrlIff(v: string, hasScheme: string -> bool)
    ensures IsProbablyUrl(v, hasScheme) <==>
      |v| > 0 && !Contains(v, " ") && (hasScheme(v) || Contains(v, "/") || EndsHtml(v))
  {
    if EndsAspPhpHtml(v) {
      AspPhpHtmlEndsHtml(v);
    }
    if StartsWithAny(v, UrlPrefixes) {
      var k :| 0 <= k < |UrlPrefixes| && StartsWith(v, UrlPrefixes[k]);
      var p := UrlPrefixes[k];
      var j := if k == 0 || k == 3 then 0 else if k == 4 then 1 else if k == 5 then 2 else if k == 1 then 5 else 6;
      assert p[j] == '/';
      assert v[j..j + 1] == "/";
      ContainsIff(v, "/");
      assert StartsAt(v, j, "/");
    }
  }

  // ---------------------------------------------------------------------
  // Rebasing relative values

  const SkipPrefixes: seq<string> :=
    ["/", "http://", "https://", "//", "#", "javascript:", "data:", "mailto:", "tel:"]

  /** The values the first branch rewrites: not rooted, not absolute, not an
      anchor or a script/data/mail/phone URI, not blank, not a template. */
  predicate Rebasable(v: string) {
    !StartsWithAny(v, SkipPrefixes) && !IsBlank(v) && !StartsWith(v, "{")
  }

  /** `p` under the directory `dir` of the site, `dir` empty for the root. */
  function Under(dir: string, p: string): (r: string)
    ensures StartsWith(r, "/") && EndsWith(r, p)
  {
    if dir != "" then "/" + dir + "/" + p else "/" + p
  }

  /** A `../` value: n is the number of `../` anywhere in it; the first 3n
      characters are dropped and the rest goes under `dir` with its last n
      components removed, unless `dir` has fewer than n components. */
  function UpRebase(v: string, dir: string): string
    requires StartsWith(v, "../")
  {
    var parts := Split(dir, "/");
    var n := CountFrom(v, "../", 0);
    if |parts| >= n then
      var rest := v[3 * n..];
      var up := Join(parts[..|parts| - n], "/");
      if up != "" then "/" + up + "/" + rest else "/" + rest
    else v
  }

  /** The first step: the value and whether `modified` was set. */
  function Rebase(v: string, dir: string, domainBase: string): (r: (string, bool))
  {
    if Rebasable(v) then
      var nv :=
        if StartsWith(v, "../") then UpRebase(v, dir)
        else if StartsWith(v, "./") then Under(dir, v[2..])
        else Under(dir, v);
      (nv, true)
    else if StartsWith(v, domainBase) then
      var rest := v[|domainBase|..];
      (if StartsWith(rest, "/") then rest else "/" + rest, true)
    else (v, false)
  }

  /** A plain relative value goes under the page's directory, and so does a
      `./` value without its `./`. */
  lemma RebaseRelative(v: string, dir: string, domainBase: string)
    requires Rebasable(v) && !StartsWith(v, "../")
    ensures !StartsWith(v, "./") ==> Rebase(v, dir, domainBase) == (if dir != "" then "/" + dir + "/" + v else "/" + v, true)
    ensures StartsWith(v, "./") ==> Rebase(v, dir, domainBase) == (if dir != "" then "/" + dir + "/" + v[2..] else "/" + v[2..], true)
  {
  }

  /** `"../" * n`. */
  function Ups(n: nat): (r: string)
    ensures |r| == 3 * n
  {
    if n == 0 then "" else "../" + Ups(n - 1)
  }

  /** The count of `../` in `"../" * n + p`, when p holds none, is n. */
  lemma {:induction false} CountUps(n: nat, p: string, k: nat)
    requires k <= n && !Contains(p, "../")
    ensures CountFrom(Ups(n) + p, "../", 3 * k) == n - k
    decreases n - k
  {
    var s := Ups(n) + p;
    if k < n {
      UpsAt(n, k, p);
      assert StartsAt(s, 3 * k, "../");
      CountUps(n, p, k + 1);
    } else {
      NoUpsAfter(n, p);
    }
  }

  /** Past the leading `../` runs of `"../" * n + p` there is no `../`. */
  lemma NoUpsAfter(n: nat, p: string)
    requires !Contains(p, "../")
    ensures FindFrom(Ups(n) + p, "../", 3 * n).None?
  {
    var s := Ups(n) + p;
    ContainsIff(p, "../");
    forall i: nat | 3 * n <= i ensures !StartsAt(s, i, "../") {
      if i + 3 <= |s| {
        assert s[i..i + 3] == p[i - 3 * n..i - 3 * n + 3];
        assert !StartsAt(p, i - 3 * n, "../");
      }
    }
  }

  lemma {:induction false} UpsAt(n: nat, k: nat, p: string)
    requires k < n
    ensures (Ups(n) + p)[3 * k..3 * k + 3] == "../"
    decreases n
  {
    if k > 0 {
      UpsAt(n - 1, k - 1, p);
      assert Ups(n) + p == "../" + (Ups(n - 1) + p);
    }
  }

  /** For a value of n leading `../` followed by a path without `../`, the
      path goes under the directory with its last n components removed; a
      directory with fewer than n components leaves the value as it is. */
  lemma UpRebaseLeading(n: nat, p: string, dir: string)
    requires n >= 1 && !Contains(p, "../")
    ensures var parts := Split(dir, "/");
      && (|parts| >= n ==>
            var up := Join(parts[..|parts| - n], "/");
            UpRebase(Ups(n) + p, dir) == (if up != "" then "/" + up + "/" + p else "/" + p))
      && (|parts| < n ==> UpRebase(Ups(n) + p, dir) == Ups(n) + p)
  {
    CountUps(n, p, 0);
    assert (Ups(n) + p)[3 * n..] == p;
  }

  /** The site's own absolute URL loses the scheme and host and is rooted. */
  lemma RebaseDomain(v: string, dir: string, domainBase: string)
    requires !Rebasable(v) && StartsWith(v, domainBase)
    ensures var r := Rebase(v, dir, domainBase);
      && r.1
      && StartsWith(r.0, "/")
      && EndsWith(r.0, v[|domainBase|..])
      && |r.0| <= |v| - |domainBase| + 1
  {
  }

  // ---------------------------------------------------------------------
  // `re.sub(r'\.(asp|php)\.html($|\?|#)', r'.html\2', v, flags=re.IGNORECASE)`

  /** The regex engine's case-insensitive match of `c` against the lower-case
      pattern character `t`; U+017F (long s) also matches `s`. */
  predicate CharCI(c: char, t: char) {
    LowerChar(c) == t || (t == 's' && c == '\U{017F}')
  }

  predicate LitAt(s: string, i: nat, lit: string) {
    i + |lit| <= |s| && forall k :: 0 <= k < |lit| ==> CharCI(s[i + k], lit[k])
  }

  /** `\.(asp|php)\.html` at i. */
  predicate ExtAt(s: string, i: nat) {
    LitAt(s, i, ".asp.html") || LitAt(s, i, ".php.html")
  }

  /** `$` at j: the end, or just before a final newline. */
  predicate EndAnchor(s: string, j: nat) {
    j == |s| || (j + 1 == |s| && s[j] == '\n')
  }

  /** The whole pattern matches at i. */
  predicate ExtMatchAt(s: string, i: nat) {
    ExtAt(s, i) && (EndAnchor(s, i + 9) || (i + 9 < |s| && (s[i + 9] == '?' || s[i + 9] == '#')))
  }

  /** The substitution from i on. A match's `?` or `#` is put back by the
      replacement `\2`; here it is left in place and copied by the next
      step, which cannot match there. */
  function FixExtFrom(s: string, i: nat): (r: string)
    ensures |r| <= |s| - i || (i > |s| && r == "")
    decreases |s| - i
  {
    if i >= |s| then ""
    else if ExtMatchAt(s, i) then ".html" + FixExtFrom(s, i + 9)
    else [s[i]] + FixExtFrom(s, i + 1)
  }

  function FixExtensions(s: string): string
  {
    FixExtFrom(s, 0)
  }

  /** What a match of `\.(asp|php)\.html` at i says about single
      characters: dots at i and i + 4 and nowhere else, an `h` (in either
      case) at i + 5 and none at i + 1. */
  lemma ExtChars(s: string, i: nat)
    requires ExtAt(s, i)
    ensures i + 9 <= |s| && s[i] == '.' && s[i + 4] == '.'
    ensures s[i + 1] != '.' && s[i + 2] != '.' && s[i + 3] != '.'
    ensures s[i + 5] != '.' && s[i + 6] != '.' && s[i + 7] != '.' && s[i + 8] != '.'
    ensures LowerChar(s[i + 5]) == 'h' && LowerChar(s[i + 1]) != 'h'
  {
    if LitAt(s, i, ".asp.html") {
      LitChars(s, i, ".asp.html");
    } else {
      LitChars(s, i, ".php.html");
    }
  }

  lemma LitChars(s: string, i: nat, lit: string)
    requires lit == ".asp.html" || lit == ".php.html"
    requires LitAt(s, i, lit)
    ensures s[i] == '.' && s[i + 4] == '.'
    ensures s[i + 1] != '.' && s[i + 2] != '.' && s[i + 3] != '.'
    ensures s[i + 5] != '.' && s[i + 6] != '.' && s[i + 7] != '.' && s[i + 8] != '.'
    ensures LowerChar(s[i + 5]) == 'h' && LowerChar(s[i + 1]) != 'h'
  {
    assert CharCI(s[i + 0], lit[0]) && CharCI(s[i + 4], lit[4]);
    assert CharCI(s[i + 1], lit[1]) && CharCI(s[i + 2], lit[2]) && CharCI(s[i + 3], lit[3]);
    assert CharCI(s[i + 5], lit[5]) && CharCI(s[i + 6], lit[6]) && CharCI(s[i + 7], lit[7]);
    assert CharCI(s[i + 8], lit[8]);
  }

  /** Two matches of `\.(asp|php)\.html` never overlap. */
  lemma ExtApart(s: string, i: nat, j: nat)
    requires ExtAt(s, i) && ExtAt(s, j) && i < j
    ensures j >= i + 9
  {
    ExtChars(s, i);
    ExtChars(s, j);
  }

  lemma {:induction false} FixExtIdentity(s: string, i: nat)
    requires i <= |s|
    requires forall k :: i <= k < |s| ==> !ExtMatchAt(s, k)
    ensures FixExtFrom(s, i) == s[i..]
    decreases |s| - i
  {
    if i < |s| {
      FixExtIdentity(s, i + 1);
      assert s[i..] == [s[i]] + s[i + 1..];
    }
  }

  lemma {:induction false} FixExtShrinks(s: string, i: nat, k: nat)
    requires i <= k < |s| && ExtMatchAt(s, k)
    ensures |FixExtFrom(s, i)| < |s| - i
    decreases |s| - i
  {
    if !ExtMatchAt(s, i) {
      FixExtShrinks(s, i + 1, k);
    }
  }

  /** The extension step changes a value exactly when the pattern matches
      somewhere in it; this is what decides `modified` for that step. */
  lemma FixExtensionsIff(s: string)
    ensures FixExtensions(s) == s <==> forall k :: 0 <= k < |s| ==> !ExtMatchAt(s, k)
  {
    if forall k :: 0 <= k < |s| ==> !ExtMatchAt(s, k) {
      FixExtIdentity(s, 0);
    } else {
      var k :| 0 <= k < |s| && ExtMatchAt(s, k);
      FixExtShrinks(s, 0, k);
    }
  }

  /** The substitution reaches every start of `\.(asp|php)\.html`: what it
      produces from there is a suffix of what it produces from earlier. */
  lemma {:induction false} FixExtReaches(s: string, i: nat, j: nat)
    requires i <= j && ExtAt(s, j)
    ensures EndsWith(FixExtFrom(s, i), FixExtFrom(s, j))
    decreases j - i
  {
    if i < j {
      var n := if ExtMatchAt(s, i) then i + 9 else i + 1;
      if ExtMatchAt(s, i) {
        ExtApart(s, i, j);
      }
      FixExtStep(s, i);
      FixExtReaches(s, n, j);
      EndsWithTrans(FixExtFrom(s, i), FixExtFrom(s, n), FixExtFrom(s, j));
    }
  }

  /** One step of the substitution only puts text in front. */
  lemma FixExtStep(s: string, i: nat)
    requires i < |s|
    ensures EndsWith(FixExtFrom(s, i), FixExtFrom(s, if ExtMatchAt(s, i) then i + 9 else i + 1))
  {
    var n := if ExtMatchAt(s, i) then i + 9 else i + 1;
    var head := if ExtMatchAt(s, i) then ".html" else [s[i]];
    assert FixExtFrom(s, i) == head + FixExtFrom(s, n);
  }

  lemma EndsWithTrans(a: string, b: string, c: string)
    requires EndsWith(a, b) && EndsWith(b, c)
    ensures EndsWith(a, c)
  {
    assert a[|a| - |c|..] == a[|a| - |b|..][|b| - |c|..];
  }

  /** A value ending in `.asp.html` or `.php.html` (any case), possibly
      followed by one `?`, `#` or final newline, ends in `.html` and that
      character afterwards. */
  lemma FixExtensionsEnding(s: string)
    ensures |s| >= 9 && ExtAt(s, |s| - 9) ==> EndsWith(FixExtensions(s), ".html")
    ensures |s| >= 10 && ExtAt(s, |s| - 10) && s[|s| - 1] in "?#\n" ==>
      EndsWith(FixExtensions(s), ".html" + [s[|s| - 1]])
  {
    if |s| >= 9 && ExtAt(s, |s| - 9) {
      FixExtEndingPlain(s);
    }
    if |s| >= 10 && ExtAt(s, |s| - 10) && s[|s| - 1] in "?#\n" {
      FixExtEndingMark(s);
    }
  }

  lemma FixExtEndingPlain(s: string)
    requires |s| >= 9 && ExtAt(s, |s| - 9)
    ensures EndsWith(FixExtensions(s), ".html")
  {
    var i := |s| - 9;
    assert ExtMatchAt(s, i);
    assert FixExtFrom(s, i) == ".html";
    FixExtReaches(s, 0, i);
  }

  lemma FixExtEndingMark(s: string)
    requires |s| >= 10 && ExtAt(s, |s| - 10) && s[|s| - 1] in "?#\n"
    ensures EndsWith(FixExtensions(s), ".html" + [s[|s| - 1]])
  {
    var i := |s| - 10;
    assert ExtMatchAt(s, i);
    assert !ExtMatchAt(s, |s| - 1);
    assert FixExtFrom(s, |s| - 1) == [s[|s| - 1]];
    assert FixExtFrom(s, i) == ".html" + [s[|s| - 1]];
    FixExtReaches(s, 0, i);
  }

  // ---------------------------------------------------------------------
  // Slash clean-up

  /** End of the run of slashes starting at i. */
  function SlashRunEnd(s: string, i: nat): (e: nat)
    requires i <= |s|
    ensures i <= e <= |s|
    ensures forall k :: i <= k < e ==> s[k] == '/'
    ensures e == |s| || s[e] != '/'
    decreases |s| - i
  {
    if i == |s| || s[i] != '/' then i else SlashRunEnd(s, i + 1)
  }

  /** No two slashes in a row. */
  predicate NoDoubleSlash(s: string) {
    forall k :: 0 <= k && k + 1 < |s| ==> !(s[k] == '/' && s[k + 1] == '/')
  }

  /** `re.sub(r'//+', '/', s)`: every run of slashes becomes one. */
  function CollapseSlashes(s: string): (r: string)
    ensures NoDoubleSlash(r)
    ensures |r| > 0 <==> |s| > 0
    ensures |r| > 0 ==> (r[0] == '/' <==> s[0] == '/')
    decreases |s|
  {
    if |s| == 0 then ""
    else if s[0] == '/' then "/" + CollapseSlashes(s[SlashRunEnd(s, 0)..])
    else [s[0]] + CollapseSlashes(s[1..])
  }

  /** The characters other than slashes. */
  function NonSlashes(s: string): string
  {
    if |s| == 0 then "" else (if s[0] == '/' then "" else [s[0]]) + NonSlashes(s[1..])
  }

  lemma {:induction false} NonSlashesAfterRun(s: string, e: nat)
    requires e <= |s| && forall k :: 0 <= k < e ==> s[k] == '/'
    ensures NonSlashes(s) == NonSlashes(s[e..])
    decreases e
  {
    if e > 0 {
      assert s[1..][e - 1..] == s[e..];
      NonSlashesAfterRun(s[1..], e - 1);
    }
  }

  /** Collapsing only removes slashes: every other character is kept, in
      order. */
  lemma {:induction false} CollapseKeepsText(s: string)
    ensures NonSlashes(CollapseSlashes(s)) == NonSlashes(s)
    decreases |s|
  {
    if |s| > 0 {
      if s[0] == '/' {
        var e := SlashRunEnd(s, 0);
        CollapseKeepsText(s[e..]);
        NonSlashesAfterRun(s, e);
      } else {
        CollapseKeepsText(s[1..]);
      }
    }
  }

  /** Collapsing leaves alone a value with no two slashes in a row, so it
      is idempotent. */
  lemma {:induction false} CollapseIdentity(s: string)
    requires NoDoubleSlash(s)
    ensures CollapseSlashes(s) == s
    decreases |s|
  {
    if |s| > 0 {
      assert NoDoubleSlash(s[1..]) by {
        forall k | 0 <= k && k + 1 < |s[1..]| ensures !(s[1..][k] == '/' && s[1..][k + 1] == '/') {
          assert s[1..][k] == s[k + 1] && s[1..][k + 1] == s[k + 2];
        }
      }
      CollapseIdentity(s[1..]);
      if s[0] == '/' {
        assert SlashRunEnd(s, 0) == 1 by {
          assert |s| == 1 || s[1] != '/';
          assert SlashRunEnd(s, 1) == 1;
        }
      }
      assert s == [s[0]] + s[1..];
    }
  }

  lemma CollapseIdempotent(s: string)
    ensures CollapseSlashes(CollapseSlashes(s)) == CollapseSlashes(s)
  {
    CollapseIdentity(CollapseSlashes(s));
  }

  /** Keep `//` in the first `scheme://`, collapse the rest. */
  function CleanSlashes(s: string): string
  {
    match FindFrom(s, "://", 0)
    case Some(i) => s[..i] + "://" + CollapseSlashes(s[i + 3..])
    case None => CollapseSlashes(s)
  }

  /** Without two slashes in a row there is no `//`, and so no `://`. */
  lemma NoDoubleSlashFree(s: string)
    requires NoDoubleSlash(s)
    ensures !Contains(s, "//") && FindFrom(s, "://", 0).None?
  {
    forall i: nat ensures !StartsAt(s, i, "//") {
      if i + 2 <= |s| {
        assert s[i..i + 2][0] == s[i] && s[i..i + 2][1] == s[i + 1];
      }
    }
    forall i: nat ensures !StartsAt(s, i, "://") {
      if i + 3 <= |s| {
        assert s[i..i + 3][1] == s[i + 1] && s[i..i + 3][2] == s[i + 2];
      }
    }
  }

  /** The cleaned value keeps everything up to and including the first
      `://`, so that is still its first `://`. */
  lemma CleanKeepsScheme(s: string, i: nat)
    requires FindFrom(s, "://", 0) == Some(i)
    ensures FindFrom(CleanSlashes(s), "://", 0) == Some(i)
  {
    var r := CleanSlashes(s);
    FindFromFirst(s, "://", 0);
    var rp, sp := r[..i + 3], s[..i + 3];
    assert rp == sp;
    forall k: nat | k < i ensures !StartsAt(r, k, "://") {
      assert !StartsAt(s, k, "://");
      assert r[k..k + 3] == rp[k..k + 3];
      assert s[k..k + 3] == sp[k..k + 3];
    }
    assert r[i..i + 3] == rp[i..i + 3];
    assert s[i..i + 3] == sp[i..i + 3];
    FindFromAt(r, "://", 0, i);
  }

  /** The first `://` of a cleaned value is the original's, and after it (or
      anywhere, when there is none) no `//` is left. */
  lemma CleanSlashesSpec(s: string)
    ensures FindFrom(CleanSlashes(s), "://", 0) == FindFrom(s, "://", 0)
    ensures FindFrom(s, "://", 0).Some? ==>
      var i := FindFrom(s, "://", 0).value;
      i + 3 <= |CleanSlashes(s)| && !Contains(CleanSlashes(s)[i + 3..], "//")
    ensures FindFrom(s, "://", 0).None? ==> !Contains(CleanSlashes(s), "//")
  {
    match FindFrom(s, "://", 0)
    case Some(i) =>
      CleanKeepsScheme(s, i);
      var c := CollapseSlashes(s[i + 3..]);
      assert CleanSlashes(s)[i + 3..] == c;
      NoDoubleSlashFree(c);
    case None =>
      NoDoubleSlashFree(CollapseSlashes(s));
  }

  // ---------------------------------------------------------------------
  // The whole attribute rewrite

  /** The value after the rewrite and the `modified` flag it sets. */
  datatype AttrRewrite = AttrRewrite(value: string, modified: bool)

  /** The rewrite as the program performs it: the slash clean-up changes the
      value but never sets `modified`. */
  function RewriteAttrAsWritten(v: string, dir: string, domainBase: string): (r: AttrRewrite)
    ensures r.modified ==> Rebase(v, dir, domainBase).1 || FixExtensions(Rebase(v, dir, domainBase).0) != Rebase(v, dir, domainBase).0
  {
    var (v1, m1) := Rebase(v, dir, domainBase);
    var v2 := FixExtensions(v1);
    AttrRewrite(CleanSlashes(v2), m1 || v2 != v1)
  }

  /** The rewrite with `modified` also set when the slash clean-up is the
      only change, so that every rewritten value is saved. */
  function RewriteAttr(v: string, dir: string, domainBase: string): (r: AttrRewrite)
    ensures r.value != v ==> r.modified
  {
    var (v1, m1) := Rebase(v, dir, domainBase);
    var v2 := FixExtensions(v1);
    var v3 := CleanSlashes(v2);
    AttrRewrite(v3, m1 || v2 != v1 || v3 != v)
  }

  /** The two agree except when only the slash clean-up changed the value. */
  lemma RewriteAttrAgree(v: string, dir: string, domainBase: string)
    ensures RewriteAttr(v, dir, domainBase).value == RewriteAttrAsWritten(v, dir, domainBase).value
    ensures RewriteAttr(v, dir, domainBase).modified != RewriteAttrAsWritten(v, dir, domainBase).modified ==>
      && !Rebase(v, dir, domainBase).1
      && Rebase(v, dir, domainBase).0 == v
      && FixExtensions(v) == v
      && RewriteAttr(v, dir, domainBase).value != v
  {
  }

  /** One page: its attribute values in document order after the rewrite,
      and whether the page is written back (`if modified:`), as the program
      decides it. */
  function NormalizePageAsWritten(values: seq<string>, dir: string, domainBase: string): (r: (seq<string>, bool))
    ensures |r.0| == |values|
    ensures forall k :: 0 <= k < |values| ==> r.0[k] == RewriteAttr(values[k], dir, domainBase).value
    ensures r.1 <==> exists k :: 0 <= k < |values| && RewriteAttrAsWritten(values[k], dir, domainBase).modified
  {
    if |values| == 0 then ([], false)
    else
      var a := RewriteAttrAsWritten(values[0], dir, domainBase);
      var rest := NormalizePageAsWritten(values[1..], dir, domainBase);
      RewriteAttrAgree(values[0], dir, domainBase);
      assert forall k :: 1 <= k < |values| ==> values[1..][k - 1] == values[k];
      ([a.value] + rest.0, a.modified || rest.1)
  }

  /** The page with the corrected flag. */
  function NormalizePage(values: seq<string>, dir: string, domainBase: string): (r: (seq<string>, bool))
    ensures |r.0| == |values|
    ensures forall k :: 0 <= k < |values| ==> r.0[k] == RewriteAttr(values[k], dir, domainBase).value
    ensures r.1 <==> exists k :: 0 <= k < |values| && RewriteAttr(values[k], dir, domainBase).modified
  {
    if |values| == 0 then ([], false)
    else
      var a := RewriteAttr(values[0], dir, domainBase);
      var rest := NormalizePage(values[1..], dir, domainBase);
      assert forall k :: 1 <= k < |values| ==> values[1..][k - 1] == values[k];
      ([a.value] + rest.0, a.modified || rest.1)
  }

  /** With the corrected flag a page whose text would change is always
      written back; the program's flag can leave such a page unsaved. */
  lemma NormalizePageSaves(values: seq<string>, dir: string, domainBase: string)
    ensures NormalizePage(values, dir, domainBase).0 != values ==> NormalizePage(values, dir, domainBase).1
    ensures NormalizePageAsWritten(values, dir, domainBase).1 ==> NormalizePage(values, dir, domainBase).1
  {
    var r := NormalizePage(values, dir, domainBase);
    if r.0 != values {
      var k :| 0 <= k < |values| && r.0[k] != values[k];
      assert RewriteAttr(values[k], dir, domainBase).modified;
    }
    if NormalizePageAsWritten(values, dir, domainBase).1 {
      var k :| 0 <= k < |values| && RewriteAttrAsWritten(values[k], dir, domainBase).modified;
      RewriteAttrAgree(values[k], dir, domainBase);
    }
  }

  /** A page whose one attribute value is `/a//b.html` would be rewritten to
      `/a/b.html`, but is not saved. */
  lemma PageNotSaved()
    ensures var r := NormalizePageAsWritten(["/a//b.html"], "", "https://example.com");
      r.0 == ["/a/b.html"] && !r.1
  {
    SlashOnlyChangeNotSaved();
    RewriteAttrAgree("/a//b.html", "", "https://example.com");
  }

  /** `/a//b.html` on a page: the value is rewritten to `/a/b.html` but
      `modified` stays false, so the page is not saved. */
  lemma SlashOnlyChangeNotSaved()
    ensures var r := RewriteAttrAsWritten("/a//b.html", "", "https://example.com");
      r.value == "/a/b.html" && !r.modified
  {
    var v := "/a//b.html";
    ExampleRebase();
    ExampleExtensions();
    ExampleSlashes();
  }

  lemma ExampleRebase()
    ensures Rebase("/a//b.html", "", "https://example.com") == ("/a//b.html", false)
  {
    assert StartsWith("/a//b.html", SkipPrefixes[0]);
    assert "/a//b.html"[0] != "https://example.com"[0];
  }

  lemma ExampleExtensions()
    ensures FixExtensions("/a//b.html") == "/a//b.html"
  {
    var v := "/a//b.html";
    forall k | 0 <= k < |v| ensures !ExtMatchAt(v, k) {
      if k + 9 <= |v| {
        assert v[k] != '.';
        assert !CharCI(v[k + 0], ".asp.html"[0]) && !CharCI(v[k + 0], ".php.html"[0]);
      }
    }
    FixExtIdentity(v, 0);
  }

  lemma ExampleSlashes()
    ensures CleanSlashes("/a//b.html") == "/a/b.html"
  {
    ExampleNoScheme();
    ExampleCollapse();
  }

  lemma ExampleNoScheme()
    ensures FindFrom("/a//b.html", "://", 0).None?
  {
    var v := "/a//b.html";
    forall k: nat | k + 3 <= |v| ensures !StartsAt(v, k, "://") {
      assert v[k] != ':';
      assert v[k..k + 3][0] == v[k];
    }
  }

  lemma ExampleCollapse()
    ensures CollapseSlashes("/a//b.html") == "/a/b.html"
  {
    var v := "/a//b.html";
    assert v[0] == '/' && v[1] != '/';
    CollapseLead(v);
    assert SlashRunEnd(v, 0) == 1;
    ExampleSlices();
    ExampleCollapseA();
    ExampleJoins();
  }

  lemma ExampleCollapseA()
    ensures CollapseSlashes("a//b.html") == "a/b.html"
  {
    var v := "a//b.html";
    assert v[0] == 'a';
    CollapseOther(v);
    ExampleSlices();
    ExampleCollapseRun();
    ExampleJoins();
  }

  lemma ExampleCollapseRun()
    ensures CollapseSlashes("//b.html") == "/b.html"
  {
    var v := "//b.html";
    assert v[0] == '/' && v[1] == '/' && v[2] != '/';
    CollapseLead(v);
    assert SlashRunEnd(v, 1) == 2;
    ExampleSlices();
    ExampleCollapseName();
    ExampleJoins();
  }

  lemma ExampleCollapseName()
    ensures CollapseSlashes("b.html") == "b.html"
  {
    var t := "b.html";
    forall k | 0 <= k && k + 1 < |t| ensures !(t[k] == '/' && t[k + 1] == '/') {
      assert t[k] != '/';
    }
    CollapseIdentity(t);
  }

  /** The tails the example's collapse steps go on from. */
  lemma ExampleSlices()
    ensures "/a//b.html"[1..] == "a//b.html"
    ensures "a//b.html"[1..] == "//b.html"
    ensures "//b.html"[2..] == "b.html"
  {
  }

  /** The pieces the example's collapse steps put together. */
  lemma ExampleJoins()
    ensures "/" + "a/b.html" == "/a/b.html"
    ensures ['a'] + "/b.html" == "a/b.html"
    ensures "/" + "b.html" == "/b.html"
  {
  }

  lemma CollapseLead(s: string)
    requires |s| > 0 && s[0] == '/'
    ensures CollapseSlashes(s) == "/" + CollapseSlashes(s[SlashRunEnd(s, 0)..])
  {
  }

  lemma CollapseOther(s: string)
    requires |s| > 0 && s[0] != '/'
    ensures CollapseSlashes(s) == [s[0]] + CollapseSlashes(s[1..])
  {
  }
}
